=== FILE: README.md ===
# A Dafny model of the scraper's extraction and orchestration core

The scraper is a Spring service with two endpoints.

- `POST /scrape/web` fetches a list of web pages. It pulls a title, a description, e-mail addresses, phone numbers, social links, the main text and the host out of each page. Each record is then cut down to the requested fields.
- `POST /scrape/instagram` logs into Instagram in a browser and opens a target profile. It scrolls through the followers and/or following dialogs and builds one profile per account it sees. Each profile gets the contact details the account's bio reveals.

Each endpoint answers with its response as JSON, or as a CSV table when the request asks for one.

This project models that core as pure Dafny functions and proves what each one promises:

- `Text`: the Java string operations the code relies on. This covers `trim`, `toLowerCase`, `indexOf`/`contains`, and `split` with a fixed-width pattern (trailing empty pieces dropped). It also covers the `\s+` collapse, `String.join` and `String.valueOf(long)`.
- `Records`: the model classes.
- `Csv`: the shape both CSV exports share, and their column selection.
- `Patterns`: the regular-expression scanners (as oracles), the e-mail false-positive filter, and the web and bio extractors. It also holds the keyword cues for contact and location lines.
- `WebScraping`: `scrapeUrl`, the description/content heuristics, `filterScrapedData` and `scrapeWebData`.
- `WebCsv`: `WebScrapingService.convertToCsv`.
- `Instagram`:
  - `extractUsernameFromUrl` and `extractProfileFromLink`;
  - the scroll-and-collect loop;
  - `calculateStatistics`;
  - `scrapeInstagramProfiles`.
- `Controller`: `convertInstagramToCsv` and the JSON/CSV reply choice of both endpoints.

The browser, the network and the clock are inputs:

- a fetch result per URL;
- whether the browser starts, logs in and finds the profile;
- what each scroll of a dialog shows;
- the elapsed times.

Java `null` is `None`. A Java `Set<String>` is a duplicate-free sequence.

Where the code evidently misbehaves (see "## Findings"), the member named after the source models the code as written. A member whose name ends in `Intended` models the corrected behaviour beside it.

Three behaviours of the code are easy to miss, and the model keeps them:

- The Instagram JSON reply is not cut down to the selected fields, although the request's own schema text (`InstagramScrapeRequest.java:40`) calls `fieldsToExtract` the "fields to extract from Instagram profiles". Only the CSV honours the selection (`Controller.InstagramJsonUnfiltered`).
- A profile counts as "with contact" only when its contact line is non-empty, not merely non-null (`Instagram.HasContact`).
- A null topic, a negative `maxResults` and a null metadata value each make the whole `scrapeWebData` call report an error. (Request validation in front of the service is not modelled.)

## Model

| member | source | states |
|---|---|---|
| Text.Trim | src/main/java/com/scraper/service/WebScrapingService.java:275 | `String.trim`: the result has no char at or below U+0020 at either end; it is the text starting at the first non-blank char; it is empty exactly when the text is all blank |
| Text.TrimPadded | src/main/java/com/scraper/service/WebScrapingService.java:282 | trimming blank padding around a trimmed core gives back exactly the core |
| Text.TrimIdempotent | src/main/java/com/scraper/service/InstagramScrapingService.java:509-511 | trimming twice (as both cue extractors do) equals trimming once |
| Text.ToLower | src/main/java/com/scraper/service/WebScrapingService.java:322 | `toLowerCase` keeps the length, leaves no capital letter behind, and changes a char exactly when it is a capital |
| Text.ToLowerIsLowerCase | src/main/java/com/scraper/service/WebScrapingService.java:334 | lower-casing an already lower-cased e-mail changes nothing |
| Text.LowerCharNeverCapitalYDiaeresis | src/main/java/com/scraper/service/InstagramScrapingService.java:529 | U+0178 never survives `toLowerCase` (the cause of the first finding) |
| Text.IndexOf | src/main/java/com/scraper/service/InstagramScrapingService.java:505 | `indexOf` returns an occurrence, and no occurrence lies before it; no result means no occurrence anywhere |
| Text.ContainsIsSubstring | src/main/java/com/scraper/service/InstagramScrapingService.java:384 | `contains` holds exactly when the key occurs somewhere |
| Text.FindFrom | src/main/java/com/scraper/service/InstagramScrapingService.java:389 | the leftmost match of a pattern at or after a position, or none at all |
| Text.Split | src/main/java/com/scraper/service/InstagramScrapingService.java:389-391 | without a match `split` returns the whole text; with the first match after position 0, the first piece is the text before it; every piece is a piece of the input in which the pattern never matches |
| Text.SplitOnCharFirst | src/main/java/com/scraper/service/InstagramScrapingService.java:391 | splitting on a char gives, first, the non-empty text before that char |
| Text.NormalizeSpace | src/main/java/com/scraper/service/WebScrapingService.java:507 | `replaceAll("\\s+", " ").trim()`: every whitespace char left is a single space, no two spaces are adjacent, the result is trimmed, and the visible chars are unchanged |
| Text.NormalizeSpaceAtRun | src/main/java/com/scraper/service/WebScrapingService.java:507 | a whitespace run between two visible chars becomes exactly one space: normalising `x`, the run, then `y` gives normalised `x`, a space, normalised `y` |
| Text.Join | src/main/java/com/scraper/service/WebScrapingService.java:498 | `String.join("; ", set)` contains every element, and is empty for an empty set |
| Text.JoinSplitRoundTrip | src/main/java/com/scraper/service/WebScrapingService.java:498 | splitting the "; "-joined list on "; " gives the elements back in order, when none is empty or holds "; " |
| Text.DecimalRoundTrip | src/main/java/com/scraper/service/WebScrapingService.java:489 | the decimal digits of a count read back as the count |
| Text.IntDecimalRoundTrip | src/main/java/com/scraper/service/WebScrapingService.java:489 | `String.valueOf(long)`, negative values included, parses back to the same number |
| Text.Dedup | src/main/java/com/scraper/service/WebScrapingService.java:317-329 | collecting into a `HashSet`: no duplicates, the same members, no more elements |
| Records.CountsPartition | src/main/java/com/scraper/service/WebScrapingService.java:86-87 | when every record is a success or an error, the success and error counts add up to the number of records |
| Csv.SelectColumns | src/main/java/com/scraper/service/WebScrapingService.java:473-480 | the chain of `contains` tests keeps exactly the columns whose name is selected, in the fixed order |
| Csv.UnknownNamesIgnored | src/main/java/com/scraper/service/WebScrapingService.java:473-480 | names that are no column name change nothing in the column selection |
| Patterns.NumericScanSound | src/main/java/com/scraper/service/WebScrapingService.java:341 | when the scan for `.*@\d+\.\d+.*` succeeds, an '@', digits, a dot and digits occur in the e-mail |
| Patterns.NumericScanComplete | src/main/java/com/scraper/service/WebScrapingService.java:341 | every such occurrence is found by the scan |
| Patterns.FalsePositiveMatchesSpec | src/main/java/com/scraper/service/WebScrapingService.java:332-342 | `isFalsePositiveEmail` holds exactly when one of its seven listed conditions holds |
| Patterns.WebEmails | src/main/java/com/scraper/service/WebScrapingService.java:316-330 | the page's e-mails are lower-cased matches that pass the filter; every match that passes is kept; none repeats |
| Patterns.WebPhones | src/main/java/com/scraper/service/WebScrapingService.java:344-354 | the phone numbers are exactly the trimmed matches, without repeats |
| Patterns.WebSocialLinks | src/main/java/com/scraper/service/WebScrapingService.java:356-377 | a link is reported exactly when it is an href the social pattern finds something in, or a social match in the text |
| Patterns.BioEmails | src/main/java/com/scraper/service/InstagramScrapingService.java:454-465 | the bio's e-mails are exactly the raw matches, none for an empty bio |
| Patterns.BioPhones | src/main/java/com/scraper/service/InstagramScrapingService.java:467-478 | the bio's phone numbers are exactly the raw matches, none for an empty bio |
| Patterns.BioExtractionInBio | src/main/java/com/scraper/service/InstagramScrapingService.java:454-490 | with scanners that report pieces of the text, whatever a bio yields is a piece of the bio |
| Patterns.FirstLine | src/main/java/com/scraper/service/InstagramScrapingService.java:507-511 | `trim`, `split("\n")[0]`, `trim` is the trimmed text up to the first line break; the array is never empty, so the cue is never lost |
| Patterns.CueFromFoundIff | src/main/java/com/scraper/service/InstagramScrapingService.java:504-516 | a cue is found exactly when the lower-cased text contains one of the keywords |
| Patterns.CueFromFirstListed | src/main/java/com/scraper/service/InstagramScrapingService.java:504-516 | the cue is the first line after the first keyword in list order that occurs |
| Patterns.ExtractContact | src/main/java/com/scraper/service/InstagramScrapingService.java:492-517 | the contact cue is a single trimmed line |
| Patterns.ContactFoundIff | src/main/java/com/scraper/service/InstagramScrapingService.java:492-517 | a contact line is found exactly when the lower-cased bio contains one of the nine contact keywords |
| Patterns.ExtractLocation | src/main/java/com/scraper/service/InstagramScrapingService.java:519-542 | `extractLocation` as written, with the mis-decoded glyph markers: the location cue is a single trimmed line |
| Patterns.LocationFoundIff | src/main/java/com/scraper/service/InstagramScrapingService.java:519-542 | as written, a location is found exactly when the lower-cased bio contains "based in", "located in" or "from"; the glyph markers never count |
| Patterns.ExtractLocationIntended | src/main/java/com/scraper/service/InstagramScrapingService.java:525-537 | with the pin and globe emoji as markers, the location cue is a single trimmed line |
| Patterns.LocationIntendedFoundIff | src/main/java/com/scraper/service/InstagramScrapingService.java:525-537 | with the emoji markers, a location is found exactly when the lower-cased bio contains one of the six markers |
| Patterns.GlyphMarkersNeverMatch | src/main/java/com/scraper/service/InstagramScrapingService.java:525-531 | none of the three glyph markers as written ever occurs in a lower-cased text |
| Patterns.LocationMissesPin | src/main/java/com/scraper/service/InstagramScrapingService.java:525-537 | a bio that opens with the pin emoji and names no text cue yields no location as written, although it holds the pin |
| Patterns.LocationFindsEveryMarker | src/main/java/com/scraper/service/InstagramScrapingService.java:525-537 | with the emoji markers, a bio containing any listed marker yields a location |
| Patterns.LocationFindsPin | src/main/java/com/scraper/service/InstagramScrapingService.java:525-537 | with the emoji markers, a bio that opens with the pin yields the first line of the text after it, and a one-line place unchanged |
| WebScraping.ExtractTitle | src/main/java/com/scraper/service/WebScrapingService.java:273-276 | the title is trimmed, "" without a title element, and keeps the title's visible chars |
| WebScraping.Abbreviate | src/main/java/com/scraper/service/WebScrapingService.java:310 | a text longer than the limit becomes its prefix plus "..."; a shorter one is kept |
| WebScraping.ExtractDescription | src/main/java/com/scraper/service/WebScrapingService.java:278-314 | meta, then Open Graph, then Twitter description win in that order. Otherwise the first paragraph of 51 to 299 chars, or else the first paragraph trimmed and cut at 200 chars; the result is shorter than 300 chars, and "" without paragraphs |
| WebScraping.DescriptionFromParagraph | src/main/java/com/scraper/service/WebScrapingService.java:298-304 | with no meta description, the first paragraph of 51 to 299 chars is the description |
| WebScraping.ExtractContent | src/main/java/com/scraper/service/WebScrapingService.java:379-406 | the content is trimmed and at most 2003 chars. Without a container holding text it is the trimmed body cut at 2000 chars, and "" without a body |
| WebScraping.ContentFromCandidate | src/main/java/com/scraper/service/WebScrapingService.java:390-397 | the first container with text supplies the content, cut at 2000 chars |
| WebScraping.ScrapeUrl | src/main/java/com/scraper/service/WebScrapingService.java:217-271 | a record for the same URL and time. It is a success exactly when a document arrived; then title, description, content, e-mails, phones, social links and host are what the extractors make of that document, and there is no error. Otherwise it is an error with no fields: "Connection error: " with the cause for a missing document or an I/O failure, "Unexpected error: " with the cause for any other failure |
| WebScraping.ScrapeUrlFailureCause | src/main/java/com/scraper/service/WebScrapingService.java:254-270 | a failed record names its cause: its message starts "Unexpected error: " exactly for failures other than I/O, and what follows the prefix is the exception's message ("null" when it has none) |
| WebScraping.ScrapedEmailsAreClean | src/main/java/com/scraper/service/WebScrapingService.java:322-326 | a page's e-mails are lower-case and pass the false-positive filter |
| WebScraping.FilterScrapedData | src/main/java/com/scraper/service/WebScrapingService.java:419-454 | a null or empty selection keeps everything; url, status, time and error always survive; each other field is kept or dropped |
| WebScraping.FilterKeepsExactlyTheSelected | src/main/java/com/scraper/service/WebScrapingService.java:431-451 | a field survives exactly when its name is selected |
| WebScraping.FilterIdempotent | src/main/java/com/scraper/service/WebScrapingService.java:419-454 | filtering twice with one selection is filtering once |
| WebScraping.FilterAllNamedIsIdentity | src/main/java/com/scraper/service/WebScrapingService.java:419-454 | selecting all seven names keeps the record unchanged |
| WebScraping.ScrapeAll | src/main/java/com/scraper/service/WebScrapingService.java:70-80 | one record per URL, in URL order: the record `scrapeUrl` makes of that URL, cut down to the selection |
| WebScraping.ScrapeWebData | src/main/java/com/scraper/service/WebScrapingService.java:60-113 | a null maximum, a null topic, a negative maximum or a null metadata value each give zero counts, no results and "Scraping failed: " plus the cause: the runtime's message for the two nulls, the number for a negative maximum. Otherwise the results are the filtered records of the first `maxResults` URLs in order, the success count is the number of those URLs whose fetch produced a document, and the counts add up to the results |
| WebScraping.SuccessCountIsFetchCount | src/main/java/com/scraper/service/WebScrapingService.java:86 | the success count is the number of URLs whose fetch produced a document |
| WebCsv.WebCsvColumns | src/main/java/com/scraper/service/WebScrapingService.java:469-480 | a column is exported exactly when its name is selected, in the fixed order title, description, emails, phone numbers, social links, content, domain, error message; a null or empty selection means the seven data columns |
| WebCsv.ConvertToCsv | src/main/java/com/scraper/service/WebScrapingService.java:459-524 | one row per record, every row as wide as the header, the header starting URL, Status, Response Time (ms) |
| WebCsv.CsvHeaderIsSelection | src/main/java/com/scraper/service/WebScrapingService.java:473-480 | a column's header appears exactly when its name is selected |
| WebCsv.CsvDefaultOmitsErrorMessage | src/main/java/com/scraper/service/WebScrapingService.java:469-471 | the default export has no error-message column |
| WebCsv.CsvFixedCells | src/main/java/com/scraper/service/WebScrapingService.java:487-488 | the first two cells are the URL and the status, null as "" |
| WebCsv.CsvTimeCell | src/main/java/com/scraper/service/WebScrapingService.java:489 | the third cell reads back as the response time |
| WebCsv.WebCellContents | src/main/java/com/scraper/service/WebScrapingService.java:497-508 | every e-mail and phone number appears in its cell; the content cell is one trimmed line of the same visible text |
| WebCsv.CsvIgnoresUnknownNames | src/main/java/com/scraper/service/WebScrapingService.java:473-480 | unknown names in a selection change nothing |
| WebCsv.FilterThenExport | src/main/java/com/scraper/service/WebScrapingService.java:419-524 | exporting records already filtered to a selection gives the same table as exporting the full records |
| Instagram.ExtractUsernameFromUrl | src/main/java/com/scraper/service/InstagramScrapingService.java:383-399 | a username is found only in a link containing "instagram.com/"; it is a non-empty piece of the link without '/' or '?' |
| Instagram.UsernameFromLink | src/main/java/com/scraper/service/InstagramScrapingService.java:383-399 | every link the dialogs show yields its username: anything without an 'i' (such as "https://www."), then "instagram.com/", a username that does not itself contain "instagram", then nothing, a path or a query |
| Instagram.ProfileUrlRoundTrip | src/main/java/com/scraper/service/InstagramScrapingService.java:383-399 | reading the username out of the profile URL built from it gives the username back |
| Instagram.LinkKeyInsideUsername | src/main/java/com/scraper/service/InstagramScrapingService.java:383-399 | a username that ends in "instagram.com" is cut short: the link key, a name `a` and the key again yields just `a`, so the condition on the username above cannot be dropped |
| Instagram.ExtractProfileFromLink | src/main/java/com/scraper/service/InstagramScrapingService.java:401-452 | a success carries the name (or the username), the bio (or ""), and the profile URL; its website, contact and location are what `extractWebsite`, `extractContact` and `extractLocation` as written make of that bio. A failure carries only the username, the error status, its message and the read time: no name, bio, URL, e-mails, phones, website, contact or location. Neither sets follower counts |
| Instagram.ExtractProfileFromLinkIntended | src/main/java/com/scraper/service/InstagramScrapingService.java:401-452 | the same profile, except that a success's location is found with the emoji markers |
| Instagram.ProfileLocationFromPin | src/main/java/com/scraper/service/InstagramScrapingService.java:427 | a bio that opens with the pin before a one-line place: no location as written, the place itself as intended |
| Instagram.ProfileUrlNamesProfile | src/main/java/com/scraper/service/InstagramScrapingService.java:433 | a successful profile's URL leads back to its username |
| Instagram.ProfileFromBio | src/main/java/com/scraper/service/InstagramScrapingService.java:421-438 | a profile's e-mails, phones, website and contact are what its bio yields; a missing bio yields none of them |
| Instagram.ScanLinks | src/main/java/com/scraper/service/InstagramScrapingService.java:346-366 | a scroll only appends, never passes the maximum, never forgets a processed username, and changes nothing when it adds no profile |
| Instagram.ScanLinksAddsNew | src/main/java/com/scraper/service/InstagramScrapingService.java:345-360 | a first link whose username is new, below the maximum, is collected next: its profile is the next one appended, and its username is recorded |
| Instagram.ScanLinksComplete | src/main/java/com/scraper/service/InstagramScrapingService.java:346-366 | unless the maximum is reached, every username a scroll shows is recorded as processed afterwards |
| Instagram.ScanLinksConsistent | src/main/java/com/scraper/service/InstagramScrapingService.java:346-366 | no username is collected twice, and the processed usernames are exactly the collected ones |
| Instagram.ScanLinksProvenance | src/main/java/com/scraper/service/InstagramScrapingService.java:346-366 | every profile a scroll adds is the profile of one of the links it showed |
| Instagram.CollectFrom | src/main/java/com/scraper/service/InstagramScrapingService.java:333-378 | the loop only appends, stays within the maximum, and stops at once when full, after three empty scrolls, on a negative delay or on a failed scroll |
| Instagram.CollectFromConsistent | src/main/java/com/scraper/service/InstagramScrapingService.java:333-375 | the whole loop keeps usernames unique |
| Instagram.StagnantScansStop | src/main/java/com/scraper/service/InstagramScrapingService.java:368-373 | three scrolls in a row that add nothing end the loop |
| Instagram.CollectFromKeepsScroll | src/main/java/com/scraper/service/InstagramScrapingService.java:333-375 | a scroll the loop reaches below the maximum is processed completely: unless the loop fills up, every username it shows is recorded at the end |
| Instagram.ScrollAndCollectProfiles | src/main/java/com/scraper/service/InstagramScrapingService.java:322-381 | the loop with `lastSize` and `stableCount` computes the collection CollectFrom defines: at most `max` profiles, distinct usernames |
| Instagram.ScrapePhase | src/main/java/com/scraper/service/InstagramScrapingService.java:266-292 | a dialog that does not open, a negative delay or a non-positive maximum gives no profiles; an opened dialog gives exactly what the scroll loop collects from nothing: at most the maximum, distinct usernames |
| Instagram.ScrapePhaseKeepsFirstScroll | src/main/java/com/scraper/service/InstagramScrapingService.java:266-292 | when the phase stops short of the maximum, every account the first scroll showed has a profile in the list |
| Instagram.CountWithContact | src/main/java/com/scraper/service/InstagramScrapingService.java:555-559 | at most one per profile; 0 exactly when no profile has contact details, all exactly when every one has |
| Instagram.CalculateStatistics | src/main/java/com/scraper/service/InstagramScrapingService.java:544-566 | at most one reachable profile per profile, 0 exactly when none has contact details and all exactly when all have; the contact rate is between 0 and 100 and is reachable profiles × 100 / profiles, 0 for no profiles |
| Instagram.CalculateStatisticsOfOne | src/main/java/com/scraper/service/InstagramScrapingService.java:547-564 | one profile counts its own e-mails and phone numbers (0 when null), and 1 with a rate of 100 exactly when it has contact details |
| Instagram.CalculateStatisticsAppend | src/main/java/com/scraper/service/InstagramScrapingService.java:547-559 | the three totals of two lists joined are the sums of the totals of each |
| Instagram.StatisticsAppend | src/main/java/com/scraper/service/InstagramScrapingService.java:547-559 | the statistics of followers plus following are the sums of each |
| Instagram.ScrapeInstagramProfiles | src/main/java/com/scraper/service/InstagramScrapingService.java:47-112 | the driver is quit exactly when it started. Setup, login and navigation failures each give their message and the error response of `createErrorResponse`: no profiles, no statistics, every count 0. Otherwise the profiles are followers then following, the success and failure counts are the numbers of profiles with each status and add up to them, the statistics cover them, and the follower and following counts are 0 as written |
| Instagram.ScrapeInstagramProfilesIntended | src/main/java/com/scraper/service/InstagramScrapingService.java:88-101 | the same session with every profile relocated by the emoji markers, and the follower and following counts equal to the size of each dialog's list, adding up to the total |
| Instagram.StatusesPartition | src/main/java/com/scraper/service/InstagramScrapingService.java:95-96 | the success and failure counts cover every collected profile |
| Instagram.CountsAsWrittenDiffer | src/main/java/com/scraper/service/InstagramScrapingService.java:91-94 | once a follower is collected, the follower count as written (0) differs from the intended one |
| Instagram.DedupIsPerPhase | src/main/java/com/scraper/service/InstagramScrapingService.java:70-81 | an account in both dialogs appears twice in the response |
| Instagram.CompletedProfilesDistinctPerPhase | src/main/java/com/scraper/service/InstagramScrapingService.java:70-81 | within each half of the response no username repeats |
| Controller.InstagramCsvColumns | src/main/java/com/scraper/controller/ScrapingController.java:322-332 | a column is exported exactly when its name is selected, in the fixed order; a null or empty selection means the six default columns |
| Controller.ConvertInstagramToCsv | src/main/java/com/scraper/controller/ScrapingController.java:312-373 | one row per profile, every row as wide as the header, the header starting Username, Full Name, Profile URL, Status |
| Controller.InstagramCsvHeaderIsSelection | src/main/java/com/scraper/controller/ScrapingController.java:326-332 | a column's header appears exactly when its name is selected |
| Controller.InstagramCsvDefaultOmitsErrorMessage | src/main/java/com/scraper/controller/ScrapingController.java:322-324 | the default export has no error-message column |
| Controller.CollectedProfileRow | src/main/java/com/scraper/controller/ScrapingController.java:338-341 | a collected profile's row starts with its username; a success's URL cell reads back as the username; a failure leaves name and URL empty |
| Controller.FailedProfileCell | src/main/java/com/scraper/controller/ScrapingController.java:343-363 | a failed profile shows its failure in the error-message column and an empty bio |
| Controller.BioCellOneLine | src/main/java/com/scraper/controller/ScrapingController.java:344 | the bio cell is trimmed, has no runs of spaces, and keeps the bio's visible chars |
| Controller.ContactCellsHoldEverything | src/main/java/com/scraper/controller/ScrapingController.java:349-354 | every e-mail and phone number of a profile appears in its cell |
| Controller.InstagramCsvIgnoresUnknownNames | src/main/java/com/scraper/controller/ScrapingController.java:326-332 | unknown names in a selection change nothing |
| Controller.WebReply | src/main/java/com/scraper/controller/ScrapingController.java:106-128 | CSV exactly when `exportAsCsv` is true, with one row per result and a ".csv" file name; otherwise the response unchanged as JSON |
| Controller.InstagramReply | src/main/java/com/scraper/controller/ScrapingController.java:277-299 | CSV exactly when `exportAsCsv` is true, with one row per profile and a ".csv" file name; otherwise the response unchanged as JSON |
| Controller.InstagramJsonUnfiltered | src/main/java/com/scraper/controller/ScrapingController.java:294-299 | the JSON reply keeps the bio of every successful profile the service collects, whatever the selection |

## Left out

- Network, browser and clock. Jsoup, Selenium, `Thread.sleep` and `System.currentTimeMillis` become inputs: a fetch outcome and elapsed time per URL, and whether the browser starts, logs in and finds the profile. Each scroll's links (or its failure), per-entry read times and the processing time are inputs too.
- URL discovery. The list `simulateGoogleSearch` produces is an input of `ScrapeWebData`; only its null-topic and negative-maximum failures are modelled.
- The regular expressions EMAIL, PHONE, WEBSITE and SOCIAL. They are oracles reporting their matches in order; only the false-positive filter and the `instagram.com/` split pattern are modelled exactly.
- Concurrency. The thread pool and `CompletableFuture.join` of `scrapeWebData` are modelled as scraping each URL in turn, because the results are collected in list order after all tasks finish.
- `URI.getHost`, which becomes an input (`WebEnv.host`).
- opencsv quoting and line breaks. The model stops at the table of cells.
- `HashSet` iteration order. Sets keep first-occurrence order, which only matters for the "; " join order in the CSV.
- `toLowerCase` outside Basic Latin, Latin-1, U+0152 and U+0178. Length-changing and locale-dependent mappings are not modelled.
- Java `char` is one UTF-16 unit, a Dafny `char` one Unicode scalar value. Lengths and cut points (the 200- and 2000-char abbreviations, the 51-to-299 paragraph window) count code points, so they differ from the source's for text beyond U+FFFF, such as emoji.
- The runtime's own `NullPointerException` messages. For a null `maxResults` or topic the message depends on the JVM (helpful messages since JDK 15), so it is an input (`WebEnv.nullMaxResultsMessage`, `WebEnv.nullTopicMessage`).
- Boxed nulls in the Instagram request (`scrapeFollowers`, `maxFollowers`, `delayMs` as null). These fields are plain values in the model.
- A failing `driver.quit()`. It runs in the `finally` block at InstagramScrapingService.java:107-111, outside the service's catch, so its exception would replace the response and reach the controller, whose catch answers 500 with "Error processing request: " and the message (ScrapingController.java:301-308). The model takes quitting the browser to succeed.
- The other 500 replies of the controllers. Apart from the quit above, the services' own catches turn every failure into a response.
- Bean validation of the web request. `@Valid` at ScrapingController.java:103, with `@NotBlank` and `@NotNull` in ScrapeRequest.java, makes Spring reject a blank topic or a null maximum with a 400 before `scrapeWebData` runs. The Instagram endpoint has no `@Valid`, so its annotations are never applied.
- The health and info endpoints, the OpenAPI configuration and Spring wiring, which hold no logic.
- Instagram.CalculateStatistics: computes the contact rate as an exact rational, where the source uses double precision.
- Instagram.ScrapePhase: does not model a failure while closing the dialog, which cannot lose the list already collected.

## Findings

| source | as written | input that shows it | evidently intended | confidence | as-written member | corrected member |
|---|---|---|---|---|---|---|
| src/main/java/com/scraper/service/InstagramScrapingService.java:525-537 | The pin and globe location markers are stored as their UTF-8 bytes read as Windows-1252: U+00F0, U+0178, then U+201C or U+0152. They are searched for in the lower-cased bio, where U+0178 never occurs, and a real bio holds the emoji U+1F4CD or U+1F30D anyway, so they never match | the bio U+1F4CD followed by "Rome" (or any place without "based in", "located in" or "from") yields no location | the pin or globe emoji yields the text after it ("Rome") | high; not executed | Patterns.LocationMissesPin | Patterns.LocationFindsPin |
| src/main/java/com/scraper/service/InstagramScrapingService.java:91-94 | `followersScraped` and `followingScraped` count the profiles whose follower/following count is set, but `extractProfileFromLink` never sets those counts | any completed session that collects at least one follower reports `followersScraped` 0 | the number of profiles collected from each dialog | high; not executed | Instagram.CountsAsWrittenDiffer | Instagram.ScrapeInstagramProfilesIntended |

=== FILE: controller.dfy ===
/**
 * The two POST endpoints of ScrapingController: each runs its service and
 * replies with the response as JSON, or, when the request asks for CSV,
 * with the table of the results as a file. The Instagram table is built
 * here (convertInstagramToCsv); the web table is WebCsv's.
 */
module Controller {
  import opened Wrappers
  import opened Text
  import opened Records
  import opened Csv
  import opened WebCsv
  import opened Instagram

  // ---------------------------------------------------------------------------
  // convertInstagramToCsv
  // ---------------------------------------------------------------------------

  /** The optional columns of the Instagram export, in their fixed order. */
  datatype InstagramColumn = Bio | Contact | Email | Phone | Website | Location | Failure

  const InstagramColumns: seq<InstagramColumn> := [Bio, Contact, Email, Phone, Website, Location, Failure]

  /** The name a request uses to select the column. */
  function InstagramColumnName(c: InstagramColumn): string {
    match c
    case Bio => "bio"
    case Contact => "contact"
    case Email => "email"
    case Phone => "phone"
    case Website => "website"
    case Location => "location"
    case Failure => "errorMessage"
  }

  /** The header cell of the column. */
  function InstagramColumnLabel(c: InstagramColumn): string {
    match c
    case Bio => "Bio"
    case Contact => "Contact"
    case Email => "Emails"
    case Phone => "Phone Numbers"
    case Website => "Website"
    case Location => "Location"
    case Failure => "Error Message"
  }

  const InstagramFixedHeader: seq<string> := ["Username", "Full Name", "Profile URL", "Status"]

  /** The selection a null or empty field set stands for: every column but the error message. */
  const DefaultInstagramFields: set<string> := {"bio", "contact", "email", "phone", "website", "location"}

  function InstagramCsvFields(fields: Option<set<string>>): (f: set<string>)
    ensures fields.None? || fields.value == {} ==> f == DefaultInstagramFields
    ensures fields.Some? && fields.value != {} ==> f == fields.value
  {
    if fields.None? || fields.value == {} then DefaultInstagramFields else fields.value
  }

  lemma EveryInstagramColumnListed(c: InstagramColumn)
    ensures c in InstagramColumns
  {
    match c
    case Bio => assert InstagramColumns[0] == c;
    case Contact => assert InstagramColumns[1] == c;
    case Email => assert InstagramColumns[2] == c;
    case Phone => assert InstagramColumns[3] == c;
    case Website => assert InstagramColumns[4] == c;
    case Location => assert InstagramColumns[5] == c;
    case Failure => assert InstagramColumns[6] == c;
  }

  /** The chosen columns: exactly those whose name is in the selection, in the fixed order. */
  function InstagramCsvColumns(fields: Option<set<string>>): (cols: seq<InstagramColumn>)
    ensures forall c :: c in cols <==> InstagramColumnName(c) in InstagramCsvFields(fields)
    ensures IsSubsequence(cols, InstagramColumns)
  {
    var f := InstagramCsvFields(fields);
    var cols := SelectColumns(InstagramColumns, InstagramColumnName, f);
    assert forall c :: c in cols <==> InstagramColumnName(c) in f by {
      forall c ensures c in cols <==> InstagramColumnName(c) in f {
        EveryInstagramColumnListed(c);
      }
    }
    cols
  }

  /** One cell: null becomes "", a set is joined with "; ", the bio's whitespace collapses. */
  function ProfileCell(p: InstagramProfile, c: InstagramColumn): string {
    match c
    case Bio => if p.bio.Some? then NormalizeSpace(p.bio.value) else ""
    case Contact => p.contact.GetOr("")
    case Email => if p.emails.Some? then Join("; ", p.emails.value) else ""
    case Phone => if p.phoneNumbers.Some? then Join("; ", p.phoneNumbers.value) else ""
    case Website => p.website.GetOr("")
    case Location => p.location.GetOr("")
    case Failure => p.errorMessage.GetOr("")
  }

  function ProfileCells(p: InstagramProfile, cols: seq<InstagramColumn>): (cells: seq<string>)
    ensures |cells| == |cols| && forall k :: 0 <= k < |cols| ==> cells[k] == ProfileCell(p, cols[k])
  {
    seq(|cols|, k requires 0 <= k < |cols| => ProfileCell(p, cols[k]))
  }

  /** One row: username, full name, profile URL and status, then one cell per chosen column. */
  function ProfileRow(p: InstagramProfile, cols: seq<InstagramColumn>): (row: seq<string>)
    ensures |row| == 4 + |cols|
    ensures row[0] == p.username.GetOr("") && row[1] == p.fullName.GetOr("")
    ensures row[2] == p.profileUrl.GetOr("") && row[3] == p.status.GetOr("")
    ensures row[4..] == ProfileCells(p, cols)
  {
    [p.username.GetOr(""), p.fullName.GetOr(""), p.profileUrl.GetOr(""), p.status.GetOr("")] + ProfileCells(p, cols)
  }

  function InstagramLabels(cols: seq<InstagramColumn>): (ls: seq<string>)
    ensures |ls| == |cols| && forall i :: 0 <= i < |cols| ==> ls[i] == InstagramColumnLabel(cols[i])
  {
    seq(|cols|, i requires 0 <= i < |cols| => InstagramColumnLabel(cols[i]))
  }

  function InstagramTable(profiles: seq<InstagramProfile>, cols: seq<InstagramColumn>): (t: Table)
    ensures Rectangular(t) && |t.rows| == |profiles|
    ensures t.header == InstagramFixedHeader + InstagramLabels(cols)
    ensures forall i :: 0 <= i < |profiles| ==> t.rows[i] == ProfileRow(profiles[i], cols)
  {
    Table(InstagramFixedHeader + InstagramLabels(cols),
          seq(|profiles|, i requires 0 <= i < |profiles| => ProfileRow(profiles[i], cols)))
  }

  /** convertInstagramToCsv, before opencsv quotes the cells. */
  function ConvertInstagramToCsv(profiles: seq<InstagramProfile>, fields: Option<set<string>>): (t: Table)
    ensures Rectangular(t)
    ensures |t.rows| == |profiles|
    ensures |t.header| >= 4 && t.header[..4] == InstagramFixedHeader
  {
    var t := InstagramTable(profiles, InstagramCsvColumns(fields));
    assert t.header[..4] == InstagramFixedHeader;
    t
  }

  /** The header cell of a column appears exactly when the column was chosen. */
  lemma InstagramLabelsDistinguish(cols: seq<InstagramColumn>)
    ensures forall c :: InstagramColumnLabel(c) in InstagramLabels(cols) <==> c in cols
  {
    forall c ensures InstagramColumnLabel(c) in InstagramLabels(cols) ==> c in cols {
      if InstagramColumnLabel(c) in InstagramLabels(cols) {
        var i :| 0 <= i < |cols| && InstagramLabels(cols)[i] == InstagramColumnLabel(c);
        assert cols[i] == c;
      }
    }
  }

  /** The header names, after the fixed four, exactly the selected columns. */
  lemma InstagramCsvHeaderIsSelection(profiles: seq<InstagramProfile>, fields: Option<set<string>>)
    ensures forall c :: InstagramColumnLabel(c) in ConvertInstagramToCsv(profiles, fields).header[4..]
                        <==> InstagramColumnName(c) in InstagramCsvFields(fields)
  {
    var cols := InstagramCsvColumns(fields);
    assert ConvertInstagramToCsv(profiles, fields).header[4..] == InstagramLabels(cols);
    InstagramLabelsDistinguish(cols);
  }

  lemma FailureNotByDefault()
    ensures InstagramColumnName(Failure) !in DefaultInstagramFields
  {
  }

  /** The default export has no error-message column. */
  lemma InstagramCsvDefaultOmitsErrorMessage(profiles: seq<InstagramProfile>, fields: Option<set<string>>)
    requires fields.None? || fields.value == {}
    ensures InstagramColumnLabel(Failure) !in ConvertInstagramToCsv(profiles, fields).header[4..]
  {
    var cols := InstagramCsvColumns(fields);
    FailureNotByDefault();
    assert Failure !in cols;
    InstagramLabelsDistinguish(cols);
    assert ConvertInstagramToCsv(profiles, fields).header[4..] == InstagramLabels(cols);
  }

  lemma InstagramCsvRowIs(profiles: seq<InstagramProfile>, fields: Option<set<string>>, i: nat)
    requires i < |profiles|
    ensures ConvertInstagramToCsv(profiles, fields).rows[i] == ProfileRow(profiles[i], InstagramCsvColumns(fields))
  {
  }

  /**
   * For a profile the collector built from a link, the row starts with its
   * username, and its profile-URL cell reads back as that username; a failed
   * extraction leaves the name and URL cells empty.
   */
  lemma CollectedProfileRow(sc: Patterns.Scanners, e: Entry, u: string, cols: seq<InstagramColumn>)
    requires IsUsername(u)
    ensures var row := ProfileRow(ExtractProfileFromLink(sc, e, u), cols);
            && row[0] == u
            && (!e.failsExtraction ==> row[3] == StatusSuccess && ExtractUsernameFromUrl(Some(row[2])) == Some(u))
            && (e.failsExtraction ==> row[1] == "" && row[2] == "" && row[3] == StatusError)
  {
    if !e.failsExtraction {
      ProfileUrlRoundTrip(u);
    }
  }

  /** The error-message cell of a failed profile, when that column is chosen, holds the failure. */
  lemma FailedProfileCell(sc: Patterns.Scanners, e: Entry, u: string)
    requires e.failsExtraction
    ensures ProfileCell(ExtractProfileFromLink(sc, e, u), Failure) == ExtractionFailedMessage
    ensures ProfileCell(ExtractProfileFromLink(sc, e, u), Bio) == ""
  {
  }

  /** The bio cell is the bio on one line: no runs of spaces, trimmed, same visible chars. */
  lemma BioCellOneLine(p: InstagramProfile)
    requires p.bio.Some?
    ensures var cell := ProfileCell(p, Bio);
            && IsTrimmed(cell) && Visible(cell) == Visible(p.bio.value)
            && forall i :: 0 <= i < |cell| - 1 ==> !(cell[i] == ' ' && cell[i + 1] == ' ')
  {
  }

  /** Every e-mail and phone number of a profile appears in its cell. */
  lemma ContactCellsHoldEverything(p: InstagramProfile)
    ensures p.emails.Some? ==> forall m :: m in p.emails.value ==> IsSubstring(m, ProfileCell(p, Email))
    ensures p.phoneNumbers.Some? ==> forall m :: m in p.phoneNumbers.value ==> IsSubstring(m, ProfileCell(p, Phone))
  {
  }

  const InstagramColumnNames: set<string> := DefaultInstagramFields + {"errorMessage"}

  /** Names that are not column names change nothing in a selection that names some column. */
  lemma InstagramCsvIgnoresUnknownNames(profiles: seq<InstagramProfile>, f: set<string>)
    requires f * InstagramColumnNames != {}
    ensures ConvertInstagramToCsv(profiles, Some(f)) == ConvertInstagramToCsv(profiles, Some(f * InstagramColumnNames))
  {
    assert forall c :: c in InstagramColumns ==> InstagramColumnName(c) in InstagramColumnNames;
    UnknownNamesIgnored(InstagramColumns, InstagramColumnName, f, InstagramColumnNames);
    assert InstagramCsvColumns(Some(f)) == InstagramCsvColumns(Some(f * InstagramColumnNames));
  }

  // ---------------------------------------------------------------------------
  // The JSON or CSV reply of both endpoints
  // ---------------------------------------------------------------------------

  /** A CSV attachment with its file name, or the service's response as JSON. */
  datatype Reply<R> = CsvReply(table: Table, fileName: string) | JsonReply(body: R)

  /** Only an explicit `exportAsCsv: true` asks for CSV; null and false give JSON. */
  predicate WantsCsv(exportAsCsv: Option<bool>) {
    exportAsCsv == Some(true)
  }

  /** POST /scrape/web, after the service has answered; `now` is the clock for the file name. */
  function WebReply(req: ScrapeRequest, response: ScrapeResponse, now: int): (r: Reply<ScrapeResponse>)
    ensures r.CsvReply? <==> WantsCsv(req.exportAsCsv)
    ensures r.JsonReply? ==> r.body == response
    ensures r.CsvReply? ==> r.table == ConvertToCsv(response.results, req.fieldsToExtract)
                            && |r.table.rows| == |response.results|
    ensures r.CsvReply? ==> EndsWith(r.fileName, ".csv")
  {
    if WantsCsv(req.exportAsCsv) then
      CsvReply(ConvertToCsv(response.results, req.fieldsToExtract), "scraped_data_" + IntToDecimal(now) + ".csv")
    else JsonReply(response)
  }

  /** POST /scrape/instagram, after the service has answered. */
  function InstagramReply(req: InstagramScrapeRequest, response: InstagramScrapeResponse, now: int)
    : (r: Reply<InstagramScrapeResponse>)
    ensures r.CsvReply? <==> WantsCsv(req.exportAsCsv)
    ensures r.JsonReply? ==> r.body == response
    ensures r.CsvReply? ==> r.table == ConvertInstagramToCsv(response.profiles, req.fieldsToExtract)
                            && |r.table.rows| == |response.profiles|
    ensures r.CsvReply? ==> EndsWith(r.fileName, ".csv")
  {
    if WantsCsv(req.exportAsCsv) then
      CsvReply(ConvertInstagramToCsv(response.profiles, req.fieldsToExtract),
               "instagram_data_" + req.targetHandle.GetOr("null") + "_" + IntToDecimal(now) + ".csv")
    else JsonReply(response)
  }

  /**
   * The Instagram JSON reply is not cut down to the selected fields: a
   * successful profile, as the service collects it, keeps its bio whatever
   * the selection says.
   */
  lemma InstagramJsonUnfiltered(req: InstagramScrapeRequest, response: InstagramScrapeResponse, now: int, i: nat)
    requires !WantsCsv(req.exportAsCsv)
    requires i < |response.profiles| && Collectable(response.profiles[i])
    requires response.profiles[i].status == Some(StatusSuccess)
    ensures var r := InstagramReply(req, response, now);
            r.JsonReply? && r.body.profiles[i].bio.Some?
  {
  }
}

=== FILE: csv.dfy ===
/**
 * The shape both CSV exports share: a header row and one row per record,
 * before opencsv quotes and writes them out. Both exports choose their
 * optional columns the same way, by walking a fixed list of columns and
 * keeping those whose request name was asked for.
 */
module Csv {

  datatype Table = Table(header: seq<string>, rows: seq<seq<string>>)

  /** Every row has as many cells as the header. */
  predicate Rectangular(t: Table) {
    forall i :: 0 <= i < |t.rows| ==> |t.rows[i]| == |t.header|
  }

  /** `sub` keeps some elements of `xs` in their original order. */
  ghost predicate IsSubsequence<C>(sub: seq<C>, xs: seq<C>)
    decreases |xs|
  {
    if |sub| == 0 then true
    else if |xs| == 0 then false
    else if sub[0] == xs[0] then IsSubsequence(sub[1..], xs[1..])
    else IsSubsequence(sub, xs[1..])
  }

  /**
   * The columns of `columns` whose name is in `fields`, in the fixed order:
   * the chain of `if (fieldsToExtract.contains(name))` tests of both exports.
   */
  function SelectColumns<C(==,!new)>(columns: seq<C>, name: C -> string, fields: set<string>): (r: seq<C>)
    ensures forall c :: c in r <==> c in columns && name(c) in fields
    ensures IsSubsequence(r, columns)
    decreases |columns|
  {
    if |columns| == 0 then []
    else
      var rest := SelectColumns(columns[1..], name, fields);
      if name(columns[0]) in fields then [columns[0]] + rest else rest
  }

  /** Names that are not column names change nothing. */
  lemma {:induction false} UnknownNamesIgnored<C(!new)>(columns: seq<C>, name: C -> string, fields: set<string>, known: set<string>)
    requires forall c :: c in columns ==> name(c) in known
    ensures SelectColumns(columns, name, fields) == SelectColumns(columns, name, fields * known)
    decreases |columns|
  {
    if |columns| > 0 {
      UnknownNamesIgnored(columns[1..], name, fields, known);
    }
  }
}

=== FILE: instagram.dfy ===
/**
 * The Instagram path (InstagramScrapingService): reading a username out of a
 * profile link, building a profile from a list entry, the scroll-and-collect
 * loop over a followers or following dialog, the statistics, and the whole
 * session from login to the response. The browser is an oracle: each
 * scroll of a dialog reports the links it shows, or that it failed.
 */
module Instagram {
  import opened Wrappers
  import opened Text
  import opened Records
  import opened Patterns

  // ---------------------------------------------------------------------------
  // extractUsernameFromUrl
  // ---------------------------------------------------------------------------

  /** The regular expression "instagram.com/": its dot matches any char but a line terminator. */
  const InstagramSplitPattern: seq<PatChar> := Literal("instagram") + [AnyButLineTerminator] + Literal("com/")

  const ProfileUrlPrefix: string := "https://instagram.com/"

  /** What `extractProfileFromLink` stores as the profile URL. */
  function ProfileUrlFor(username: string): string {
    ProfileUrlPrefix + username
  }

  /** A name `extractUsernameFromUrl` can return: non-empty, without '/' or '?'. */
  predicate IsUsername(u: string) {
    u != "" && '/' !in u && '?' !in u
  }

  /**
   * extractUsernameFromUrl: null unless the link contains "instagram.com/";
   * otherwise what follows the first match of the split pattern, cut at the
   * first '/' and then at the first '?'. A split that leaves nothing (the
   * text after the match is only slashes, say) throws an index exception
   * that the method catches, so that is null too.
   */
  function ExtractUsernameFromUrl(url: Option<string>): (r: Option<string>)
    ensures r.Some? ==> url.Some? && Contains(url.value, "instagram.com/")
    ensures r.Some? ==> IsUsername(r.value) && IsSubstring(r.value, url.value)
  {
    if url.None? || !Contains(url.value, "instagram.com/") then None
    else
      var parts := Split(url.value, InstagramSplitPattern);
      if |parts| <= 1 then None
      else
        var bySlash := Split(parts[1], [Lit('/')]);
        if |bySlash| == 0 then None
        else
          var byQuery := Split(bySlash[0], [Lit('?')]);
          if |byQuery| == 0 || byQuery[0] == "" then None
          else
            var u := byQuery[0];
            NoMatchOfChar(u, '?');
            NoMatchOfChar(bySlash[0], '/');
            SubstringExcludes(u, bySlash[0], '/');
            SubstringTransitive(u, bySlash[0], parts[1]);
            SubstringTransitive(u, parts[1], url.value);
            Some(u)
  }

  lemma SplitPatternShape()
    ensures |InstagramSplitPattern| == 14
    ensures InstagramSplitPattern[0] == Lit('i') && InstagramSplitPattern[13] == Lit('/')
    ensures forall k :: 0 <= k < 14 ==> CharMatches(InstagramSplitPattern[k], "instagram.com/"[k])
  {
    var p := InstagramSplitPattern;
    assert p[..9] == Literal("instagram");
    assert p[10..] == Literal("com/");
    forall k | 0 <= k < 14 ensures CharMatches(p[k], "instagram.com/"[k]) {
      if k < 9 {
        assert p[k] == p[..9][k];
      } else if k > 9 {
        assert p[k] == p[10..][k - 10];
      }
    }
  }

  /** The split pattern matches the profile URL only where the prefix has it. */
  lemma ProfileUrlMatches(u: string)
    requires IsUsername(u)
    ensures FindFrom(ProfileUrlFor(u), InstagramSplitPattern, 0) == Some(8)
    ensures FindFrom(ProfileUrlFor(u), InstagramSplitPattern, 22).None?
  {
    var s := ProfileUrlFor(u);
    var p := InstagramSplitPattern;
    SplitPatternShape();
    assert |ProfileUrlPrefix| == 22;
    assert forall k :: 0 <= k < 22 ==> s[k] == ProfileUrlPrefix[k];
    assert forall k :: 0 <= k < |u| ==> s[22 + k] == u[k];
    forall k | 0 <= k < 14 ensures CharMatches(p[k], s[8 + k]) {
      assert s[8 + k] == "instagram.com/"[k];
    }
    assert MatchesAt(s, 8, p);
    forall j: nat | j < 8 ensures !MatchesAt(s, j, p) {
      assert s[j] != 'i';
    }
    FindFromIs(s, p, 0, 8);
    forall j: nat | 22 <= j ensures !MatchesAt(s, j, p) {
      if j + 14 <= |s| {
        assert s[j + 13] == u[j + 13 - 22];
        assert u[j + 13 - 22] != '/';
      }
    }
  }

  /** Reading the username back out of the profile URL built from it gives the username. */
  lemma ProfileUrlRoundTrip(u: string)
    requires IsUsername(u)
    ensures ExtractUsernameFromUrl(Some(ProfileUrlFor(u))) == Some(u)
  {
    var s := ProfileUrlFor(u);
    var p := InstagramSplitPattern;
    assert SubstringAt("instagram.com/", s, 8) by {
      assert s[8..22] == ProfileUrlPrefix[8..22];
    }
    LiteralMatchesEverywhere(s, "instagram.com/");
    ProfileUrlMatches(u);
    SplitPatternShape();
    assert s[22..] == u;
    var pieces := PiecesFrom(s, p, 0);
    assert pieces == [s[0..8]] + PiecesFrom(s, p, 22);
    assert PiecesFrom(s, p, 22) == [u];
    assert DropTrailingEmpty(pieces) == pieces;
    assert Split(s, p)[1] == u;
    SplitOnCharFirst(u, '/', u);
    SplitOnCharFirst(u, '?', u);
  }

  /** What each position of the split pattern accepts: letters, the dot wildcard at 9, '/' at 13. */
  lemma SplitPatternPositions()
    ensures forall k :: 0 <= k < 9 ==> InstagramSplitPattern[k] == Lit("instagram"[k])
    ensures InstagramSplitPattern[9] == AnyButLineTerminator && InstagramSplitPattern[13] == Lit('/')
    ensures forall k :: 0 <= k < 14 && k != 9 && k != 13 ==>
              InstagramSplitPattern[k].Lit? && 'a' <= InstagramSplitPattern[k].c <= 'z'
  {
    var p := InstagramSplitPattern;
    assert p[..9] == Literal("instagram");
    assert p[10..] == Literal("com/");
    forall k | 0 <= k < 9 ensures p[k] == Lit("instagram"[k]) {
      assert p[k] == p[..9][k];
    }
    forall k | 10 <= k < 14 ensures p[k] == Lit("com/"[k - 10]) {
      assert p[k] == p[10..][k - 10];
    }
  }

  /**
   * No match of the split pattern starts inside a username that does not
   * hold "instagram" and is followed by nothing, a path or a query.
   */
  lemma NoSplitMatchInUsername(u: string, rest: string)
    requires IsUsername(u) && !Contains(u, "instagram")
    requires rest == "" || rest[0] == '/' || rest[0] == '?'
    ensures forall j: nat :: j < |u| ==> !MatchesAt(u + rest, j, InstagramSplitPattern)
  {
    var v := u + rest;
    var p := InstagramSplitPattern;
    SplitPatternPositions();
    forall j: nat | j < |u| ensures !MatchesAt(v, j, p) {
      if j + 14 <= |u| {
        // The '/' of the pattern falls on a username char.
        assert v[j + 13] == u[j + 13];
        assert !CharMatches(p[13], v[j + 13]);
      } else if j + 14 <= |v| {
        // The char after the username is laid over pattern position m.
        var m := |u| - j;
        assert v[j + m] == rest[0];
        if m != 9 && m != 13 {
          assert !CharMatches(p[m], v[j + m]);
        } else {
          assert !SubstringAt("instagram", u, j);
          assert u[j..j + 9] != "instagram";
          var k :| 0 <= k < 9 && u[j..j + 9][k] != "instagram"[k];
          assert v[j + k] == u[j + k];
          assert !CharMatches(p[k], v[j + k]);
        }
      }
    }
  }

  /**
   * The piece after the split, cut at the first '/' and then at the first
   * '?', is the username when the piece is the username followed by
   * nothing, a path or a query.
   */
  lemma CutAtSlashThenQuery(t: string, u: string)
    requires IsUsername(u) && |u| <= |t| && t[..|u|] == u
    requires |t| == |u| || t[|u|] == '/' || t[|u|] == '?'
    ensures |Split(t, [Lit('/')])| > 0
    ensures var head := Split(t, [Lit('/')])[0];
            |Split(head, [Lit('?')])| > 0 && Split(head, [Lit('?')])[0] == u
  {
    if |t| == |u| || t[|u|] == '/' {
      assert |t| == |u| ==> t == u;
      SplitOnCharFirst(t, '/', u);
      SplitOnCharFirst(u, '?', u);
    } else {
      var m := match IndexOf(t, "/") case Some(i) => i case None => |t|;
      forall j | 0 <= j < m ensures t[j] != '/' {
        assert !SubstringAt("/", t, j);
        assert t[j..j + 1] == [t[j]];
      }
      forall j | 0 <= j < |u| ensures t[j] != '/' {
        assert t[j] == t[..|u|][j] == u[j];
      }
      if m < |t| {
        assert t[m..m + 1] == "/";
        assert t[m] == '/';
      }
      assert m > |u|;
      var head := t[..m];
      assert '/' !in head;
      SplitOnCharFirst(t, '/', head);
      assert head[..|u|] == u && head[|u|] == '?';
      SplitOnCharFirst(head, '?', u);
    }
  }

  /** The split pattern first matches right after `pre`, which has no 'i'. */
  lemma SplitAtLinkKey(pre: string, v: string)
    requires 'i' !in pre
    ensures var s := pre + "instagram.com/" + v;
            PiecesFrom(s, InstagramSplitPattern, 0) == [pre] + PiecesFrom(v, InstagramSplitPattern, 0)
  {
    var key := "instagram.com/";
    var lead := pre + key;
    var s := lead + v;
    var p := InstagramSplitPattern;
    SplitPatternShape();
    forall k | 0 <= k < 14 ensures CharMatches(p[k], s[|pre| + k]) {
      assert s[|pre| + k] == key[k];
    }
    assert MatchesAt(s, |pre|, p);
    forall j: nat | j < |pre| ensures !MatchesAt(s, j, p) {
      assert s[j] == pre[j];
    }
    FindFromIs(s, p, 0, |pre|);
    assert s[0..|pre|] == pre;
    PiecesFromShift(lead, v, p, 0);
  }

  /** The first piece of the text after the link key: the username, then nothing, '/' or '?'. */
  lemma FirstPieceAfterKey(u: string, rest: string)
    requires IsUsername(u) && !Contains(u, "instagram")
    requires rest == "" || rest[0] == '/' || rest[0] == '?'
    ensures var t := PiecesFrom(u + rest, InstagramSplitPattern, 0)[0];
            |u| <= |t| && t[..|u|] == u && (|t| == |u| || t[|u|] == rest[0])
  {
    var v := u + rest;
    var p := InstagramSplitPattern;
    NoSplitMatchInUsername(u, rest);
    var k := match FindFrom(v, p, 0) case Some(i) => i case None => |v|;
    assert k >= |u|;
    var t := PiecesFrom(v, p, 0)[0];
    assert t == v[0..k];
  }

  /**
   * The username of any link the dialogs show: whatever comes before
   * "instagram.com/" (a scheme and "www.", say) as long as it has no 'i',
   * then the username, then nothing, a path or a query.
   */
  lemma UsernameFromLink(pre: string, u: string, rest: string)
    requires 'i' !in pre
    requires IsUsername(u) && !Contains(u, "instagram")
    requires rest == "" || rest[0] == '/' || rest[0] == '?'
    ensures ExtractUsernameFromUrl(Some(pre + "instagram.com/" + u + rest)) == Some(u)
  {
    var s := pre + "instagram.com/" + (u + rest);
    assert s == pre + "instagram.com/" + u + rest;
    assert SubstringAt("instagram.com/", s, |pre|) by {
      assert s[|pre|..|pre| + 14] == "instagram.com/";
    }
    LiteralMatchesEverywhere(s, "instagram.com/");
    SplitAtLinkKey(pre, u + rest);
    FirstPieceAfterKey(u, rest);
    var t := PiecesFrom(u + rest, InstagramSplitPattern, 0)[0];
    var pieces := PiecesFrom(s, InstagramSplitPattern, 0);
    assert pieces[1] == t && t != "";
    assert FindFrom(s, InstagramSplitPattern, 0).Some?;
    var parts := Split(s, InstagramSplitPattern);
    assert |parts| >= 2 && parts[1] == t;
    CutAtSlashThenQuery(t, u);
  }

  /** The pieces around the link key, a name and the key again: nothing, the name, nothing. */
  lemma PiecesAroundName(a: string)
    requires 'i' !in a
    ensures var s := "instagram.com/" + a + "instagram.com/";
            PiecesFrom(s, InstagramSplitPattern, 0) == ["", a, ""]
  {
    var p := InstagramSplitPattern;
    var key := "instagram.com/";
    var v := a + key;
    PiecesAfterName(a);
    SplitAtLinkKey("", v);
    assert "" + key + v == key + a + key;
  }

  /** After the first key: the name, then nothing. */
  lemma PiecesAfterName(a: string)
    requires 'i' !in a
    ensures PiecesFrom(a + "instagram.com/", InstagramSplitPattern, 0) == [a, ""]
  {
    var p := InstagramSplitPattern;
    var key := "instagram.com/";
    SplitAtLinkKey(a, "");
    assert a + key + "" == a + key;
    PiecesFromStep("", p, 0);
  }

  /** The split pattern matches a text that starts with "instagram.com/" at its very start. */
  lemma LinkKeyFirst(v: string)
    ensures FindFrom("instagram.com/" + v, InstagramSplitPattern, 0) == Some(0)
  {
    var s := "instagram.com/" + v;
    var p := InstagramSplitPattern;
    SplitPatternShape();
    forall k | 0 <= k < 14 ensures CharMatches(p[k], s[k]) {
      assert s[k] == "instagram.com/"[k];
    }
    assert MatchesAt(s, 0, p);
    FindFromIs(s, p, 0, 0);
  }

  /** Splitting the link key, a name and the key again leaves an empty piece and the name. */
  lemma SplitAroundName(a: string)
    requires a != "" && 'i' !in a
    ensures Split("instagram.com/" + a + "instagram.com/", InstagramSplitPattern) == ["", a]
  {
    var s := "instagram.com/" + a + "instagram.com/";
    var pieces := ["", a, ""];
    PiecesAroundName(a);
    LinkKeyFirst(a + "instagram.com/");
    assert s == "instagram.com/" + (a + "instagram.com/");
    SplitIsPieces(s, InstagramSplitPattern);
    var d := DropTrailingEmpty(pieces);
    assert pieces[1] != "";
    assert |d| == 2;
    assert d == pieces[..2] == ["", a];
  }

  /**
   * Why UsernameFromLink leaves out names holding "instagram": in the link
   * to the account `a + "instagram.com"` (a valid name, since names may hold
   * dots) the split pattern matches again, and only `a` comes back.
   */
  lemma LinkKeyInsideUsername(a: string)
    requires IsUsername(a) && 'i' !in a
    ensures ExtractUsernameFromUrl(Some("instagram.com/" + a + "instagram.com/")) == Some(a)
  {
    var key := "instagram.com/";
    var s := key + a + key;
    assert SubstringAt(key, s, 0) by {
      assert s[0..14] == key;
    }
    SplitAroundName(a);
    SplitOnCharFirst(a, '/', a);
    SplitOnCharFirst(a, '?', a);
  }

  // ---------------------------------------------------------------------------
  // extractProfileFromLink
  // ---------------------------------------------------------------------------

  /**
   * One profile link as the dialog shows it. `href` is None when the link
   * has no href or reading it throws; `name` and `bio` are None when the
   * page has no such element; `failsExtraction` stands for any other
   * exception while reading the entry; `readAt` is the clock when it is read.
   */
  datatype Entry = Entry(href: Option<string>, name: Option<string>, bio: Option<string>, failsExtraction: bool, readAt: int)

  const ExtractionFailedMessage := "Failed to extract profile data"

  /**
   * extractProfileFromLink: the name (the username when there is none),
   * the bio ("" when there is none) and what the cues and scanners find in
   * it; on an exception, a profile that only records the failure. The
   * location is extractLocation as written, so the glyph markers never
   * yield one (see ExtractProfileFromLinkIntended).
   */
  function ExtractProfileFromLink(sc: Scanners, e: Entry, username: string): (p: InstagramProfile)
    ensures p.username == Some(username) && p.responseTime == Some(e.readAt)
    ensures p.status == Some(StatusSuccess) || p.status == Some(StatusError)
    ensures p.status == Some(StatusError) <==> e.failsExtraction
    ensures p.status == Some(StatusError) ==>
              && p.errorMessage == Some(ExtractionFailedMessage) && p.fullName.None? && p.bio.None? && p.profileUrl.None?
              && p.emails.None? && p.phoneNumbers.None? && p.website.None? && p.contact.None? && p.location.None?
    ensures p.status == Some(StatusSuccess) ==>
              && p.errorMessage.None?
              && p.fullName == Some(if e.name.Some? then e.name.value else username)
              && p.bio == Some(e.bio.GetOr(""))
              && p.profileUrl == Some(ProfileUrlFor(username))
              && p.emails.Some? && p.phoneNumbers.Some?
              && p.website == BioWebsite(sc, p.bio.value)
              && p.contact == ExtractContact(p.bio.value)
              && p.location == ExtractLocation(p.bio.value)
    ensures p.followersCount.None? && p.followingCount.None?
  {
    if e.failsExtraction then
      NoProfileFields.(username := Some(username), status := Some(StatusError),
                       errorMessage := Some(ExtractionFailedMessage), responseTime := Some(e.readAt))
    else
      var bio := e.bio.GetOr("");
      NoProfileFields.(
        username := Some(username),
        fullName := Some(e.name.GetOr(username)),
        bio := Some(bio),
        profileUrl := Some(ProfileUrlFor(username)),
        emails := Some(BioEmails(sc, bio)),
        phoneNumbers := Some(BioPhones(sc, bio)),
        website := BioWebsite(sc, bio),
        contact := ExtractContact(bio),
        location := ExtractLocation(bio),
        status := Some(StatusSuccess),
        responseTime := Some(e.readAt))
  }

  /** A successful profile relocated with the emoji markers; any other profile as it is. */
  function Relocate(p: InstagramProfile): (q: InstagramProfile)
    ensures q.(location := p.location) == p
  {
    if p.status == Some(StatusSuccess) then p.(location := ExtractLocationIntended(p.bio.GetOr(""))) else p
  }

  /**
   * extractProfileFromLink with the location markers the source evidently
   * means: the same profile, except that the location is found after the pin
   * or globe emoji too.
   */
  function ExtractProfileFromLinkIntended(sc: Scanners, e: Entry, username: string): (p: InstagramProfile)
    ensures p.(location := None) == ExtractProfileFromLink(sc, e, username).(location := None)
    ensures p.location == (if e.failsExtraction then None else ExtractLocationIntended(e.bio.GetOr("")))
  {
    Relocate(ExtractProfileFromLink(sc, e, username))
  }

  /**
   * A bio that opens with the pin emoji before a one-line place: as written
   * the profile has no location, as intended the place is its location.
   */
  lemma ProfileLocationFromPin(sc: Scanners, e: Entry, username: string, place: string)
    requires !e.failsExtraction && e.bio == Some(Pinned(place))
    requires IsTrimmed(place) && '\n' !in place
    requires forall j :: 3 <= j < |LocationMarkers| ==> !Contains(ToLower(place), LocationMarkers[j])
    ensures ExtractProfileFromLink(sc, e, username).location == None
    ensures ExtractProfileFromLinkIntended(sc, e, username).location == Some(place)
  {
    LocationMissesPin(place);
    LocationFindsPin(place);
  }

  /** The profile URL a successful profile records leads back to its username. */
  lemma ProfileUrlNamesProfile(sc: Scanners, e: Entry, username: string)
    requires IsUsername(username) && !e.failsExtraction
    ensures ExtractUsernameFromUrl(ExtractProfileFromLink(sc, e, username).profileUrl) == Some(username)
  {
    ProfileUrlRoundTrip(username);
  }

  /** What a successful profile holds beyond the entry is what the bio yields. */
  lemma ProfileFromBio(sc: Scanners, e: Entry, username: string)
    requires !e.failsExtraction
    ensures var p := ExtractProfileFromLink(sc, e, username);
            var bio := e.bio.GetOr("");
            && (forall m :: m in p.emails.value <==> bio != "" && m in sc.email(bio))
            && (forall m :: m in p.phoneNumbers.value <==> bio != "" && m in sc.phone(bio))
            && p.website == BioWebsite(sc, bio)
            && (p.contact.Some? <==> exists k :: k in ContactKeywords && Contains(ToLower(bio), k))
            && (e.bio.None? ==> p.contact.None? && p.location.None? && p.website.None?)
  {
    var bio := e.bio.GetOr("");
    ContactFoundIff(bio);
    if e.bio.None? {
      assert bio == "";
    }
  }

  // ---------------------------------------------------------------------------
  // scrollAndCollectProfiles
  // ---------------------------------------------------------------------------

  /** The profiles collected so far and the usernames already processed. */
  datatype Collected = Collected(profiles: seq<InstagramProfile>, seen: set<string>)

  const NothingCollected := Collected([], {})

  /** The usernames the profiles carry. */
  function Usernames(ps: seq<InstagramProfile>): (names: set<string>)
    ensures forall i :: 0 <= i < |ps| && ps[i].username.Some? ==> ps[i].username.value in names
    ensures forall x :: x in names ==> exists i :: 0 <= i < |ps| && ps[i].username == Some(x)
  {
    if |ps| == 0 then {}
    else
      var last := ps[|ps| - 1];
      Usernames(ps[..|ps| - 1]) + (if last.username.Some? then {last.username.value} else {})
  }

  ghost predicate DistinctUsernames(ps: seq<InstagramProfile>) {
    forall i, j :: 0 <= i < j < |ps| ==> ps[i].username != ps[j].username
  }

  /**
   * What every profile extractProfileFromLink builds looks like: a
   * username, no follower counts, and either a success with a bio and the
   * profile URL or an error with the failure message.
   */
  predicate Collectable(p: InstagramProfile) {
    && p.username.Some? && IsUsername(p.username.value)
    && p.followersCount.None? && p.followingCount.None?
    && (|| (p.status == Some(StatusSuccess) && p.bio.Some? && p.profileUrl == Some(ProfileUrlFor(p.username.value)))
        || (p.status == Some(StatusError) && p.errorMessage == Some(ExtractionFailedMessage)))
  }

  /**
   * What the collector keeps true: each profile has a username, no two
   * share one, and the processed usernames are exactly the profiles'.
   */
  ghost predicate Consistent(c: Collected) {
    && (forall i :: 0 <= i < |c.profiles| ==> Collectable(c.profiles[i]))
    && DistinctUsernames(c.profiles)
    && c.seen == Usernames(c.profiles)
  }

  /** A profile for a new username keeps the collection consistent. */
  lemma AddKeepsConsistent(c: Collected, p: InstagramProfile, u: string)
    requires Consistent(c) && Collectable(p) && u !in c.seen && p.username == Some(u)
    ensures Consistent(Collected(c.profiles + [p], c.seen + {u}))
  {
    var ps := c.profiles + [p];
    assert ps[..|ps| - 1] == c.profiles;
    forall i, j | 0 <= i < j < |ps| ensures ps[i].username != ps[j].username {
      if j == |ps| - 1 {
        assert c.profiles[i].username.value in c.seen;
      }
    }
  }

  /**
   * One pass of the inner for-loop over the links a scroll shows: stop once
   * `max` profiles are held; skip a link without a username or with one
   * already processed; otherwise mark the username processed and add its
   * profile (which extractProfileFromLink always returns).
   */
  function ScanLinks(sc: Scanners, links: seq<Entry>, max: int, c: Collected): (r: Collected)
    ensures |c.profiles| <= |r.profiles| && r.profiles[..|c.profiles|] == c.profiles
    ensures c.seen <= r.seen
    ensures |c.profiles| <= max ==> |r.profiles| <= max
    ensures |c.profiles| >= max ==> r == c
    ensures |r.profiles| == |c.profiles| ==> r == c
    decreases |links|
  {
    if |links| == 0 || |c.profiles| >= max then c
    else
      var e := links[0];
      var u := ExtractUsernameFromUrl(e.href);
      if u.Some? && u.value !in c.seen then
        var p := ExtractProfileFromLink(sc, e, u.value);
        var next := Collected(c.profiles + [p], c.seen + {u.value});
        var r := ScanLinks(sc, links[1..], max, next);
        assert r.profiles[..|next.profiles|] == next.profiles;
        assert r.profiles[..|c.profiles|] == next.profiles[..|c.profiles|] == c.profiles;
        r
      else
        ScanLinks(sc, links[1..], max, c)
  }

  /** A scan keeps the collection consistent: no username is collected twice. */
  lemma {:induction false} ScanLinksConsistent(sc: Scanners, links: seq<Entry>, max: int, c: Collected)
    requires Consistent(c)
    ensures Consistent(ScanLinks(sc, links, max, c))
    decreases |links|
  {
    if |links| > 0 && |c.profiles| < max {
      var e := links[0];
      var u := ExtractUsernameFromUrl(e.href);
      if u.Some? && u.value !in c.seen {
        var p := ExtractProfileFromLink(sc, e, u.value);
        AddKeepsConsistent(c, p, u.value);
        ScanLinksConsistent(sc, links[1..], max, Collected(c.profiles + [p], c.seen + {u.value}));
      } else {
        ScanLinksConsistent(sc, links[1..], max, c);
      }
    }
  }

  /** A link showing a new username, met while there is room, adds that username's profile next. */
  lemma ScanLinksAddsNew(sc: Scanners, links: seq<Entry>, max: int, c: Collected)
    requires |links| > 0 && |c.profiles| < max
    requires ExtractUsernameFromUrl(links[0].href).Some? && ExtractUsernameFromUrl(links[0].href).value !in c.seen
    ensures var r := ScanLinks(sc, links, max, c);
            var u := ExtractUsernameFromUrl(links[0].href).value;
            && |c.profiles| < |r.profiles|
            && r.profiles[|c.profiles|] == ExtractProfileFromLink(sc, links[0], u)
            && u in r.seen
  {
    var u := ExtractUsernameFromUrl(links[0].href).value;
    var next := Collected(c.profiles + [ExtractProfileFromLink(sc, links[0], u)], c.seen + {u});
    var r := ScanLinks(sc, links[1..], max, next);
    assert r.profiles[..|next.profiles|] == next.profiles;
    assert r.profiles[|c.profiles|] == next.profiles[|c.profiles|];
  }

  /** Every username the links show ends up processed, unless the scan stopped at the cap. */
  lemma {:induction false} ScanLinksComplete(sc: Scanners, links: seq<Entry>, max: int, c: Collected)
    ensures var r := ScanLinks(sc, links, max, c);
            |r.profiles| < max ==>
              forall j :: 0 <= j < |links| && ExtractUsernameFromUrl(links[j].href).Some? ==>
                ExtractUsernameFromUrl(links[j].href).value in r.seen
    decreases |links|
  {
    var r := ScanLinks(sc, links, max, c);
    if |links| > 0 && |c.profiles| < max {
      var rest := links[1..];
      var u := ExtractUsernameFromUrl(links[0].href);
      var next := if u.Some? && u.value !in c.seen
                  then Collected(c.profiles + [ExtractProfileFromLink(sc, links[0], u.value)], c.seen + {u.value})
                  else c;
      assert r == ScanLinks(sc, rest, max, next);
      assert next.seen <= r.seen;
      ScanLinksComplete(sc, rest, max, next);
      if |r.profiles| < max {
        assert u.Some? ==> u.value in next.seen;
        forall j | 0 <= j < |links| && ExtractUsernameFromUrl(links[j].href).Some?
          ensures ExtractUsernameFromUrl(links[j].href).value in r.seen
        {
          if j > 0 {
            assert links[j] == rest[j - 1];
          }
        }
      }
    }
  }

  /** The profile a link yields, when the link has a username. */
  predicate ProfileOfEntry(sc: Scanners, e: Entry, p: InstagramProfile) {
    ExtractUsernameFromUrl(e.href).Some? && p == ExtractProfileFromLink(sc, e, ExtractUsernameFromUrl(e.href).value)
  }

  /** Every profile a scan adds is the profile of one of the links it was shown. */
  lemma {:induction false} ScanLinksProvenance(sc: Scanners, links: seq<Entry>, max: int, c: Collected)
    ensures var r := ScanLinks(sc, links, max, c);
            forall i :: |c.profiles| <= i < |r.profiles| ==> exists k :: 0 <= k < |links| && ProfileOfEntry(sc, links[k], r.profiles[i])
    decreases |links|
  {
    var r := ScanLinks(sc, links, max, c);
    if |links| > 0 && |c.profiles| < max {
      var e := links[0];
      var u := ExtractUsernameFromUrl(e.href);
      var next := if u.Some? && u.value !in c.seen
                  then Collected(c.profiles + [ExtractProfileFromLink(sc, e, u.value)], c.seen + {u.value})
                  else c;
      assert r == ScanLinks(sc, links[1..], max, next);
      ScanLinksProvenance(sc, links[1..], max, next);
      forall i | |c.profiles| <= i < |r.profiles|
        ensures exists k :: 0 <= k < |links| && ProfileOfEntry(sc, links[k], r.profiles[i])
      {
        if i < |next.profiles| {
          assert r.profiles[..|next.profiles|] == next.profiles;
          assert r.profiles[i] == next.profiles[i];
          assert ProfileOfEntry(sc, links[0], r.profiles[i]);
        } else {
          var rest := links[1..];
          assert |next.profiles| <= i < |ScanLinks(sc, rest, max, next).profiles|;
          var k :| 0 <= k < |rest| && ProfileOfEntry(sc, rest[k], r.profiles[i]);
          assert ProfileOfEntry(sc, links[k + 1], r.profiles[i]);
        }
      }
    }
  }

  /**
   * The while-loop of scrollAndCollectProfiles from a given state: `stable`
   * counts the scrolls in a row that added nothing, `k` numbers the scrolls.
   * The loop runs while fewer than `max` profiles are held and fewer than
   * three scrolls in a row came up empty. Each scroll sleeps `delayMs`
   * first, which throws for a negative delay; a scroll that fails
   * (`scans(k)` is None) throws too. An exception leaves the profiles
   * collected so far, which the method's catch returns.
   */
  function CollectFrom(sc: Scanners, scans: nat -> Option<seq<Entry>>, max: int, delayMs: int,
                       c: Collected, stable: nat, k: nat): (r: Collected)
    ensures |c.profiles| <= |r.profiles| && r.profiles[..|c.profiles|] == c.profiles
    ensures |c.profiles| <= max ==> |r.profiles| <= max
    ensures c.seen <= r.seen
    ensures |c.profiles| >= max || stable >= 3 || delayMs < 0 || scans(k).None? ==> r == c
    decreases max - |c.profiles|, 3 - stable
  {
    if |c.profiles| >= max || stable >= 3 || delayMs < 0 then c
    else match scans(k)
      case None => c
      case Some(links) =>
        var next := ScanLinks(sc, links, max, c);
        var r := if |next.profiles| == |c.profiles|
                 then CollectFrom(sc, scans, max, delayMs, next, stable + 1, k + 1)
                 else CollectFrom(sc, scans, max, delayMs, next, 0, k + 1);
        assert r.profiles[..|c.profiles|] == r.profiles[..|next.profiles|][..|c.profiles|];
        r
  }

  lemma {:induction false} CollectFromConsistent(sc: Scanners, scans: nat -> Option<seq<Entry>>, max: int, delayMs: int,
                                                 c: Collected, stable: nat, k: nat)
    requires Consistent(c)
    ensures Consistent(CollectFrom(sc, scans, max, delayMs, c, stable, k))
    decreases max - |c.profiles|, 3 - stable
  {
    if |c.profiles| < max && stable < 3 && delayMs >= 0 && scans(k).Some? {
      var next := ScanLinks(sc, scans(k).value, max, c);
      ScanLinksConsistent(sc, scans(k).value, max, c);
      if |next.profiles| == |c.profiles| {
        CollectFromConsistent(sc, scans, max, delayMs, next, stable + 1, k + 1);
      } else {
        CollectFromConsistent(sc, scans, max, delayMs, next, 0, k + 1);
      }
    }
  }

  /** Every username the next scroll shows is processed, unless the loop fills up. */
  lemma CollectFromKeepsScroll(sc: Scanners, scans: nat -> Option<seq<Entry>>, max: int, delayMs: int,
                               c: Collected, stable: nat, k: nat)
    requires |c.profiles| < max && stable < 3 && delayMs >= 0 && scans(k).Some?
    ensures var r := CollectFrom(sc, scans, max, delayMs, c, stable, k);
            var links := scans(k).value;
            |r.profiles| < max ==>
              forall j :: 0 <= j < |links| && ExtractUsernameFromUrl(links[j].href).Some? ==>
                ExtractUsernameFromUrl(links[j].href).value in r.seen
  {
    var links := scans(k).value;
    var next := ScanLinks(sc, links, max, c);
    ScanLinksComplete(sc, links, max, c);
    var r := CollectFrom(sc, scans, max, delayMs, c, stable, k);
    assert |next.profiles| <= |r.profiles| && next.seen <= r.seen;
  }

  /** The loop stops after three scrolls in a row that add nothing. */
  lemma {:induction false} StagnantScansStop(sc: Scanners, scans: nat -> Option<seq<Entry>>, max: int, delayMs: int,
                                             c: Collected, stable: nat, k: nat)
    requires stable <= 3
    requires forall j :: k <= j < k + 3 - stable ==>
               scans(j).Some? && |ScanLinks(sc, scans(j).value, max, c).profiles| == |c.profiles|
    ensures CollectFrom(sc, scans, max, delayMs, c, stable, k) == c
    decreases 3 - stable
  {
    if |c.profiles| < max && stable < 3 && delayMs >= 0 {
      assert k <= k < k + 3 - stable;
      StagnantScansStop(sc, scans, max, delayMs, c, stable + 1, k + 1);
    }
  }

  /**
   * scrollAndCollectProfiles: the loop as the source writes it, with
   * `lastSize` and `stableCount`, computing what CollectFrom defines.
   */
  method ScrollAndCollectProfiles(sc: Scanners, scans: nat -> Option<seq<Entry>>, max: int, delayMs: int)
    returns (profiles: seq<InstagramProfile>)
    ensures profiles == CollectFrom(sc, scans, max, delayMs, NothingCollected, 0, 0).profiles
    ensures |profiles| <= (if max < 0 then 0 else max)
    ensures DistinctUsernames(profiles)
    ensures forall i :: 0 <= i < |profiles| ==> Collectable(profiles[i])
  {
    var c := NothingCollected;
    var lastSize := 0;
    var stableCount: nat := 0;
    var k: nat := 0;
    while |c.profiles| < max && stableCount < 3
      invariant Consistent(c)
      invariant lastSize == |c.profiles| && |c.profiles| <= (if max < 0 then 0 else max)
      invariant CollectFrom(sc, scans, max, delayMs, c, stableCount, k)
                == CollectFrom(sc, scans, max, delayMs, NothingCollected, 0, 0)
      decreases max - |c.profiles|, 3 - stableCount
    {
      if delayMs < 0 {
        break;
      }
      var links;
      match scans(k) {
        case None =>
          break;
        case Some(ls) =>
          links := ls;
      }
      ScanLinksConsistent(sc, links, max, c);
      c := ScanLinks(sc, links, max, c);
      if |c.profiles| == lastSize {
        stableCount := stableCount + 1;
      } else {
        stableCount := 0;
        lastSize := |c.profiles|;
      }
      k := k + 1;
    }
    profiles := c.profiles;
  }

  // ---------------------------------------------------------------------------
  // scrapeFollowers and scrapeFollowing
  // ---------------------------------------------------------------------------

  /**
   * One dialog (followers or following): `opens` is false when clicking the
   * link or waiting for the dialog throws, which leaves the list empty;
   * `scans` is what each scroll shows. Closing the dialog afterwards may
   * throw without losing the list, so it is not modelled.
   */
  datatype Phase = Phase(opens: bool, scans: nat -> Option<seq<Entry>>)

  function ScrapePhase(sc: Scanners, ph: Phase, max: int, delayMs: int): (ps: seq<InstagramProfile>)
    ensures |ps| <= (if max < 0 then 0 else max)
    ensures !ph.opens || delayMs < 0 || max <= 0 ==> ps == []
    ensures DistinctUsernames(ps)
    ensures forall i :: 0 <= i < |ps| ==> Collectable(ps[i])
    ensures ph.opens ==> ps == CollectFrom(sc, ph.scans, max, delayMs, NothingCollected, 0, 0).profiles
  {
    if !ph.opens then []
    else
      CollectFromConsistent(sc, ph.scans, max, delayMs, NothingCollected, 0, 0);
      CollectFrom(sc, ph.scans, max, delayMs, NothingCollected, 0, 0).profiles
  }

  /** In an open dialog, every account the first scroll shows is in the list, unless the list is full. */
  lemma ScrapePhaseKeepsFirstScroll(sc: Scanners, ph: Phase, max: int, delayMs: int)
    requires ph.opens && delayMs >= 0 && ph.scans(0).Some?
    ensures var ps := ScrapePhase(sc, ph, max, delayMs);
            var links := ph.scans(0).value;
            |ps| < max ==>
              forall j :: 0 <= j < |links| && ExtractUsernameFromUrl(links[j].href).Some? ==>
                exists i :: 0 <= i < |ps| && ps[i].username == ExtractUsernameFromUrl(links[j].href)
  {
    var ps := ScrapePhase(sc, ph, max, delayMs);
    if |ps| < max {
      var links := ph.scans(0).value;
      var r := CollectFrom(sc, ph.scans, max, delayMs, NothingCollected, 0, 0);
      CollectFromConsistent(sc, ph.scans, max, delayMs, NothingCollected, 0, 0);
      CollectFromKeepsScroll(sc, ph.scans, max, delayMs, NothingCollected, 0, 0);
      forall j | 0 <= j < |links| && ExtractUsernameFromUrl(links[j].href).Some?
        ensures exists i :: 0 <= i < |ps| && ps[i].username == ExtractUsernameFromUrl(links[j].href)
      {
        assert ExtractUsernameFromUrl(links[j].href).value in Usernames(r.profiles);
      }
    }
  }

  // ---------------------------------------------------------------------------
  // calculateStatistics
  // ---------------------------------------------------------------------------

  /** The size of a set-valued field, null counting as empty. */
  function SizeOr0(xs: Option<seq<string>>): nat {
    if xs.Some? then |xs.value| else 0
  }

  /** A profile counts as reachable when it has an e-mail, a phone number or a contact line. */
  predicate HasContact(p: InstagramProfile) {
    || (p.emails.Some? && |p.emails.value| > 0)
    || (p.phoneNumbers.Some? && |p.phoneNumbers.value| > 0)
    || (p.contact.Some? && p.contact.value != "")
  }

  function TotalEmails(ps: seq<InstagramProfile>): nat {
    if |ps| == 0 then 0 else SizeOr0(ps[0].emails) + TotalEmails(ps[1..])
  }

  function TotalPhones(ps: seq<InstagramProfile>): nat {
    if |ps| == 0 then 0 else SizeOr0(ps[0].phoneNumbers) + TotalPhones(ps[1..])
  }

  function CountWithContact(ps: seq<InstagramProfile>): (n: nat)
    ensures n <= |ps|
    ensures n == 0 <==> forall i :: 0 <= i < |ps| ==> !HasContact(ps[i])
    ensures n == |ps| <==> forall i :: 0 <= i < |ps| ==> HasContact(ps[i])
  {
    if |ps| == 0 then 0
    else
      var n := (if HasContact(ps[0]) then 1 else 0) + CountWithContact(ps[1..]);
      assert forall i :: 1 <= i < |ps| ==> ps[i] == ps[1..][i - 1];
      n
  }

  /**
   * calculateStatistics: e-mails and phone numbers summed over the
   * profiles, the number of reachable profiles, and their percentage (0 for
   * no profiles). The percentage is exact here; the source computes it in
   * double precision.
   */
  function CalculateStatistics(ps: seq<InstagramProfile>): (s: Statistics)
    ensures s.profilesWithContact <= |ps|
    ensures 0.0 <= s.contactRate <= 100.0
    ensures |ps| > 0 ==> s.contactRate * (|ps| as real) == 100.0 * (s.profilesWithContact as real)
    ensures |ps| == 0 ==> s == Statistics(0, 0, 0, 0.0)
    ensures s.profilesWithContact == 0 <==> forall i :: 0 <= i < |ps| ==> !HasContact(ps[i])
    ensures s.profilesWithContact == |ps| <==> forall i :: 0 <= i < |ps| ==> HasContact(ps[i])
  {
    var n := CountWithContact(ps);
    var rate := if |ps| > 0 then RateBounds(n, |ps|); (n as real) / (|ps| as real) * 100.0 else 0.0;
    Statistics(TotalEmails(ps), TotalPhones(ps), n, rate)
  }

  /** A share of `n` out of `m`, as a percentage, lies between 0 and 100 and scales back to `n`. */
  lemma RateBounds(n: nat, m: nat)
    requires n <= m && m > 0
    ensures var rate := (n as real) / (m as real) * 100.0;
            0.0 <= rate <= 100.0 && rate * (m as real) == 100.0 * (n as real)
  {
    var q := (n as real) / (m as real);
    assert q * (m as real) == n as real;
    assert 0.0 <= q;
    assert (n as real) <= (m as real);
    assert q <= 1.0;
    assert q * 100.0 * (m as real) == 100.0 * (q * (m as real));
  }

  /** The statistics of two lists put together add up. */
  lemma {:induction false} StatisticsAppend(a: seq<InstagramProfile>, b: seq<InstagramProfile>)
    ensures TotalEmails(a + b) == TotalEmails(a) + TotalEmails(b)
    ensures TotalPhones(a + b) == TotalPhones(a) + TotalPhones(b)
    ensures CountWithContact(a + b) == CountWithContact(a) + CountWithContact(b)
    decreases |a|
  {
    if |a| > 0 {
      assert (a + b)[1..] == a[1..] + b;
      assert (a + b)[0] == a[0];
      StatisticsAppend(a[1..], b);
    } else {
      assert a + b == b;
    }
  }

  /** The statistics of one profile: its e-mails, its phone numbers, and whether it is reachable. */
  lemma CalculateStatisticsOfOne(p: InstagramProfile)
    ensures CalculateStatistics([p]) == Statistics(SizeOr0(p.emails), SizeOr0(p.phoneNumbers),
                                                   if HasContact(p) then 1 else 0,
                                                   if HasContact(p) then 100.0 else 0.0)
  {
    var ps := [p];
    assert ps[0] == p && ps[1..] == [];
    assert TotalEmails(ps) == SizeOr0(p.emails) && TotalPhones(ps) == SizeOr0(p.phoneNumbers);
    assert CountWithContact(ps) == (if HasContact(p) then 1 else 0);
  }

  /** The three counts of the statistics of two lists put together are the sums of each list's. */
  lemma CalculateStatisticsAppend(a: seq<InstagramProfile>, b: seq<InstagramProfile>)
    ensures var s, sa, sb := CalculateStatistics(a + b), CalculateStatistics(a), CalculateStatistics(b);
            && s.totalEmails == sa.totalEmails + sb.totalEmails
            && s.totalPhoneNumbers == sa.totalPhoneNumbers + sb.totalPhoneNumbers
            && s.profilesWithContact == sa.profilesWithContact + sb.profilesWithContact
  {
    StatisticsAppend(a, b);
  }

  // ---------------------------------------------------------------------------
  // scrapeInstagramProfiles
  // ---------------------------------------------------------------------------

  const LoginFailedMessage := "Failed to login to Instagram"
  const NavigationFailedMessage := "Failed to navigate to target profile"
  const CompletedMessage := "Instagram scraping completed successfully"

  /** setupWebDriver either starts a browser or throws with a message. */
  datatype Setup = Started | SetupFailed(reason: Option<string>)

  /**
   * The browser as an oracle: whether it starts, whether loginToInstagram
   * and navigateToProfile return true (each catches its own exceptions),
   * and what the two dialogs show.
   */
  datatype Browser = Browser(setup: Setup, loginSucceeds: bool, profileFound: bool, followers: Phase, following: Phase)

  /** The response, and whether the `finally` block quit a driver. */
  datatype Session = Session(response: InstagramScrapeResponse, driverQuit: bool)

  /** createErrorResponse. */
  function CreateErrorResponse(targetHandle: Option<string>, message: string, elapsed: int): (r: InstagramScrapeResponse)
    ensures r.status == StatusError && r.message == message && r.targetHandle == targetHandle
    ensures r.totalProfiles == 0 && r.followersScraped == 0 && r.followingScraped == 0
    ensures r.successfulScrapes == 0 && r.failedScrapes == 0 && r.profiles == []
    ensures r.statistics.None? && r.processingTime == elapsed
  {
    InstagramScrapeResponse(targetHandle, 0, 0, 0, 0, 0, [], elapsed, StatusError, message, None)
  }

  /** The followers the session collects, empty when they were not requested. */
  function Followers(sc: Scanners, b: Browser, req: InstagramScrapeRequest): seq<InstagramProfile> {
    if req.scrapeFollowers then ScrapePhase(sc, b.followers, req.maxFollowers, req.delayMs) else []
  }

  function Following(sc: Scanners, b: Browser, req: InstagramScrapeRequest): seq<InstagramProfile> {
    if req.scrapeFollowing then ScrapePhase(sc, b.following, req.maxFollowing, req.delayMs) else []
  }

  /**
   * scrapeInstagramProfiles: start the browser, log in, open the target
   * profile, collect the requested dialogs, and report. A browser that does
   * not start gives "Error: " and the exception's message (null when it has
   * none); a failed login or navigation gives its own message; the driver
   * is quit whenever it was started. The follower and following counts are
   * computed as written, from a field no profile sets, so they are 0 (see
   * ScrapeInstagramProfilesIntended).
   */
  function ScrapeInstagramProfiles(sc: Scanners, b: Browser, req: InstagramScrapeRequest, elapsed: int): (s: Session)
    ensures s.driverQuit <==> b.setup.Started?
    ensures s.response.targetHandle == req.targetHandle && s.response.processingTime == elapsed
    ensures s.response.status == StatusCompleted <==> b.setup.Started? && b.loginSucceeds && b.profileFound
    ensures forall i :: 0 <= i < |s.response.profiles| ==> Collectable(s.response.profiles[i])
    ensures s.response.status != StatusCompleted ==>
              && s.response.status == StatusError
              && s.response.profiles == [] && s.response.totalProfiles == 0 && s.response.statistics.None?
              && s.response.followersScraped == 0 && s.response.followingScraped == 0
              && s.response.successfulScrapes == 0 && s.response.failedScrapes == 0
              && s.response.message == (if b.setup.SetupFailed? then "Error: " + b.setup.reason.GetOr("null")
                                        else if !b.loginSucceeds then LoginFailedMessage
                                        else NavigationFailedMessage)
              && s.response == CreateErrorResponse(req.targetHandle, s.response.message, elapsed)
    ensures s.response.status == StatusCompleted ==>
              && s.response.message == CompletedMessage
              && s.response.profiles == Followers(sc, b, req) + Following(sc, b, req)
              && s.response.totalProfiles == |s.response.profiles|
              && s.response.followersScraped == 0 && s.response.followingScraped == 0
              && s.response.successfulScrapes == CountStatus(StatusesOf(s.response.profiles, ProfileStatus), StatusSuccess)
              && s.response.failedScrapes == CountStatus(StatusesOf(s.response.profiles, ProfileStatus), StatusError)
              && s.response.successfulScrapes + s.response.failedScrapes == s.response.totalProfiles
              && s.response.statistics == Some(CalculateStatistics(s.response.profiles))
  {
    match b.setup
    case SetupFailed(reason) =>
      Session(CreateErrorResponse(req.targetHandle, "Error: " + reason.GetOr("null"), elapsed), false)
    case Started =>
      if !b.loginSucceeds then Session(CreateErrorResponse(req.targetHandle, LoginFailedMessage, elapsed), true)
      else if !b.profileFound then Session(CreateErrorResponse(req.targetHandle, NavigationFailedMessage, elapsed), true)
      else
        var followers := Followers(sc, b, req);
        var following := Following(sc, b, req);
        var all := followers + following;
        StatusesPartition(all);
        NoCountsSet(all);
        var response := InstagramScrapeResponse(
          req.targetHandle, |all|, FollowersScrapedAsWritten(req, all), FollowingScrapedAsWritten(req, all),
          CountStatus(StatusesOf(all, ProfileStatus), StatusSuccess), CountStatus(StatusesOf(all, ProfileStatus), StatusError),
          all, elapsed, StatusCompleted, CompletedMessage, Some(CalculateStatistics(all)));
        Session(response, true)
  }

  /** Each collected profile is a success or an error, so the two counts cover them all. */
  lemma StatusesPartition(ps: seq<InstagramProfile>)
    requires forall i :: 0 <= i < |ps| ==> Collectable(ps[i])
    ensures CountStatus(StatusesOf(ps, ProfileStatus), StatusSuccess) + CountStatus(StatusesOf(ps, ProfileStatus), StatusError) == |ps|
  {
    CountsPartition(StatusesOf(ps, ProfileStatus));
  }

  /** Profiles whose follower count is set. */
  function CountWithFollowersCount(ps: seq<InstagramProfile>): (n: nat)
    ensures n <= |ps|
  {
    if |ps| == 0 then 0 else (if ps[0].followersCount.Some? then 1 else 0) + CountWithFollowersCount(ps[1..])
  }

  function CountWithFollowingCount(ps: seq<InstagramProfile>): (n: nat)
    ensures n <= |ps|
  {
    if |ps| == 0 then 0 else (if ps[0].followingCount.Some? then 1 else 0) + CountWithFollowingCount(ps[1..])
  }

  /** followersScraped as the source computes it: profiles, of all collected, whose follower count is set. */
  function FollowersScrapedAsWritten(req: InstagramScrapeRequest, all: seq<InstagramProfile>): int {
    if req.scrapeFollowers then CountWithFollowersCount(all) else 0
  }

  function FollowingScrapedAsWritten(req: InstagramScrapeRequest, all: seq<InstagramProfile>): int {
    if req.scrapeFollowing then CountWithFollowingCount(all) else 0
  }

  lemma {:induction false} NoCountsSet(ps: seq<InstagramProfile>)
    requires forall i :: 0 <= i < |ps| ==> Collectable(ps[i])
    ensures CountWithFollowersCount(ps) == 0 && CountWithFollowingCount(ps) == 0
  {
    if |ps| > 0 {
      assert Collectable(ps[0]);
      NoCountsSet(ps[1..]);
    }
  }

  /**
   * scrapeInstagramProfiles as the source evidently means it: each profile
   * relocated with the emoji markers, and the follower and following counts
   * the sizes of the two dialogs' lists.
   */
  function ScrapeInstagramProfilesIntended(sc: Scanners, b: Browser, req: InstagramScrapeRequest, elapsed: int): (s: Session)
    ensures var w := ScrapeInstagramProfiles(sc, b, req, elapsed);
            && s.driverQuit == w.driverQuit
            && s.response.(profiles := [], followersScraped := 0, followingScraped := 0)
               == w.response.(profiles := [], followersScraped := 0, followingScraped := 0)
            && |s.response.profiles| == |w.response.profiles|
            && forall i :: 0 <= i < |w.response.profiles| ==> s.response.profiles[i] == Relocate(w.response.profiles[i])
    ensures s.response.status == StatusCompleted ==>
              && s.response.followersScraped == |Followers(sc, b, req)| && s.response.followingScraped == |Following(sc, b, req)|
              && s.response.followersScraped + s.response.followingScraped == s.response.totalProfiles
  {
    var w := ScrapeInstagramProfiles(sc, b, req, elapsed);
    var ps := w.response.profiles;
    var relocated := seq(|ps|, i requires 0 <= i < |ps| => Relocate(ps[i]));
    if w.response.status == StatusCompleted then
      var n := |Followers(sc, b, req)|;
      var m := |Following(sc, b, req)|;
      Session(w.response.(profiles := relocated, followersScraped := n, followingScraped := m), w.driverQuit)
    else
      Session(w.response.(profiles := relocated), w.driverQuit)
  }

  /**
   * Nothing sets a profile's follower or following count, so the counts as
   * written are 0 after every completed session, and they differ from the
   * intended ones as soon as a follower is collected.
   */
  lemma CountsAsWrittenDiffer(sc: Scanners, b: Browser, req: InstagramScrapeRequest, elapsed: int)
    requires ScrapeInstagramProfiles(sc, b, req, elapsed).response.status == StatusCompleted
    requires |Followers(sc, b, req)| > 0
    ensures ScrapeInstagramProfiles(sc, b, req, elapsed).response.followersScraped == 0
    ensures ScrapeInstagramProfilesIntended(sc, b, req, elapsed).response.followersScraped > 0
  {
  }

  /**
   * Usernames are told apart only within one dialog: an account that both
   * follows and is followed by the target appears twice in the response.
   */
  lemma DedupIsPerPhase(sc: Scanners, b: Browser, req: InstagramScrapeRequest, elapsed: int)
    requires b.setup.Started? && b.loginSucceeds && b.profileFound
    requires req.scrapeFollowers && req.scrapeFollowing
    requires b.followers == b.following && req.maxFollowers == req.maxFollowing
    requires |Followers(sc, b, req)| > 0
    ensures !DistinctUsernames(ScrapeInstagramProfiles(sc, b, req, elapsed).response.profiles)
  {
    var f := Followers(sc, b, req);
    var all := ScrapeInstagramProfiles(sc, b, req, elapsed).response.profiles;
    assert all == f + f;
    assert all[0] == all[|f|];
  }

  /** Within each dialog, and so within each half of the response, no username repeats. */
  lemma CompletedProfilesDistinctPerPhase(sc: Scanners, b: Browser, req: InstagramScrapeRequest, elapsed: int)
    requires ScrapeInstagramProfiles(sc, b, req, elapsed).response.status == StatusCompleted
    ensures var all := ScrapeInstagramProfiles(sc, b, req, elapsed).response.profiles;
            var n := |Followers(sc, b, req)|;
            && n <= |all|
            && DistinctUsernames(all[..n]) && DistinctUsernames(all[n..])
            && forall i :: 0 <= i < |all| ==> Collectable(all[i])
  {
    var all := ScrapeInstagramProfiles(sc, b, req, elapsed).response.profiles;
    var n := |Followers(sc, b, req)|;
    assert all[..n] == Followers(sc, b, req);
    assert all[n..] == Following(sc, b, req);
  }
}

=== FILE: patterns.dfy ===
/**
 * The pattern library both scrapers share: the four regular expressions
 * (EMAIL, PHONE, WEBSITE, SOCIAL) as scanners supplied from outside, the
 * e-mail false-positive filter of the web path, the extractors each path
 * builds on the scanners, and the keyword cues that pull a contact or a
 * location line out of an Instagram bio.
 */
module Patterns {
  import opened Wrappers
  import opened Text

  // ---------------------------------------------------------------------------
  // Scanners
  // ---------------------------------------------------------------------------

  /**
   * What `Matcher.find` reports, left to right, for each of the four
   * patterns. The regular expressions themselves are not modelled.
   */
  datatype Scanners = Scanners(
    email: string -> seq<string>,
    phone: string -> seq<string>,
    website: string -> seq<string>,
    social: string -> seq<string>)

  /** Every match a scanner reports is a piece of the scanned text. */
  ghost predicate ReportsSubstrings(scan: string -> seq<string>) {
    forall text: string, m: string :: m in scan(text) ==> IsSubstring(m, text)
  }

  ghost predicate ValidScanners(sc: Scanners) {
    && ReportsSubstrings(sc.email)
    && ReportsSubstrings(sc.phone)
    && ReportsSubstrings(sc.website)
    && ReportsSubstrings(sc.social)
  }

  // ---------------------------------------------------------------------------
  // isFalsePositiveEmail
  // ---------------------------------------------------------------------------

  function DigitRunEnd(s: string, i: nat): (j: nat)
    requires i <= |s|
    ensures i <= j <= |s|
    ensures forall k :: i <= k < j ==> IsDigit(s[k])
    ensures j < |s| ==> !IsDigit(s[j])
    decreases |s| - i
  {
    if i < |s| && IsDigit(s[i]) then DigitRunEnd(s, i + 1) else i
  }

  /** `\d+\.\d+` matches from index `i` on. */
  predicate DigitsDotDigitsAt(s: string, i: nat)
    requires i <= |s|
  {
    var k := DigitRunEnd(s, i);
    k > i && k + 1 < |s| && s[k] == '.' && IsDigit(s[k + 1])
  }

  /** Some '@' at or after `i` is followed by `\d+\.\d+`. */
  predicate NumericAfterAtFrom(s: string, i: nat)
    requires i <= |s|
    decreases |s| - i
  {
    i < |s| && ((s[i] == '@' && DigitsDotDigitsAt(s, i + 1)) || NumericAfterAtFrom(s, i + 1))
  }

  /** `s.matches(".*@\\d+\\.\\d+.*")`, where `.` never matches a line terminator. */
  predicate MatchesNumericDomain(s: string) {
    (forall i :: 0 <= i < |s| ==> !IsLineTerminator(s[i])) && NumericAfterAtFrom(s, 0)
  }

  /** The web path's filter for image and script names that look like addresses. */
  predicate IsFalsePositiveEmail(email: string) {
    var e := ToLower(email);
    || Contains(e, "@2x") || Contains(e, "@3x") || Contains(e, "fallback") || Contains(e, ".min.")
    || EndsWith(e, ".js") || EndsWith(e, ".css")
    || MatchesNumericDomain(e)
  }

  /** '@' at `a`, then `d1` digits, '.', then `d2` digits. */
  ghost predicate NumericDomainAt(s: string, a: nat, d1: nat, d2: nat) {
    && d1 > 0 && d2 > 0 && a + d1 + d2 + 2 <= |s|
    && s[a] == '@'
    && AllDigits(s[a + 1..a + 1 + d1])
    && s[a + 1 + d1] == '.'
    && AllDigits(s[a + 2 + d1..a + 2 + d1 + d2])
  }

  /** The filter stated declaratively, one disjunct per test of the source. */
  ghost predicate FalsePositiveSpec(email: string) {
    var e := ToLower(email);
    || IsSubstring("@2x", e) || IsSubstring("@3x", e)
    || IsSubstring("fallback", e) || IsSubstring(".min.", e)
    || EndsWith(e, ".js") || EndsWith(e, ".css")
    || ((forall i :: 0 <= i < |e| ==> !IsLineTerminator(e[i]))
        && exists a: nat, d1: nat, d2: nat :: NumericDomainAt(e, a, d1, d2))
  }

  lemma {:induction false} NumericScanSound(s: string, i: nat)
    requires i <= |s|
    ensures NumericAfterAtFrom(s, i) ==> exists a: nat, d1: nat, d2: nat :: NumericDomainAt(s, a, d1, d2)
    decreases |s| - i
  {
    if i < |s| {
      if s[i] == '@' && DigitsDotDigitsAt(s, i + 1) {
        var k := DigitRunEnd(s, i + 1);
        assert AllDigits(s[k + 1..k + 2]);
        assert NumericDomainAt(s, i, k - (i + 1), 1);
      } else {
        NumericScanSound(s, i + 1);
      }
    }
  }

  lemma {:induction false} NumericScanComplete(s: string, i: nat, a: nat, d1: nat, d2: nat)
    requires i <= a && NumericDomainAt(s, a, d1, d2)
    ensures NumericAfterAtFrom(s, i)
    decreases a - i
  {
    if i < a {
      NumericScanComplete(s, i + 1, a, d1, d2);
    } else {
      var j := a + 1 + d1;
      assert forall k :: a + 1 <= k < j ==> IsDigit(s[k]) by {
        forall k | a + 1 <= k < j ensures IsDigit(s[k]) {
          assert s[k] == s[a + 1..j][k - (a + 1)];
        }
      }
      assert s[a + 2 + d1..a + 2 + d1 + d2][0] == s[j + 1];
      assert DigitRunEnd(s, a + 1) == j;
    }
  }

  /** The executable filter is exactly the declarative one. */
  lemma FalsePositiveMatchesSpec(email: string)
    ensures IsFalsePositiveEmail(email) <==> FalsePositiveSpec(email)
  {
    var e := ToLower(email);
    ContainsIsSubstring(e, "@2x");
    ContainsIsSubstring(e, "@3x");
    ContainsIsSubstring(e, "fallback");
    ContainsIsSubstring(e, ".min.");
    NumericScanSound(e, 0);
    if exists a: nat, d1: nat, d2: nat :: NumericDomainAt(e, a, d1, d2) {
      var a: nat, d1: nat, d2: nat :| NumericDomainAt(e, a, d1, d2);
      NumericScanComplete(e, 0, a, d1, d2);
    }
  }

  // ---------------------------------------------------------------------------
  // Web path extractors (WebScrapingService)
  // ---------------------------------------------------------------------------

  /** Each match lower-cased, dropped when it is a false positive. */
  function KeptEmails(matches: seq<string>): (r: seq<string>)
    ensures forall e :: e in r ==> IsLowerCase(e) && !IsFalsePositiveEmail(e)
    ensures forall e :: e in r ==> exists m :: m in matches && e == ToLower(m)
    ensures forall m :: m in matches && !IsFalsePositiveEmail(ToLower(m)) ==> ToLower(m) in r
    decreases |matches|
  {
    if |matches| == 0 then []
    else
      var e := ToLower(matches[0]);
      ToLowerIsLowerCase(matches[0]);
      var rest := KeptEmails(matches[1..]);
      assert forall m :: m in matches[1..] ==> m in matches;
      (if IsFalsePositiveEmail(e) then [] else [e]) + rest
  }

  /**
   * extractEmails(Document): the lower-cased matches over the page text that
   * are not false positives, as a set.
   */
  function WebEmails(sc: Scanners, text: string): (r: seq<string>)
    ensures NoDuplicates(r)
    ensures forall e :: e in r ==> IsLowerCase(e) && !IsFalsePositiveEmail(e)
    ensures forall e :: e in r ==> exists m :: m in sc.email(text) && e == ToLower(m)
    ensures forall m :: m in sc.email(text) && !IsFalsePositiveEmail(ToLower(m)) ==> ToLower(m) in r
  {
    Dedup(KeptEmails(sc.email(text)))
  }

  function TrimAll(xs: seq<string>): (r: seq<string>)
    ensures |r| == |xs| && forall i :: 0 <= i < |xs| ==> r[i] == Trim(xs[i])
  {
    seq(|xs|, i requires 0 <= i < |xs| => Trim(xs[i]))
  }

  /** extractPhoneNumbers(Document): every match, trimmed, as a set. */
  function WebPhones(sc: Scanners, text: string): (r: seq<string>)
    ensures NoDuplicates(r)
    ensures forall p :: p in r ==> IsTrimmed(p)
    ensures forall p :: p in r <==> exists m :: m in sc.phone(text) && p == Trim(m)
  {
    var ms := sc.phone(text);
    var trimmed := TrimAll(ms);
    assert forall m :: m in ms ==> Trim(m) in trimmed by {
      forall m | m in ms ensures Trim(m) in trimmed {
        var i :| 0 <= i < |ms| && ms[i] == m;
        assert trimmed[i] == Trim(m);
      }
    }
    Dedup(trimmed)
  }

  /** The hrefs in which the social pattern finds something. */
  function SocialHrefs(sc: Scanners, hrefs: seq<string>): (r: seq<string>)
    ensures forall h :: h in r <==> h in hrefs && |sc.social(h)| > 0
    decreases |hrefs|
  {
    if |hrefs| == 0 then []
    else (if |sc.social(hrefs[0]) | > 0 then [hrefs[0]] else []) + SocialHrefs(sc, hrefs[1..])
  }

  /**
   * extractSocialLinks(Document): whole hrefs that mention a social domain,
   * together with the social matches in the page text, as a set.
   */
  function WebSocialLinks(sc: Scanners, hrefs: seq<string>, text: string): (r: seq<string>)
    ensures NoDuplicates(r)
    ensures forall l :: l in r <==> (l in hrefs && |sc.social(l)| > 0) || l in sc.social(text)
  {
    Dedup(SocialHrefs(sc, hrefs) + sc.social(text))
  }

  // ---------------------------------------------------------------------------
  // Instagram path extractors (InstagramScrapingService): raw matches, no
  // lower-casing, no false-positive filter, no trimming
  // ---------------------------------------------------------------------------

  /** extractEmails(String): empty for an empty bio, otherwise every match as a set. */
  function BioEmails(sc: Scanners, bio: string): (r: seq<string>)
    ensures NoDuplicates(r)
    ensures forall e :: e in r <==> bio != "" && e in sc.email(bio)
  {
    if bio == "" then [] else Dedup(sc.email(bio))
  }

  /** extractPhoneNumbers(String): empty for an empty bio, otherwise every match as a set. */
  function BioPhones(sc: Scanners, bio: string): (r: seq<string>)
    ensures NoDuplicates(r)
    ensures forall p :: p in r <==> bio != "" && p in sc.phone(bio)
  {
    if bio == "" then [] else Dedup(sc.phone(bio))
  }

  /** extractWebsite: the first website match, or null. */
  function BioWebsite(sc: Scanners, bio: string): (r: Option<string>)
    ensures r.Some? <==> bio != "" && |sc.website(bio)| > 0
    ensures r.Some? ==> r.value == sc.website(bio)[0]
  {
    if bio == "" || |sc.website(bio)| == 0 then None else Some(sc.website(bio)[0])
  }

  /** A raw match is kept as it is, even one the web path would lower-case or reject. */
  lemma BioExtractionIsRaw(sc: Scanners, bio: string, m: string)
    requires bio != ""
    ensures m in sc.email(bio) ==> m in BioEmails(sc, bio)
    ensures m in sc.phone(bio) ==> m in BioPhones(sc, bio)
  {
  }

  /** With sound scanners, whatever the Instagram path extracts is a piece of the bio. */
  lemma BioExtractionInBio(sc: Scanners, bio: string)
    requires ValidScanners(sc)
    ensures forall e :: e in BioEmails(sc, bio) ==> IsSubstring(e, bio)
    ensures forall p :: p in BioPhones(sc, bio) ==> IsSubstring(p, bio)
    ensures BioWebsite(sc, bio).Some? ==> IsSubstring(BioWebsite(sc, bio).value, bio)
  {
    if BioWebsite(sc, bio).Some? {
      assert sc.website(bio)[0] in sc.website(bio);
    }
  }

  // ---------------------------------------------------------------------------
  // Keyword cues: extractContact and extractLocation
  // ---------------------------------------------------------------------------

  const ContactKeywords: seq<string> := [
    "contact:", "email:", "reach me:", "dm me:", "message me:",
    "get in touch:", "business:", "collab:", "collaboration:"
  ]

  /**
   * The location markers exactly as the source text spells them: the first
   * three are the pin and globe emoji whose UTF-8 bytes were read as
   * Windows-1252 (U+00F0 U+0178 U+201C for the pin, U+00F0 U+0178 U+0152 for
   * the globe), the first and third equal.
   */
  const LocationMarkers: seq<string> := [
    "\U{F0}\U{178}\U{201C}", "\U{F0}\U{178}\U{152}", "\U{F0}\U{178}\U{201C}",
    "based in", "located in", "from"
  ]

  /** The markers the source evidently means: the pin emoji U+1F4CD and the globe emoji U+1F30D. */
  const IntendedLocationMarkers: seq<string> := [
    "\U{1F4CD}", "\U{1F30D}", "\U{1F4CD}",
    "based in", "located in", "from"
  ]

  const NewLine: seq<PatChar> := [Lit('\n')]

  /** Index of the first line break of `t`, or |t| when there is none. */
  function LineEnd(t: string): (j: nat)
    ensures j <= |t| && '\n' !in t[..j]
    ensures j < |t| ==> t[j] == '\n'
  {
    if |t| == 0 then 0
    else if t[0] == '\n' then 0
    else
      var j := 1 + LineEnd(t[1..]);
      assert t[..j] == [t[0]] + t[1..][..j - 1];
      j
  }

  /**
   * `rest.trim().split("\n")` then `lines[0].trim()`: the first line of the
   * trimmed remainder, trimmed; the split never comes back empty.
   */
  function FirstLine(rest: string): (r: Option<string>)
    ensures r == Some(Trim(Trim(rest)[..LineEnd(Trim(rest))]))
  {
    var t := Trim(rest);
    var lines := Split(t, NewLine);
    var j := LineEnd(t);
    if t == "" then
      assert FindFrom(t, NewLine, 0).None?;
      if |lines| > 0 then Some(Trim(lines[0])) else None
    else
      assert t[0] != '\n';
      SplitOnCharFirst(t, '\n', t[..j]);
      if |lines| > 0 then Some(Trim(lines[0])) else None
  }

  /** The first keyword of the list (not the first in the text) that occurs. */
  ghost predicate IsFirstListedKeyword(lower: string, keywords: seq<string>, j: nat) {
    && j < |keywords|
    && Contains(lower, keywords[j])
    && forall i :: 0 <= i < j ==> !Contains(lower, keywords[i])
  }

  /** The original text after the first occurrence of `k` in its lower-cased form. */
  function TextAfter(text: string, lower: string, k: string): string
    requires |lower| == |text| && Contains(lower, k)
  {
    text[IndexOf(lower, k).value + |k|..]
  }

  /**
   * The keyword loop of extractContact / extractLocation: the first keyword of
   * the list found in `lower` decides, and the cue is the first line of the
   * original text after it.
   */
  function CueFrom(text: string, lower: string, keywords: seq<string>): (r: Option<string>)
    requires |lower| == |text|
    ensures r.Some? ==> '\n' !in r.value && IsTrimmed(r.value)
    decreases |keywords|
  {
    if |keywords| == 0 then None
    else match IndexOf(lower, keywords[0])
      case Some(i) =>
        // `lines.length > 0` always holds: FirstLineIsOneLine shows the split never comes back empty
        FirstLineIsOneLine(text[i + |keywords[0]|..]);
        FirstLine(text[i + |keywords[0]|..])
      case None => CueFrom(text, lower, keywords[1..])
  }

  /** There is a cue exactly when some keyword occurs. */
  lemma {:induction false} CueFromFoundIff(text: string, lower: string, keywords: seq<string>)
    requires |lower| == |text|
    ensures CueFrom(text, lower, keywords).None? <==> forall i :: 0 <= i < |keywords| ==> !Contains(lower, keywords[i])
    decreases |keywords|
  {
    if |keywords| > 0 {
      CueFromFoundIff(text, lower, keywords[1..]);
      assert forall i :: 1 <= i < |keywords| ==> keywords[i] == keywords[1..][i - 1];
      if Contains(lower, keywords[0]) {
        FirstLineIsOneLine(TextAfter(text, lower, keywords[0]));
      }
    }
  }

  /** The cue is the first line after the first keyword of the list that occurs. */
  lemma {:induction false} CueFromFirstListed(text: string, lower: string, keywords: seq<string>)
    requires |lower| == |text|
    ensures CueFrom(text, lower, keywords).Some? ==>
              exists j: nat :: IsFirstListedKeyword(lower, keywords, j)
                               && CueFrom(text, lower, keywords) == FirstLine(TextAfter(text, lower, keywords[j]))
    decreases |keywords|
  {
    if |keywords| > 0 {
      if Contains(lower, keywords[0]) {
        FirstLineIsOneLine(TextAfter(text, lower, keywords[0]));
        assert IsFirstListedKeyword(lower, keywords, 0);
      } else {
        CueFromFirstListed(text, lower, keywords[1..]);
        assert forall i :: 1 <= i < |keywords| ==> keywords[i] == keywords[1..][i - 1];
        assert forall j: nat :: IsFirstListedKeyword(lower, keywords[1..], j) ==> IsFirstListedKeyword(lower, keywords, j + 1);
      }
    }
  }

  /** Null for an empty text, otherwise the keyword loop over the lower-cased text. */
  function CueAfterKeyword(text: string, keywords: seq<string>): (r: Option<string>)
    ensures r.Some? ==> '\n' !in r.value && IsTrimmed(r.value)
    ensures text != "" ==> r == CueFrom(text, ToLower(text), keywords)
  {
    if text == "" then None else CueFrom(text, ToLower(text), keywords)
  }

  /** A cue is one trimmed line. */
  lemma FirstLineIsOneLine(rest: string)
    ensures FirstLine(rest).Some?
    ensures '\n' !in FirstLine(rest).value && IsTrimmed(FirstLine(rest).value)
  {
    var t := Trim(rest);
    var line := t[..LineEnd(t)];
    TrimIsSubstring(line);
    SubstringExcludes(Trim(line), line, '\n');
  }

  /** extractContact. */
  function ExtractContact(text: string): (r: Option<string>)
    ensures r.Some? ==> '\n' !in r.value && IsTrimmed(r.value)
  {
    CueAfterKeyword(text, ContactKeywords)
  }

  /** extractLocation as written, with the mis-decoded glyph markers. */
  function ExtractLocation(text: string): (r: Option<string>)
    ensures r.Some? ==> '\n' !in r.value && IsTrimmed(r.value)
  {
    CueAfterKeyword(text, LocationMarkers)
  }

  /** extractLocation with the pin and globe emoji as markers. */
  function ExtractLocationIntended(text: string): (r: Option<string>)
    ensures r.Some? ==> '\n' !in r.value && IsTrimmed(r.value)
  {
    CueAfterKeyword(text, IntendedLocationMarkers)
  }

  /** A keyword can only be found in a non-empty text. */
  lemma NothingInEmpty(k: string)
    requires |k| > 0
    ensures !Contains("", k)
  {
  }

  /** extractContact finds a contact exactly when a contact keyword occurs, in any case. */
  lemma ContactFoundIff(text: string)
    ensures ExtractContact(text).Some? <==> exists i :: 0 <= i < |ContactKeywords| && Contains(ToLower(text), ContactKeywords[i])
  {
    if text != "" {
      CueFromFoundIff(text, ToLower(text), ContactKeywords);
    } else {
      forall i | 0 <= i < |ContactKeywords| ensures !Contains(ToLower(text), ContactKeywords[i]) {
        NothingInEmpty(ContactKeywords[i]);
      }
    }
  }

  /** A keyword whose first character is missing from the text cannot occur in it. */
  lemma FirstCharAbsent(s: string, k: string)
    requires |k| > 0 && k[0] !in s
    ensures !Contains(s, k)
  {
    forall j: nat ensures !SubstringAt(k, s, j) {
      if j + |k| <= |s| {
        assert s[j..j + |k|][0] == s[j];
      }
    }
  }

  /** An occurrence of `k` in `s` is an occurrence of its lower-cased form in the lower-cased `s`. */
  lemma ContainsLowered(s: string, k: string)
    requires Contains(s, k)
    ensures Contains(ToLower(s), ToLower(k))
  {
    var a := IndexOf(s, k).value;
    assert ToLower(s)[a..a + |k|] == ToLower(k) by {
      forall i | 0 <= i < |k| ensures ToLower(s)[a..a + |k|][i] == ToLower(k)[i] {
        assert s[a..a + |k|][i] == s[a + i];
      }
    }
    assert SubstringAt(ToLower(k), ToLower(s), a);
    ContainsIsSubstring(ToLower(s), ToLower(k));
  }

  /** Lower-casing leaves every intended marker as it is. */
  lemma IntendedMarkersLowerCase(j: nat)
    requires j < |IntendedLocationMarkers|
    ensures ToLower(IntendedLocationMarkers[j]) == IntendedLocationMarkers[j]
  {
    var m := IntendedLocationMarkers[j];
    if j >= 3 {
      assert forall i :: 0 <= i < |m| ==> 'a' <= m[i] <= 'z' || m[i] == ' ';
    }
  }

  /**
   * A lower-cased text never holds U+0178, so the three glyph markers of the
   * source, which all contain it, can never be found.
   */
  lemma GlyphMarkersNeverMatch(text: string)
    ensures forall j :: 0 <= j < 3 ==> !Contains(ToLower(text), LocationMarkers[j])
  {
    var lower := ToLower(text);
    forall j | 0 <= j < 3 ensures !Contains(lower, LocationMarkers[j]) {
      var m := LocationMarkers[j];
      forall a: nat ensures !SubstringAt(m, lower, a) {
        if a + |m| <= |lower| {
          LowerCharNeverCapitalYDiaeresis(text[a + 1]);
          assert lower[a..a + |m|][1] == lower[a + 1];
        }
      }
    }
  }

  /**
   * As written, a location is found exactly when the lower-cased text holds
   * one of the three text cues "based in", "located in" or "from".
   */
  lemma LocationFoundIff(text: string)
    ensures ExtractLocation(text).Some? <==> exists j :: 3 <= j < |LocationMarkers| && Contains(ToLower(text), LocationMarkers[j])
  {
    GlyphMarkersNeverMatch(text);
    if text != "" {
      CueFromFoundIff(text, ToLower(text), LocationMarkers);
    } else {
      forall j | 3 <= j < |LocationMarkers| ensures !Contains(ToLower(text), LocationMarkers[j]) {
        NothingInEmpty(LocationMarkers[j]);
      }
    }
  }

  /** With the emoji markers, a location is found exactly when some marker occurs in the lower-cased text. */
  lemma LocationIntendedFoundIff(text: string)
    ensures ExtractLocationIntended(text).Some? <==>
              exists j :: 0 <= j < |IntendedLocationMarkers| && Contains(ToLower(text), IntendedLocationMarkers[j])
  {
    if text != "" {
      CueFromFoundIff(text, ToLower(text), IntendedLocationMarkers);
    } else {
      forall j | 0 <= j < |IntendedLocationMarkers| ensures !Contains(ToLower(text), IntendedLocationMarkers[j]) {
        NothingInEmpty(IntendedLocationMarkers[j]);
      }
    }
  }

  /** A bio that opens with the pin emoji followed by a place. */
  function Pinned(place: string): (s: string)
    ensures |s| == 1 + |place| && s[0] == '\U{1F4CD}' && s[1..] == place
  {
    IntendedLocationMarkers[0] + place
  }

  /** The lower-cased pinned bio: the pin, then the lower-cased place. */
  lemma PinnedLowered(place: string)
    ensures ToLower(Pinned(place)) == IntendedLocationMarkers[0] + ToLower(place)
  {
    var lower := ToLower(Pinned(place));
    assert lower[..1] == IntendedLocationMarkers[0];
    assert forall i :: 0 <= i < |place| ==> lower[1..][i] == LowerChar(place[i]);
    assert lower == lower[..1] + lower[1..];
  }

  /** A keyword that cannot start inside `pre` occurs in `pre + s` only if it occurs in `s`. */
  lemma ContainsPastPrefix(pre: string, s: string, k: string)
    requires |k| > 0 && k[0] !in pre
    ensures Contains(pre + s, k) ==> Contains(s, k)
  {
    if Contains(pre + s, k) {
      var a := IndexOf(pre + s, k).value;
      assert (pre + s)[a..a + |k|][0] == (pre + s)[a];
      assert a >= |pre|;
      assert (pre + s)[a..a + |k|] == s[a - |pre|..a - |pre| + |k|];
      assert SubstringAt(k, s, a - |pre|);
    }
  }

  /**
   * As written, a pin in front of a place is never recognised: a bio that
   * opens with the pin emoji, and names no text cue, yields no location.
   */
  lemma LocationMissesPin(place: string)
    requires forall j :: 3 <= j < |LocationMarkers| ==> !Contains(ToLower(place), LocationMarkers[j])
    ensures Contains(Pinned(place), IntendedLocationMarkers[0])
    ensures ExtractLocation(Pinned(place)) == None
  {
    var text := Pinned(place);
    var lower := ToLower(text);
    assert SubstringAt(IntendedLocationMarkers[0], text, 0) by {
      assert text[0..1] == IntendedLocationMarkers[0];
    }
    PinnedLowered(place);
    GlyphMarkersNeverMatch(text);
    forall j | 3 <= j < |LocationMarkers| ensures !Contains(lower, LocationMarkers[j]) {
      ContainsPastPrefix(IntendedLocationMarkers[0], ToLower(place), LocationMarkers[j]);
    }
    CueFromFoundIff(text, lower, LocationMarkers);
  }

  /** A string `trim` leaves alone. */
  lemma TrimOfTrimmed(s: string)
    requires IsTrimmed(s)
    ensures Trim(s) == s
  {
    TrimPadded("", s, "");
    assert "" + s + "" == s;
  }

  /** The first line of a remainder without line breaks is the trimmed remainder. */
  lemma FirstLineOfOneLine(rest: string)
    requires IsTrimmed(rest) && '\n' !in rest
    ensures FirstLine(rest) == Some(rest)
  {
    TrimOfTrimmed(rest);
    assert rest[..|rest|] == rest;
  }

  /**
   * With the emoji markers the same bio yields the first line of the place
   * after the pin, and a one-line place comes back unchanged.
   */
  lemma LocationFindsPin(place: string)
    ensures ExtractLocationIntended(Pinned(place)) == FirstLine(place)
    ensures IsTrimmed(place) && '\n' !in place ==> ExtractLocationIntended(Pinned(place)) == Some(place)
  {
    var text := Pinned(place);
    var lower := ToLower(text);
    PinnedLowered(place);
    assert SubstringAt(IntendedLocationMarkers[0], lower, 0) by {
      assert lower[0..1] == IntendedLocationMarkers[0];
    }
    assert IndexOf(lower, IntendedLocationMarkers[0]) == Some(0);
    assert text[1..] == place;
    if IsTrimmed(place) && '\n' !in place {
      FirstLineOfOneLine(place);
    }
  }

  /** With the emoji markers, every marker occurring in the bio yields a location. */
  lemma LocationFindsEveryMarker(text: string, j: nat)
    requires j < |IntendedLocationMarkers| && Contains(text, IntendedLocationMarkers[j])
    ensures ExtractLocationIntended(text).Some?
  {
    ContainsLowered(text, IntendedLocationMarkers[j]);
    IntendedMarkersLowerCase(j);
    assert text != "";
    CueFromFoundIff(text, ToLower(text), IntendedLocationMarkers);
  }
}

=== FILE: records.dfy ===
/**
 * The value types of the scraper (package com.scraper.model), field by field.
 * Java references that may be null are Options; a Java Set<String> is a
 * duplicate-free sequence in iteration order, because the CSV export joins
 * its elements in that order.
 */
module Records {
  import opened Wrappers

  const StatusSuccess := "success"
  const StatusError := "error"
  const StatusCompleted := "completed"

  /** One scraped web page (ScrapedData). `responseTime` is a primitive long. */
  datatype ScrapedData = ScrapedData(
    url: Option<string>,
    title: Option<string>,
    description: Option<string>,
    emails: Option<seq<string>>,
    phoneNumbers: Option<seq<string>>,
    socialLinks: Option<seq<string>>,
    content: Option<string>,
    domain: Option<string>,
    status: Option<string>,
    responseTime: int,
    errorMessage: Option<string>)

  /** One Instagram account seen in a followers or following list (InstagramProfile). */
  datatype InstagramProfile = InstagramProfile(
    username: Option<string>,
    fullName: Option<string>,
    bio: Option<string>,
    profilePictureUrl: Option<string>,
    followersCount: Option<int>,
    followingCount: Option<int>,
    postsCount: Option<int>,
    isVerified: Option<bool>,
    isPrivate: Option<bool>,
    isBusiness: Option<bool>,
    website: Option<string>,
    contact: Option<string>,
    emails: Option<seq<string>>,
    phoneNumbers: Option<seq<string>>,
    location: Option<string>,
    externalLinks: Option<seq<string>>,
    profileUrl: Option<string>,
    status: Option<string>,
    errorMessage: Option<string>,
    responseTime: Option<int>)

  /** What `InstagramProfile.builder().build()` yields: every field null. */
  const NoProfileFields := InstagramProfile(
    None, None, None, None, None, None, None, None, None, None,
    None, None, None, None, None, None, None, None, None, None)

  /** The body of POST /scrape/web (ScrapeRequest). */
  datatype ScrapeRequest = ScrapeRequest(
    searchTopic: Option<string>,
    maxResults: Option<int>,
    searchEngine: Option<string>,
    language: Option<string>,
    country: Option<string>,
    fieldsToExtract: Option<set<string>>,
    exportAsCsv: Option<bool>)

  /** The three entries of ScrapeResponse.metadata. */
  datatype Metadata = Metadata(searchEngine: string, language: string, country: string)

  /** ScrapeResponse. */
  datatype ScrapeResponse = ScrapeResponse(
    searchTopic: Option<string>,
    totalResults: int,
    successfulScrapes: int,
    failedScrapes: int,
    results: seq<ScrapedData>,
    metadata: Option<Metadata>,
    processingTime: int,
    status: string,
    message: string)

  /** The body of POST /scrape/instagram (InstagramScrapeRequest). */
  datatype InstagramScrapeRequest = InstagramScrapeRequest(
    username: Option<string>,
    password: Option<string>,
    targetHandle: Option<string>,
    maxFollowers: int,
    maxFollowing: int,
    scrapeFollowers: bool,
    scrapeFollowing: bool,
    fieldsToExtract: Option<set<string>>,
    exportAsCsv: Option<bool>,
    delayMs: int,
    saveSession: bool,
    headlessMode: Option<bool>)

  /** The `statistics` map of an InstagramScrapeResponse. */
  datatype Statistics = Statistics(
    totalEmails: nat,
    totalPhoneNumbers: nat,
    profilesWithContact: nat,
    contactRate: real)

  /** InstagramScrapeResponse. */
  datatype InstagramScrapeResponse = InstagramScrapeResponse(
    targetHandle: Option<string>,
    totalProfiles: int,
    followersScraped: int,
    followingScraped: int,
    successfulScrapes: int,
    failedScrapes: int,
    profiles: seq<InstagramProfile>,
    processingTime: int,
    status: string,
    message: string,
    statistics: Option<Statistics>)

  /** The status of each record, in order, as `status` reads it. */
  function StatusesOf<T>(xs: seq<T>, status: T -> Option<string>): (st: seq<Option<string>>)
    ensures |st| == |xs| && forall i :: 0 <= i < |xs| ==> st[i] == status(xs[i])
  {
    seq(|xs|, i requires 0 <= i < |xs| => status(xs[i]))
  }

  function DataStatus(d: ScrapedData): Option<string> {
    d.status
  }

  function ProfileStatus(p: InstagramProfile): Option<string> {
    p.status
  }

  /** How many records carry the given status. */
  function CountStatus(statuses: seq<Option<string>>, status: string): (n: nat)
    ensures n <= |statuses|
  {
    if |statuses| == 0 then 0
    else (if statuses[0] == Some(status) then 1 else 0) + CountStatus(statuses[1..], status)
  }

  /**
   * When every status is "success" or "error", the two counts add up to the
   * number of records.
   */
  lemma {:induction false} CountsPartition(statuses: seq<Option<string>>)
    requires forall i :: 0 <= i < |statuses| ==> statuses[i] in {Some(StatusSuccess), Some(StatusError)}
    ensures CountStatus(statuses, StatusSuccess) + CountStatus(statuses, StatusError) == |statuses|
  {
    if |statuses| > 0 {
      CountsPartition(statuses[1..]);
    }
  }
}

=== FILE: text.dfy ===
/**
 * The java.lang.String operations the scraper is built from, each as the JDK
 * defines it: trim, toLowerCase, indexOf / contains / endsWith, split around a
 * pattern of fixed width, replaceAll("\\s+", " "), String.join and
 * String.valueOf(long). A Dafny `char` is one Unicode scalar value, where a
 * Java `char` is one UTF-16 unit: the two agree on every text without chars
 * beyond U+FFFF, and lengths here count scalar values.
 */
module Text {
  import opened Wrappers

  // ---------------------------------------------------------------------------
  // Substrings
  // ---------------------------------------------------------------------------

  /** `r` occurs in `s` starting at index `a`. */
  predicate SubstringAt(r: string, s: string, a: nat) {
    a + |r| <= |s| && s[a..a + |r|] == r
  }

  ghost predicate IsSubstring(r: string, s: string) {
    exists a: nat :: SubstringAt(r, s, a)
  }

  lemma SubstringOfSlice(s: string, a: nat, b: nat)
    requires a <= b <= |s|
    ensures IsSubstring(s[a..b], s)
  {
    assert SubstringAt(s[a..b], s, a);
  }

  lemma SubstringTransitive(r: string, s: string, t: string)
    requires IsSubstring(r, s) && IsSubstring(s, t)
    ensures IsSubstring(r, t)
  {
    var a: nat :| SubstringAt(r, s, a);
    var b: nat :| SubstringAt(s, t, b);
    forall i | 0 <= i < |r| ensures t[b + a + i] == r[i] {
      assert r[i] == s[a..a + |r|][i] == s[a + i];
      assert s[a + i] == t[b..b + |s|][a + i];
    }
    assert t[b + a..b + a + |r|] == r;
    assert SubstringAt(r, t, b + a);
  }

  lemma SubstringExcludes(r: string, s: string, c: char)
    requires IsSubstring(r, s) && c !in s
    ensures c !in r
  {
    var a: nat :| SubstringAt(r, s, a);
    forall i | 0 <= i < |r| ensures r[i] != c {
      assert r[i] == s[a..a + |r|][i] == s[a + i];
    }
  }

  // ---------------------------------------------------------------------------
  // String.trim: strips every char at or below U+0020 from both ends
  // ---------------------------------------------------------------------------

  predicate IsBlankChar(c: char) { c <= ' ' }

  predicate AllBlank(s: string) {
    forall i :: 0 <= i < |s| ==> IsBlankChar(s[i])
  }

  /** Nothing `trim` could remove: empty, or first and last char above U+0020. */
  predicate IsTrimmed(s: string) {
    |s| == 0 || (!IsBlankChar(s[0]) && !IsBlankChar(s[|s| - 1]))
  }

  function FirstNonBlank(s: string, i: nat): (j: nat)
    requires i <= |s|
    ensures i <= j <= |s|
    ensures forall k :: i <= k < j ==> IsBlankChar(s[k])
    ensures j < |s| ==> !IsBlankChar(s[j])
    decreases |s| - i
  {
    if i < |s| && IsBlankChar(s[i]) then FirstNonBlank(s, i + 1) else i
  }

  function EndOfNonBlank(s: string, lo: nat, hi: nat): (e: nat)
    requires lo <= hi <= |s|
    ensures lo <= e <= hi
    ensures forall k :: e <= k < hi ==> IsBlankChar(s[k])
    ensures e > lo ==> !IsBlankChar(s[e - 1])
    decreases hi
  {
    if hi > lo && IsBlankChar(s[hi - 1]) then EndOfNonBlank(s, lo, hi - 1) else hi
  }

  function Trim(s: string): (r: string)
    ensures IsTrimmed(r)
    ensures SubstringAt(r, s, FirstNonBlank(s, 0))
    ensures r == "" <==> AllBlank(s)
  {
    var a := FirstNonBlank(s, 0);
    var e := EndOfNonBlank(s, a, |s|);
    assert a < |s| ==> e > a;
    s[a..e]
  }

  lemma TrimIsSubstring(s: string)
    ensures IsSubstring(Trim(s), s)
  {
    assert SubstringAt(Trim(s), s, FirstNonBlank(s, 0));
  }

  /** `trim` removes exactly the blank padding around a trimmed core. */
  lemma {:induction false} TrimPadded(left: string, core: string, right: string)
    requires AllBlank(left) && AllBlank(right) && IsTrimmed(core)
    ensures Trim(left + core + right) == core
  {
    var s := left + core + right;
    if |core| == 0 {
      assert AllBlank(s) by {
        forall i | 0 <= i < |s| ensures IsBlankChar(s[i]) {
          if i < |left| { assert s[i] == left[i]; } else { assert s[i] == right[i - |left|]; }
        }
      }
    } else {
      var last := |left| + |core|;
      assert forall k :: 0 <= k < |left| ==> s[k] == left[k];
      assert forall k :: last <= k < |s| ==> s[k] == right[k - last];
      assert s[|left|] == core[0];
      assert s[last - 1] == core[|core| - 1];
      var a := FirstNonBlank(s, 0);
      assert a == |left|;
      var e := EndOfNonBlank(s, a, |s|);
      assert e == last;
      assert s[a..e] == core;
    }
  }

  lemma TrimIdempotent(s: string)
    ensures Trim(Trim(s)) == Trim(s)
  {
    TrimPadded("", Trim(s), "");
    assert "" + Trim(s) + "" == Trim(s);
  }

  // ---------------------------------------------------------------------------
  // String.toLowerCase, char by char (see README for the characters covered)
  // ---------------------------------------------------------------------------

  function LowerChar(c: char): char {
    if 'A' <= c <= 'Z' then (c as int + 32) as char
    else if '\U{C0}' <= c <= '\U{DE}' && c != '\U{D7}' then (c as int + 32) as char
    else if c == '\U{152}' then '\U{153}'
    else if c == '\U{178}' then '\U{FF}'
    else c
  }

  /** The capitals lower-casing maps here: A-Z, the Latin-1 capitals but U+00D7, U+0152 and U+0178. */
  predicate IsCapital(c: char) {
    || 'A' <= c <= 'Z'
    || ('\U{C0}' <= c <= '\U{DE}' && c != '\U{D7}')
    || c == '\U{152}' || c == '\U{178}'
  }

  /** String.toLowerCase: same length, no capital left, and every other char kept where it was. */
  function ToLower(s: string): (r: string)
    ensures |r| == |s|
    ensures forall i :: 0 <= i < |s| ==> r[i] == LowerChar(s[i])
    ensures forall i :: 0 <= i < |r| ==> !IsCapital(r[i])
    ensures forall i :: 0 <= i < |s| ==> (r[i] == s[i] <==> !IsCapital(s[i]))
  {
    seq(|s|, i requires 0 <= i < |s| => LowerChar(s[i]))
  }

  predicate IsLowerCase(s: string) {
    ToLower(s) == s
  }

  lemma LowerCharIdempotent(c: char)
    ensures LowerChar(LowerChar(c)) == LowerChar(c)
  {
  }

  lemma ToLowerIsLowerCase(s: string)
    ensures IsLowerCase(ToLower(s))
  {
    var r := ToLower(s);
    forall i | 0 <= i < |r| ensures ToLower(r)[i] == r[i] {
      LowerCharIdempotent(s[i]);
    }
  }

  /** U+0178 (capital Y with diaeresis) never survives lower-casing. */
  lemma LowerCharNeverCapitalYDiaeresis(c: char)
    ensures LowerChar(c) != '\U{178}'
  {
  }

  // ---------------------------------------------------------------------------
  // Fixed-width patterns: string literals, and the regular expressions of
  // java.util.regex used with `split` whose only operator is `.`
  // ---------------------------------------------------------------------------

  /** `.` in a java.util.regex pattern compiled without DOTALL. */
  predicate IsLineTerminator(c: char) {
    c == '\n' || c == '\r' || c == '\U{85}' || c == '\U{2028}' || c == '\U{2029}'
  }

  datatype PatChar = Lit(c: char) | AnyButLineTerminator

  predicate CharMatches(pc: PatChar, c: char) {
    match pc
    case Lit(d) => c == d
    case AnyButLineTerminator => !IsLineTerminator(c)
  }

  predicate MatchesAt(s: string, i: nat, p: seq<PatChar>) {
    i + |p| <= |s| && forall k :: 0 <= k < |p| ==> CharMatches(p[k], s[i + k])
  }

  /** The pattern that matches exactly the string `k`. */
  function Literal(k: string): (p: seq<PatChar>)
    ensures |p| == |k|
    ensures forall i :: 0 <= i < |k| ==> p[i] == Lit(k[i])
  {
    seq(|k|, i requires 0 <= i < |k| => Lit(k[i]))
  }

  lemma LiteralMatchesAt(s: string, i: nat, k: string)
    ensures MatchesAt(s, i, Literal(k)) <==> SubstringAt(k, s, i)
  {
    if SubstringAt(k, s, i) {
      forall j | 0 <= j < |k| ensures CharMatches(Literal(k)[j], s[i + j]) {
        assert s[i..i + |k|][j] == k[j];
      }
    }
    if MatchesAt(s, i, Literal(k)) {
      assert forall j :: 0 <= j < |k| ==> s[i + j] == k[j] by {
        forall j | 0 <= j < |k| ensures s[i + j] == k[j] {
          assert CharMatches(Literal(k)[j], s[i + j]);
        }
      }
      assert s[i..i + |k|] == k;
    }
  }

  /** A match inside a slice is a match in the whole string. */
  lemma MatchInSlice(s: string, a: nat, b: nat, j: nat, p: seq<PatChar>)
    requires a <= b <= |s|
    ensures MatchesAt(s[a..b], j, p) ==> MatchesAt(s, a + j, p) && a + j + |p| <= b
  {
    if MatchesAt(s[a..b], j, p) {
      forall k | 0 <= k < |p| ensures CharMatches(p[k], s[a + j + k]) {
        assert s[a..b][j + k] == s[a + j + k];
      }
    }
  }

  /** Leftmost match of `p` at or after `from` (Matcher.find). */
  function FindFrom(s: string, p: seq<PatChar>, from: nat): (r: Option<nat>)
    requires from <= |s|
    ensures r.Some? ==> from <= r.value && MatchesAt(s, r.value, p)
    ensures r.Some? ==> forall i: nat :: from <= i < r.value ==> !MatchesAt(s, i, p)
    ensures r.None? ==> forall i: nat :: from <= i ==> !MatchesAt(s, i, p)
    decreases |s| - from
  {
    if from + |p| > |s| then None
    else if MatchesAt(s, from, p) then Some(from)
    else FindFrom(s, p, from + 1)
  }

  lemma FindFromIs(s: string, p: seq<PatChar>, from: nat, i: nat)
    requires from <= i && from <= |s|
    requires MatchesAt(s, i, p)
    requires forall j: nat :: from <= j < i ==> !MatchesAt(s, j, p)
    ensures FindFrom(s, p, from) == Some(i)
  {
  }

  /** String.indexOf: the first index at which `k` occurs. */
  function IndexOf(s: string, k: string): (r: Option<nat>)
    ensures r.Some? ==> SubstringAt(k, s, r.value)
    ensures r.Some? ==> forall j: nat :: j < r.value ==> !SubstringAt(k, s, j)
    ensures r.None? ==> forall j: nat :: !SubstringAt(k, s, j)
  {
    LiteralMatchesEverywhere(s, k);
    FindFrom(s, Literal(k), 0)
  }

  lemma LiteralMatchesEverywhere(s: string, k: string)
    ensures forall j: nat :: MatchesAt(s, j, Literal(k)) <==> SubstringAt(k, s, j)
  {
    forall j: nat ensures MatchesAt(s, j, Literal(k)) <==> SubstringAt(k, s, j) {
      LiteralMatchesAt(s, j, k);
    }
  }

  /** String.contains. */
  predicate Contains(s: string, k: string) {
    IndexOf(s, k).Some?
  }

  lemma ContainsIsSubstring(s: string, k: string)
    ensures Contains(s, k) <==> IsSubstring(k, s)
  {
  }

  /** String.endsWith. */
  predicate EndsWith(s: string, k: string) {
    |k| <= |s| && s[|s| - |k|..] == k
  }

  // ---------------------------------------------------------------------------
  // String.split(regex) with limit 0, for a pattern of fixed positive width
  // ---------------------------------------------------------------------------

  ghost predicate NoMatchIn(t: string, p: seq<PatChar>) {
    forall j: nat :: !MatchesAt(t, j, p)
  }

  /** The pieces between successive leftmost matches, from `start` on. */
  function PiecesFrom(s: string, p: seq<PatChar>, start: nat): (r: seq<string>)
    requires |p| > 0 && start <= |s|
    ensures |r| >= 1
    ensures forall k :: 0 <= k < |r| ==> NoMatchIn(r[k], p) && IsSubstring(r[k], s)
    decreases |s| - start
  {
    match FindFrom(s, p, start)
    case None =>
      PieceHasNoMatch(s, p, start, |s|);
      SubstringOfSlice(s, start, |s|);
      assert s[start..] == s[start..|s|];
      [s[start..]]
    case Some(i) =>
      PieceHasNoMatch(s, p, start, i);
      SubstringOfSlice(s, start, i);
      [s[start..i]] + PiecesFrom(s, p, i + |p|)
  }

  lemma PieceHasNoMatch(s: string, p: seq<PatChar>, a: nat, b: nat)
    requires |p| > 0 && a <= b <= |s|
    requires forall i: nat :: a <= i < b ==> !MatchesAt(s, i, p)
    ensures NoMatchIn(s[a..b], p)
  {
    forall j: nat ensures !MatchesAt(s[a..b], j, p) {
      MatchInSlice(s, a, b, j, p);
    }
  }

  /** Removes the empty strings at the end of `xs`. */
  function DropTrailingEmpty(xs: seq<string>): (r: seq<string>)
    ensures |r| <= |xs| && r == xs[..|r|]
    ensures forall k :: |r| <= k < |xs| ==> xs[k] == ""
    ensures |r| > 0 ==> r[|r| - 1] != ""
  {
    if |xs| == 0 || xs[|xs| - 1] != "" then xs else DropTrailingEmpty(xs[..|xs| - 1])
  }

  /** What `split` returns: the whole text without a match, the pieces less the trailing empty ones otherwise. */
  lemma SplitIsPieces(s: string, p: seq<PatChar>)
    requires |p| > 0
    ensures FindFrom(s, p, 0).None? ==> Split(s, p) == [s]
    ensures FindFrom(s, p, 0).Some? ==> Split(s, p) == DropTrailingEmpty(PiecesFrom(s, p, 0))
  {
  }

  /**
   * String.split(regex): the whole string when the pattern never matches,
   * otherwise the pieces around the matches without the trailing empty ones.
   */
  function Split(s: string, p: seq<PatChar>): (r: seq<string>)
    requires |p| > 0
    ensures forall k :: 0 <= k < |r| ==> NoMatchIn(r[k], p) && IsSubstring(r[k], s)
    ensures FindFrom(s, p, 0).None? ==> r == [s]
    ensures FindFrom(s, p, 0).Some? && FindFrom(s, p, 0).value > 0 ==>
              |r| > 0 && r[0] == s[..FindFrom(s, p, 0).value]
  {
    if FindFrom(s, p, 0).None? then
      PieceHasNoMatch(s, p, 0, |s|);
      assert s[0..|s|] == s;
      SubstringOfSlice(s, 0, |s|);
      [s]
    else
      var pieces := PiecesFrom(s, p, 0);
      var i := FindFrom(s, p, 0).value;
      PiecesFromAt(s, p, 0, i, i + |p|);
      var r := DropTrailingEmpty(pieces);
      assert forall k :: 0 <= k < |r| ==> r[k] == pieces[k];
      assert i > 0 ==> pieces[0] != "";
      r
  }

  lemma NoMatchOfChar(t: string, c: char)
    requires NoMatchIn(t, [Lit(c)])
    ensures c !in t
  {
    if c in t {
      var i :| 0 <= i < |t| && t[i] == c;
      assert MatchesAt(t, i, [Lit(c)]);
    }
  }

  /**
   * The first piece of a split on one char is everything before the first
   * occurrence of that char, provided that is not empty.
   */
  lemma {:induction false} SplitOnCharFirst(s: string, c: char, head: string)
    requires c !in head && head != ""
    requires s == head || (|s| > |head| && s[..|head|] == head && s[|head|] == c)
    ensures |Split(s, [Lit(c)])| > 0 && Split(s, [Lit(c)])[0] == head
  {
    var p := [Lit(c)];
    forall j: nat | j < |head| ensures !MatchesAt(s, j, p) {
      assert s[j] == head[j] && head[j] != c;
      assert !CharMatches(p[0], s[j]);
    }
    if s == head {
      assert forall j: nat :: !MatchesAt(s, j, p);
    } else {
      assert MatchesAt(s, |head|, p);
      FindFromIs(s, p, 0, |head|);
      var pieces := PiecesFrom(s, p, 0);
      assert pieces[0] == s[0..|head|] == head;
      var r := DropTrailingEmpty(pieces);
      assert |r| > 0;
    }
  }

  /** Matching is unaffected by text put in front, up to the shift. */
  lemma MatchesAtShift(pre: string, t: string, i: nat, p: seq<PatChar>)
    ensures MatchesAt(pre + t, |pre| + i, p) <==> MatchesAt(t, i, p)
  {
    if i + |p| <= |t| {
      forall k | 0 <= k < |p| ensures CharMatches(p[k], (pre + t)[|pre| + i + k]) <==> CharMatches(p[k], t[i + k]) {
        assert (pre + t)[|pre| + i + k] == t[i + k];
      }
    }
  }

  lemma {:induction false} FindFromShift(pre: string, t: string, p: seq<PatChar>, from: nat)
    requires from <= |t|
    ensures FindFrom(pre + t, p, |pre| + from)
            == if FindFrom(t, p, from).Some? then Some(|pre| + FindFrom(t, p, from).value) else None
    decreases |t| - from
  {
    MatchesAtShift(pre, t, from, p);
    if from + |p| <= |t| && !MatchesAt(t, from, p) {
      FindFromShift(pre, t, p, from + 1);
    }
  }

  /** A match of `t` found from `from` is found `|pre|` further on in `pre + t`. */
  lemma FindFromShiftAt(pre: string, t: string, p: seq<PatChar>, from: nat, i: nat)
    requires from <= |t| && FindFrom(t, p, from) == Some(i)
    ensures FindFrom(pre + t, p, |pre| + from) == Some(|pre| + i)
  {
    FindFromShift(pre, t, p, from);
  }

  /** No match of `t` from `from` means none in `pre + t` past `pre` either. */
  lemma FindFromShiftNone(pre: string, t: string, p: seq<PatChar>, from: nat)
    requires from <= |t| && FindFrom(t, p, from).None?
    ensures FindFrom(pre + t, p, |pre| + from).None?
  {
    FindFromShift(pre, t, p, from);
  }

  /** One step of the piece loop: the text up to the next match, then the pieces after it. */
  lemma PiecesFromStep(s: string, p: seq<PatChar>, start: nat)
    requires |p| > 0 && start <= |s|
    ensures FindFrom(s, p, start).None? ==> PiecesFrom(s, p, start) == [s[start..]]
    ensures FindFrom(s, p, start).Some? ==>
              PiecesFrom(s, p, start) == [s[start..FindFrom(s, p, start).value]] + PiecesFrom(s, p, FindFrom(s, p, start).value + |p|)
  {
  }

  /** The same step, when the next match is known to start at `i`. */
  lemma PiecesFromAt(s: string, p: seq<PatChar>, start: nat, i: nat, next: nat)
    requires |p| > 0 && start <= |s| && FindFrom(s, p, start) == Some(i) && next == i + |p|
    ensures start <= i && next <= |s|
    ensures PiecesFrom(s, p, start) == [s[start..i]] + PiecesFrom(s, p, next)
  {
  }

  /** The pieces of `pre + t` after `pre` are the pieces of `t`. */
  lemma {:induction false} PiecesFromShift(pre: string, t: string, p: seq<PatChar>, start: nat)
    requires |p| > 0 && start <= |t|
    ensures PiecesFrom(pre + t, p, |pre| + start) == PiecesFrom(t, p, start)
    decreases |t| - start, 1
  {
    match FindFrom(t, p, start)
    case None => PiecesFromShiftLast(pre, t, p, start);
    case Some(i) => PiecesFromShiftAt(pre, t, p, start, i);
  }

  /** With no further match, both sides are the single remaining piece. */
  lemma PiecesFromShiftLast(pre: string, t: string, p: seq<PatChar>, start: nat)
    requires |p| > 0 && start <= |t| && FindFrom(t, p, start).None?
    ensures PiecesFrom(pre + t, p, |pre| + start) == PiecesFrom(t, p, start)
  {
    var s := pre + t;
    FindFromShiftNone(pre, t, p, start);
    PiecesFromStep(s, p, |pre| + start);
    PiecesFromStep(t, p, start);
    assert s[|pre| + start..] == t[start..];
  }

  /** With the next match at `i`, both sides take the same piece and go on after the match. */
  lemma {:induction false} PiecesFromShiftAt(pre: string, t: string, p: seq<PatChar>, start: nat, i: nat)
    requires |p| > 0 && start <= |t| && FindFrom(t, p, start) == Some(i)
    ensures PiecesFrom(pre + t, p, |pre| + start) == PiecesFrom(t, p, start)
    decreases |t| - start, 0
  {
    var s := pre + t;
    var k := i + |p|;
    FindFromShiftAt(pre, t, p, start, i);
    PiecesFromAt(t, p, start, i, k);
    PiecesFromAt(s, p, |pre| + start, |pre| + i, |pre| + k);
    PiecesFromShift(pre, t, p, k);
    SliceAfterPrefix(pre, t, start, i);
    ConsCongruence(PiecesFrom(s, p, |pre| + start), s[|pre| + start..|pre| + i], PiecesFrom(s, p, |pre| + k),
                   PiecesFrom(t, p, start), t[start..i], PiecesFrom(t, p, k));
  }

  /** Slicing `pre + t` past `pre` slices `t`. */
  lemma SliceAfterPrefix(pre: string, t: string, a: nat, b: nat)
    requires a <= b <= |t|
    ensures (pre + t)[|pre| + a..|pre| + b] == t[a..b]
  {
  }

  /** Two lists built from equal heads and equal tails are equal. */
  lemma ConsCongruence(xs: seq<string>, x: string, r: seq<string>, ys: seq<string>, y: string, q: seq<string>)
    requires xs == [x] + r && ys == [y] + q && x == y && r == q
    ensures xs == ys
  {
  }

  // ---------------------------------------------------------------------------
  // replaceAll("\\s+", " ") followed by trim
  // ---------------------------------------------------------------------------

  /** `\s` of java.util.regex: [ \t\n\x0B\f\r]. */
  predicate IsRegexSpace(c: char) {
    c == ' ' || c == '\t' || c == '\n' || c == '\U{B}' || c == '\U{C}' || c == '\r'
  }

  /** The chars above U+0020, in order: what whitespace rewriting must keep. */
  function Visible(s: string): (r: string)
    ensures forall i :: 0 <= i < |r| ==> !IsBlankChar(r[i])
  {
    if |s| == 0 then "" else (if IsBlankChar(s[0]) then "" else [s[0]]) + Visible(s[1..])
  }

  lemma {:induction false} VisibleAppend(a: string, b: string)
    ensures Visible(a + b) == Visible(a) + Visible(b)
    decreases |a|
  {
    if |a| == 0 {
      assert a + b == b;
    } else {
      assert (a + b)[1..] == a[1..] + b;
      VisibleAppend(a[1..], b);
    }
  }

  lemma {:induction false} VisibleOfBlank(s: string)
    requires AllBlank(s)
    ensures Visible(s) == ""
    decreases |s|
  {
    if |s| > 0 { VisibleOfBlank(s[1..]); }
  }

  /** End of the run of `\s` chars starting at `i`. */
  function SpaceRunEnd(s: string, i: nat): (j: nat)
    requires i <= |s|
    ensures i <= j <= |s|
    ensures forall k :: i <= k < j ==> IsRegexSpace(s[k])
    ensures j < |s| ==> !IsRegexSpace(s[j])
    decreases |s| - i
  {
    if i < |s| && IsRegexSpace(s[i]) then SpaceRunEnd(s, i + 1) else i
  }

  /** replaceAll("\\s+", " "): every maximal run of `\s` becomes one space. */
  function CollapseSpaceRuns(s: string): (r: string)
    ensures forall i :: 0 <= i < |r| && IsRegexSpace(r[i]) ==> r[i] == ' '
    ensures forall i :: 0 <= i < |r| - 1 ==> !(r[i] == ' ' && r[i + 1] == ' ')
    ensures |r| > 0 && |s| > 0 ==> (r[0] == ' ' <==> IsRegexSpace(s[0]))
    ensures |r| == 0 <==> |s| == 0
    ensures Visible(r) == Visible(s)
    decreases |s|
  {
    if |s| == 0 then ""
    else if IsRegexSpace(s[0]) then
      var j := SpaceRunEnd(s, 0);
      var rest := CollapseSpaceRuns(s[j..]);
      assert s == s[..j] + s[j..];
      VisibleAppend(s[..j], s[j..]);
      VisibleOfBlank(s[..j]);
      VisibleAppend(" ", rest);
      " " + rest
    else
      var rest := CollapseSpaceRuns(s[1..]);
      VisibleAppend([s[0]], rest);
      [s[0]] + rest
  }

  lemma {:induction false} VisibleOfSlice(s: string, a: nat, e: nat)
    requires a <= e <= |s|
    requires AllBlank(s[..a]) && AllBlank(s[e..])
    ensures Visible(s[a..e]) == Visible(s)
  {
    assert s == s[..a] + s[a..e] + s[e..];
    VisibleAppend(s[..a] + s[a..e], s[e..]);
    VisibleAppend(s[..a], s[a..e]);
    VisibleOfBlank(s[..a]);
    VisibleOfBlank(s[e..]);
  }

  lemma TrimKeepsVisible(s: string)
    ensures Visible(Trim(s)) == Visible(s)
  {
    var a := FirstNonBlank(s, 0);
    var e := EndOfNonBlank(s, a, |s|);
    assert Trim(s) == s[a..e];
    VisibleOfSlice(s, a, e);
  }

  /**
   * `replaceAll("\\s+", " ").trim()`: a single line, single-spaced, with no
   * blank at either end, and with every char above U+0020 kept in order.
   */
  function NormalizeSpace(s: string): (r: string)
    ensures forall i :: 0 <= i < |r| && IsRegexSpace(r[i]) ==> r[i] == ' '
    ensures forall i :: 0 <= i < |r| - 1 ==> !(r[i] == ' ' && r[i + 1] == ' ')
    ensures IsTrimmed(r)
    ensures Visible(r) == Visible(s)
  {
    var t := CollapseSpaceRuns(s);
    var a := FirstNonBlank(t, 0);
    var r := Trim(t);
    assert forall i :: 0 <= i < |r| ==> r[i] == t[a + i];
    TrimKeepsVisible(t);
    r
  }

  /** A run of `\s` chars followed by a char outside `\s` ends where that char starts. */
  lemma {:induction false} SpaceRunEndOfRun(w: string, y: string, i: nat)
    requires i <= |w| && (forall k :: 0 <= k < |w| ==> IsRegexSpace(w[k]))
    requires |y| > 0 && !IsRegexSpace(y[0])
    ensures SpaceRunEnd(w + y, i) == |w|
    decreases |w| - i
  {
    if i < |w| {
      assert (w + y)[i] == w[i];
      SpaceRunEndOfRun(w, y, i + 1);
    } else {
      assert (w + y)[i] == y[0];
    }
  }

  /** A run of `\s` chars starting inside `a`, which ends outside `\s`, ends inside `a`. */
  lemma {:induction false} SpaceRunEndInside(a: string, b: string, i: nat)
    requires i < |a| && !IsRegexSpace(a[|a| - 1])
    ensures SpaceRunEnd(a + b, i) == SpaceRunEnd(a, i) < |a|
    decreases |a| - i
  {
    assert (a + b)[i] == a[i];
    if IsRegexSpace(a[i]) {
      SpaceRunEndInside(a, b, i + 1);
    }
  }

  /** The collapse of a text opening with a `\s` run: one space, then the collapse of the rest. */
  lemma CollapseAtSpace(s: string)
    requires |s| > 0 && IsRegexSpace(s[0])
    ensures CollapseSpaceRuns(s) == " " + CollapseSpaceRuns(s[SpaceRunEnd(s, 0)..])
  {
  }

  /** The collapse of a text opening with a char outside `\s`: that char, then the collapse of the rest. */
  lemma CollapseAtChar(s: string)
    requires |s| > 0 && !IsRegexSpace(s[0])
    ensures CollapseSpaceRuns(s) == [s[0]] + CollapseSpaceRuns(s[1..])
  {
  }

  /** A char outside `\s` at either end of the text stays at that end of the collapse. */
  lemma {:induction false} CollapseKeepsEnds(s: string)
    requires |s| > 0
    ensures !IsRegexSpace(s[0]) ==> CollapseSpaceRuns(s)[0] == s[0]
    ensures !IsRegexSpace(s[|s| - 1]) ==> CollapseSpaceRuns(s)[|CollapseSpaceRuns(s)| - 1] == s[|s| - 1]
    decreases |s|
  {
    if IsRegexSpace(s[0]) {
      CollapseAtSpace(s);
      var j := SpaceRunEnd(s, 0);
      if !IsRegexSpace(s[|s| - 1]) {
        assert j < |s|;
        assert s[j..][|s[j..]| - 1] == s[|s| - 1];
        CollapseKeepsEnds(s[j..]);
      }
    } else {
      CollapseAtChar(s);
      if |s| > 1 {
        assert s[1..][|s[1..]| - 1] == s[|s| - 1];
        CollapseKeepsEnds(s[1..]);
      }
    }
  }

  lemma AppendAssociates(x: string, y: string, z: string)
    ensures x + (y + z) == (x + y) + z
  {
  }

  /** Runs cannot cross the boundary after a char outside `\s`, so the collapse splits there. */
  lemma {:induction false} CollapseAppend(a: string, b: string)
    requires |a| > 0 && !IsRegexSpace(a[|a| - 1])
    ensures CollapseSpaceRuns(a + b) == CollapseSpaceRuns(a) + CollapseSpaceRuns(b)
    decreases |a|
  {
    if IsRegexSpace(a[0]) {
      var t := CollapseSplitsAtSpace(a, b);
      CollapseAppend(t, b);
      AppendAssociates(" ", CollapseSpaceRuns(t), CollapseSpaceRuns(b));
    } else {
      var t := a[1..];
      CollapseSplitsAtChar(a, b);
      if |a| == 1 {
        assert t == "" && t + b == b;
      } else {
        assert t[|t| - 1] == a[|a| - 1];
        CollapseAppend(t, b);
        AppendAssociates([a[0]], CollapseSpaceRuns(t), CollapseSpaceRuns(b));
      }
    }
  }

  /** A leading `\s` run of `a` that stops inside `a` is collapsed the same way in `a + b`. */
  lemma CollapseSplitsAtSpace(a: string, b: string) returns (t: string)
    requires |a| > 0 && IsRegexSpace(a[0]) && !IsRegexSpace(a[|a| - 1])
    ensures 0 < |t| < |a| && t[|t| - 1] == a[|a| - 1]
    ensures CollapseSpaceRuns(a + b) == " " + CollapseSpaceRuns(t + b)
    ensures CollapseSpaceRuns(a) == " " + CollapseSpaceRuns(t)
  {
    var s := a + b;
    var j := SpaceRunEnd(a, 0);
    SpaceRunEndInside(a, b, 0);
    t := a[j..];
    assert s[0] == a[0] && s[j..] == t + b;
    CollapseAtSpace(s);
    CollapseAtSpace(a);
  }

  /** A leading char outside `\s` is kept in front of the collapse of the rest, in `a` and in `a + b`. */
  lemma CollapseSplitsAtChar(a: string, b: string)
    requires |a| > 0 && !IsRegexSpace(a[0])
    ensures CollapseSpaceRuns(a + b) == [a[0]] + CollapseSpaceRuns(a[1..] + b)
    ensures CollapseSpaceRuns(a) == [a[0]] + CollapseSpaceRuns(a[1..])
  {
    var s := a + b;
    assert s[0] == a[0] && s[1..] == a[1..] + b;
    CollapseAtChar(s);
    CollapseAtChar(a);
  }

  /** Every string is its trimmed text padded with blanks. */
  lemma TrimDecompose(s: string) returns (left: string, right: string)
    ensures AllBlank(left) && AllBlank(right) && s == left + Trim(s) + right
    ensures |s| > 0 && !IsBlankChar(s[0]) ==> left == ""
    ensures |s| > 0 && !IsBlankChar(s[|s| - 1]) ==> right == ""
  {
    var a := FirstNonBlank(s, 0);
    var e := EndOfNonBlank(s, a, |s|);
    left, right := s[..a], s[e..];
    assert s == s[..a] + s[a..e] + s[e..];
    if |s| > 0 && !IsBlankChar(s[|s| - 1]) {
      assert a < |s|;
    }
  }

  /** Trimming around one space between two visible chars trims each side on its own. */
  lemma TrimAroundSpace(x: string, y: string)
    requires |x| > 0 && !IsBlankChar(x[|x| - 1])
    requires |y| > 0 && !IsBlankChar(y[0])
    ensures Trim(x + " " + y) == Trim(x) + " " + Trim(y)
  {
    var lx, rx := TrimDecompose(x);
    var ly, ry := TrimDecompose(y);
    var tx, ty := Trim(x), Trim(y);
    var core := tx + " " + ty;
    assert x == lx + tx && y == ty + ry;
    RegroupAroundSpace(lx, tx, ty, ry);
    assert tx != "" && ty != "";
    TrimmedAroundSpace(tx, ty);
    TrimPadded(lx, core, ry);
  }

  /** Moving the space between two padded texts inside the padding. */
  lemma RegroupAroundSpace(lx: string, tx: string, ty: string, ry: string)
    ensures (lx + tx) + " " + (ty + ry) == lx + (tx + " " + ty) + ry
  {
  }

  /** Two non-empty trimmed texts joined by a space are still trimmed. */
  lemma TrimmedAroundSpace(a: string, b: string)
    requires a != "" && b != "" && IsTrimmed(a) && IsTrimmed(b)
    ensures IsTrimmed(a + " " + b)
  {
    var c := a + " " + b;
    assert c[0] == a[0];
    assert c[|c| - 1] == b[|b| - 1];
  }

  /** The collapse turns a `\s` run after a char outside `\s` and before another into one space. */
  lemma CollapseAtRun(x: string, w: string, y: string)
    requires |x| > 0 && !IsRegexSpace(x[|x| - 1])
    requires |w| > 0 && forall k :: 0 <= k < |w| ==> IsRegexSpace(w[k])
    requires |y| > 0 && !IsRegexSpace(y[0])
    ensures CollapseSpaceRuns(x + w + y) == CollapseSpaceRuns(x) + " " + CollapseSpaceRuns(y)
  {
    CollapseRunBefore(w, y);
    assert x + w + y == x + (w + y);
    CollapseAppend(x, w + y);
    AppendAssociates(CollapseSpaceRuns(x), " ", CollapseSpaceRuns(y));
  }

  /** A leading `\s` run that stops before a char outside `\s` collapses to one space. */
  lemma CollapseRunBefore(w: string, y: string)
    requires |w| > 0 && forall k :: 0 <= k < |w| ==> IsRegexSpace(w[k])
    requires |y| > 0 && !IsRegexSpace(y[0])
    ensures CollapseSpaceRuns(w + y) == " " + CollapseSpaceRuns(y)
  {
    var wy := w + y;
    SpaceRunEndOfRun(w, y, 0);
    assert wy[0] == w[0];
    assert wy[|w|..] == y;
  }

  /**
   * A run of `\s` chars between two visible chars becomes exactly one space,
   * and the text on either side is rewritten as if on its own.
   */
  lemma NormalizeSpaceAtRun(x: string, w: string, y: string)
    requires |x| > 0 && !IsBlankChar(x[|x| - 1])
    requires |w| > 0 && forall k :: 0 <= k < |w| ==> IsRegexSpace(w[k])
    requires |y| > 0 && !IsBlankChar(y[0])
    ensures NormalizeSpace(x + w + y) == NormalizeSpace(x) + " " + NormalizeSpace(y)
  {
    var cx, cy := CollapseSpaceRuns(x), CollapseSpaceRuns(y);
    assert !IsRegexSpace(x[|x| - 1]) && !IsRegexSpace(y[0]);
    CollapseAtRun(x, w, y);
    CollapseKeepsEnds(x);
    CollapseKeepsEnds(y);
    assert cx[|cx| - 1] == x[|x| - 1] && cy[0] == y[0];
    TrimAroundSpace(cx, cy);
    assert NormalizeSpace(x) == Trim(cx) && NormalizeSpace(y) == Trim(cy);
  }

  // ---------------------------------------------------------------------------
  // String.join and String.valueOf(long)
  // ---------------------------------------------------------------------------

  /** String.join(sep, xs): every element appears in the joined string. */
  function Join(sep: string, xs: seq<string>): (r: string)
    ensures |xs| == 0 ==> r == ""
    ensures forall i :: 0 <= i < |xs| ==> IsSubstring(xs[i], r)
    decreases |xs|
  {
    if |xs| == 0 then ""
    else if |xs| == 1 then
      assert SubstringAt(xs[0], xs[0], 0);
      xs[0]
    else
      var rest := Join(sep, xs[1..]);
      var r := xs[0] + sep + rest;
      assert SubstringAt(xs[0], r, 0) by { assert r[0..|xs[0]|] == xs[0]; }
      forall i | 1 <= i < |xs| ensures IsSubstring(xs[i], r) {
        assert xs[i] == xs[1..][i - 1];
        assert SubstringAt(rest, r, |xs[0]| + |sep|) by {
          assert r[|xs[0]| + |sep|..] == rest;
        }
        SubstringTransitive(xs[i], rest, r);
      }
      r
  }

  /** The separator the exports put between the elements of a set. */
  const ListSeparator: string := "; "

  /**
   * No match of "; " starts inside `x` when `x` leads `s` and is followed by
   * nothing or by ';'.
   */
  lemma NoSeparatorInside(x: string, s: string)
    requires !Contains(x, ListSeparator)
    requires |x| <= |s| && s[..|x|] == x && (|s| > |x| ==> s[|x|] == ';')
    ensures forall j: nat :: j < |x| ==> !MatchesAt(s, j, Literal(ListSeparator))
  {
    var p := Literal(ListSeparator);
    assert p[0] == Lit(';') && p[1] == Lit(' ');
    forall j: nat | j < |x| ensures !MatchesAt(s, j, p) {
      if j + 1 < |x| {
        assert !SubstringAt(ListSeparator, x, j);
        assert x[j] != ';' || x[j + 1] != ' ';
        assert s[j] == x[j] && s[j + 1] == x[j + 1];
      } else if j + 1 < |s| {
        assert s[j + 1] == ';';
      }
    }
  }

  lemma {:induction false} JoinPieces(xs: seq<string>)
    requires |xs| > 0
    requires forall i :: 0 <= i < |xs| ==> !Contains(xs[i], ListSeparator)
    ensures PiecesFrom(Join(ListSeparator, xs), Literal(ListSeparator), 0) == xs
    ensures FindFrom(Join(ListSeparator, xs), Literal(ListSeparator), 0).None? <==> |xs| == 1
    decreases |xs|
  {
    var p := Literal(ListSeparator);
    var s := Join(ListSeparator, xs);
    var x := xs[0];
    if |xs| == 1 {
      NoSeparatorInside(x, s);
      assert forall j: nat :: !MatchesAt(s, j, p);
      assert s[0..] == x;
    } else {
      var rest := Join(ListSeparator, xs[1..]);
      assert s == (x + ListSeparator) + rest;
      assert s[..|x|] == x;
      NoSeparatorInside(x, s);
      assert s[|x|..|x| + 2] == ListSeparator;
      LiteralMatchesAt(s, |x|, ListSeparator);
      FindFromIs(s, p, 0, |x|);
      assert s[0..|x|] == x;
      JoinPieces(xs[1..]);
      PiecesFromShift(x + ListSeparator, rest, p, 0);
      assert PiecesFrom(s, p, 0) == [x] + xs[1..];
    }
  }

  /**
   * The "; "-join reads back: splitting it around "; " gives every element
   * again, in order, as long as none is empty or holds "; " itself.
   */
  lemma JoinSplitRoundTrip(xs: seq<string>)
    requires |xs| > 0
    requires forall i :: 0 <= i < |xs| ==> xs[i] != "" && !Contains(xs[i], ListSeparator)
    ensures Split(Join(ListSeparator, xs), Literal(ListSeparator)) == xs
  {
    var s := Join(ListSeparator, xs);
    var p := Literal(ListSeparator);
    JoinPieces(xs);
    SplitIsPieces(s, p);
    if |xs| == 1 {
      PiecesFromStep(s, p, 0);
      assert s[0..] == s;
    } else {
      assert xs[|xs| - 1] != "";
    }
  }

  predicate IsDigit(c: char) { '0' <= c <= '9' }

  predicate AllDigits(s: string) {
    forall i :: 0 <= i < |s| ==> IsDigit(s[i])
  }

  function DigitChar(d: nat): (c: char)
    requires d < 10
    ensures IsDigit(c)
  {
    ('0' as int + d) as char
  }

  /** Long.toString for a non-negative value. */
  function NatToDecimal(n: nat): (r: string)
    ensures |r| > 0 && AllDigits(r)
    decreases n
  {
    if n < 10 then [DigitChar(n)] else NatToDecimal(n / 10) + [DigitChar(n % 10)]
  }

  /** Long.toString for any value. */
  function IntToDecimal(n: int): string {
    if n < 0 then "-" + NatToDecimal(-n) else NatToDecimal(n)
  }

  /** Long.parseLong for a string of digits. */
  function DecimalValue(s: string): nat
    requires AllDigits(s)
  {
    if |s| == 0 then 0 else DecimalValue(s[..|s| - 1]) * 10 + (s[|s| - 1] as int - '0' as int)
  }

  /** Reading back the decimal text of a number gives the number. */
  lemma {:induction false} DecimalRoundTrip(n: nat)
    ensures DecimalValue(NatToDecimal(n)) == n
    decreases n
  {
    if n >= 10 {
      var s := NatToDecimal(n);
      assert s[..|s| - 1] == NatToDecimal(n / 10);
      DecimalRoundTrip(n / 10);
    }
  }

  /** Long.parseLong for the text `String.valueOf(long)` writes. */
  function SignedDecimalValue(s: string): int {
    if |s| > 0 && s[0] == '-' && AllDigits(s[1..]) then 0 - DecimalValue(s[1..]) as int
    else if AllDigits(s) then DecimalValue(s)
    else 0
  }

  /** Reading back the decimal text of any integer gives the integer. */
  lemma IntDecimalRoundTrip(n: int)
    ensures SignedDecimalValue(IntToDecimal(n)) == n
  {
    if n < 0 {
      DecimalRoundTrip(-n);
      assert IntToDecimal(n)[1..] == NatToDecimal(-n);
    } else {
      DecimalRoundTrip(n);
    }
  }

  // ---------------------------------------------------------------------------
  // Sets of strings as duplicate-free sequences
  // ---------------------------------------------------------------------------

  predicate NoDuplicates<T(==)>(xs: seq<T>) {
    forall i, j :: 0 <= i < j < |xs| ==> xs[i] != xs[j]
  }

  /** Adds the elements of `xs` to an empty set, in order. */
  function Dedup(xs: seq<string>): (r: seq<string>)
    ensures NoDuplicates(r)
    ensures forall x :: x in r <==> x in xs
    ensures |r| <= |xs|
  {
    if |xs| == 0 then []
    else
      var r := Dedup(xs[..|xs| - 1]);
      var x := xs[|xs| - 1];
      assert xs == xs[..|xs| - 1] + [x];
      if x in r then r else r + [x]
  }
}

=== FILE: webcsv.dfy ===
/**
 * The CSV export of the web path (WebScrapingService.convertToCsv): which
 * columns a selection produces, in which order, and what each cell holds,
 * before opencsv quotes and writes the cells.
 */
module WebCsv {
  import opened Wrappers
  import opened Text
  import opened Records
  import opened Csv
  import opened WebScraping

  /** The optional columns of the web export, in their fixed order. */
  datatype WebColumn = Title | Description | Emails | PhoneNumbers | SocialLinks | Content | Domain | ErrorMessage

  const WebColumns: seq<WebColumn> := [Title, Description, Emails, PhoneNumbers, SocialLinks, Content, Domain, ErrorMessage]

  /** The name a request uses to select the column. */
  function WebColumnName(c: WebColumn): string {
    match c
    case Title => "title"
    case Description => "description"
    case Emails => "emails"
    case PhoneNumbers => "phoneNumbers"
    case SocialLinks => "socialLinks"
    case Content => "content"
    case Domain => "domain"
    case ErrorMessage => "errorMessage"
  }

  /** The header cell of the column. */
  function WebColumnLabel(c: WebColumn): string {
    match c
    case Title => "Title"
    case Description => "Description"
    case Emails => "Emails"
    case PhoneNumbers => "Phone Numbers"
    case SocialLinks => "Social Links"
    case Content => "Content"
    case Domain => "Domain"
    case ErrorMessage => "Error Message"
  }

  const WebFixedHeader: seq<string> := ["URL", "Status", "Response Time (ms)"]

  /** A null or empty selection exports the seven data fields, without the error message. */
  function CsvFields(fields: Option<set<string>>): (f: set<string>)
    ensures SelectsAll(fields) ==> f == WebFieldNames
    ensures !SelectsAll(fields) ==> f == fields.value
  {
    if SelectsAll(fields) then WebFieldNames else fields.value
  }

  lemma EveryWebColumnListed(c: WebColumn)
    ensures c in WebColumns
  {
    match c
    case Title => assert WebColumns[0] == c;
    case Description => assert WebColumns[1] == c;
    case Emails => assert WebColumns[2] == c;
    case PhoneNumbers => assert WebColumns[3] == c;
    case SocialLinks => assert WebColumns[4] == c;
    case Content => assert WebColumns[5] == c;
    case Domain => assert WebColumns[6] == c;
    case ErrorMessage => assert WebColumns[7] == c;
  }

  function WebCsvColumns(fields: Option<set<string>>): (cols: seq<WebColumn>)
    ensures forall c :: c in cols <==> WebColumnName(c) in CsvFields(fields)
    ensures IsSubsequence(cols, WebColumns)
  {
    var f := CsvFields(fields);
    var cols := SelectColumns(WebColumns, WebColumnName, f);
    assert forall c :: c in cols <==> WebColumnName(c) in f by {
      forall c ensures c in cols <==> WebColumnName(c) in f {
        EveryWebColumnListed(c);
      }
    }
    cols
  }

  /** One cell: null becomes "", a set is joined with "; ", content whitespace collapses. */
  function WebCell(d: ScrapedData, c: WebColumn): string {
    match c
    case Title => d.title.GetOr("")
    case Description => d.description.GetOr("")
    case Emails => if d.emails.Some? then Join("; ", d.emails.value) else ""
    case PhoneNumbers => if d.phoneNumbers.Some? then Join("; ", d.phoneNumbers.value) else ""
    case SocialLinks => if d.socialLinks.Some? then Join("; ", d.socialLinks.value) else ""
    case Content => if d.content.Some? then NormalizeSpace(d.content.value) else ""
    case Domain => d.domain.GetOr("")
    case ErrorMessage => d.errorMessage.GetOr("")
  }

  function Cells(d: ScrapedData, cols: seq<WebColumn>): (cells: seq<string>)
    ensures |cells| == |cols| && forall k :: 0 <= k < |cols| ==> cells[k] == WebCell(d, cols[k])
  {
    seq(|cols|, k requires 0 <= k < |cols| => WebCell(d, cols[k]))
  }

  /** One row: URL, status and time, then one cell per chosen column. */
  function WebRow(d: ScrapedData, cols: seq<WebColumn>): (row: seq<string>)
    ensures |row| == 3 + |cols|
    ensures row[0] == d.url.GetOr("") && row[1] == d.status.GetOr("") && row[2] == IntToDecimal(d.responseTime)
    ensures row[3..] == Cells(d, cols)
  {
    [d.url.GetOr(""), d.status.GetOr(""), IntToDecimal(d.responseTime)] + Cells(d, cols)
  }

  function Labels(cols: seq<WebColumn>): (ls: seq<string>)
    ensures |ls| == |cols| && forall i :: 0 <= i < |cols| ==> ls[i] == WebColumnLabel(cols[i])
  {
    seq(|cols|, i requires 0 <= i < |cols| => WebColumnLabel(cols[i]))
  }

  /** The table for a fixed choice of columns. */
  function WebTable(results: seq<ScrapedData>, cols: seq<WebColumn>): (t: Table)
    ensures Rectangular(t) && |t.rows| == |results|
    ensures t.header == WebFixedHeader + Labels(cols)
    ensures forall i :: 0 <= i < |results| ==> t.rows[i] == WebRow(results[i], cols)
  {
    Table(WebFixedHeader + Labels(cols), seq(|results|, i requires 0 <= i < |results| => WebRow(results[i], cols)))
  }

  /** convertToCsv, before opencsv quotes the cells. */
  function ConvertToCsv(results: seq<ScrapedData>, fields: Option<set<string>>): (t: Table)
    ensures Rectangular(t)
    ensures |t.rows| == |results|
    ensures |t.header| >= 3 && t.header[..3] == WebFixedHeader
  {
    var t := WebTable(results, WebCsvColumns(fields));
    assert t.header[..3] == WebFixedHeader;
    t
  }

  /** The header names, after the fixed three, exactly the selected columns. */
  lemma CsvHeaderIsSelection(results: seq<ScrapedData>, fields: Option<set<string>>)
    ensures forall c :: WebColumnLabel(c) in ConvertToCsv(results, fields).header[3..] <==> WebColumnName(c) in CsvFields(fields)
  {
    var cols := WebCsvColumns(fields);
    assert ConvertToCsv(results, fields).header[3..] == Labels(cols);
    LabelsDistinguish(cols);
  }

  lemma ErrorMessageNotByDefault()
    ensures WebColumnName(ErrorMessage) !in WebFieldNames
  {
  }

  /** The default export has no error-message column. */
  lemma CsvDefaultOmitsErrorMessage(results: seq<ScrapedData>, fields: Option<set<string>>)
    requires SelectsAll(fields)
    ensures WebColumnLabel(ErrorMessage) !in ConvertToCsv(results, fields).header[3..]
  {
    var cols := WebCsvColumns(fields);
    ErrorMessageNotByDefault();
    assert ErrorMessage !in cols;
    LabelsDistinguish(cols);
    assert ConvertToCsv(results, fields).header[3..] == Labels(cols);
  }

  /** The first two cells of every row: URL and status, with null as "". */
  lemma CsvFixedCells(results: seq<ScrapedData>, fields: Option<set<string>>, i: nat)
    requires i < |results|
    ensures ConvertToCsv(results, fields).rows[i][0] == results[i].url.GetOr("")
    ensures ConvertToCsv(results, fields).rows[i][1] == results[i].status.GetOr("")
  {
    CsvRowIs(results, fields, i);
  }

  /** The third cell of every row reads back as the response time. */
  lemma CsvTimeCell(results: seq<ScrapedData>, fields: Option<set<string>>, i: nat)
    requires i < |results|
    ensures SignedDecimalValue(ConvertToCsv(results, fields).rows[i][2]) == results[i].responseTime
  {
    CsvRowIs(results, fields, i);
    IntDecimalRoundTrip(results[i].responseTime);
  }

  lemma CsvRowIs(results: seq<ScrapedData>, fields: Option<set<string>>, i: nat)
    requires i < |results|
    ensures ConvertToCsv(results, fields).rows[i] == WebRow(results[i], WebCsvColumns(fields))
  {
  }

  /** The header cell of a column appears exactly when the column was chosen. */
  lemma LabelsDistinguish(cols: seq<WebColumn>)
    ensures forall c :: WebColumnLabel(c) in Labels(cols) <==> c in cols
  {
    forall c ensures WebColumnLabel(c) in Labels(cols) ==> c in cols {
      if WebColumnLabel(c) in Labels(cols) {
        var i :| 0 <= i < |cols| && Labels(cols)[i] == WebColumnLabel(c);
        assert cols[i] == c;
      }
    }
  }

  /** The cells of a row hold every element of the exported sets, and the content collapsed. */
  lemma WebCellContents(d: ScrapedData)
    ensures d.emails.Some? ==> forall e :: e in d.emails.value ==> IsSubstring(e, WebCell(d, Emails))
    ensures d.phoneNumbers.Some? ==> forall p :: p in d.phoneNumbers.value ==> IsSubstring(p, WebCell(d, PhoneNumbers))
    ensures d.content.Some? ==>
              var cell := WebCell(d, Content);
              IsTrimmed(cell) && Visible(cell) == Visible(d.content.value)
              && forall i :: 0 <= i < |cell| - 1 ==> !(cell[i] == ' ' && cell[i + 1] == ' ')
  {
  }

  const WebColumnNames: set<string> := WebFieldNames + {"errorMessage"}

  /** Names that are not column names change nothing in a selection that names some column. */
  lemma CsvIgnoresUnknownNames(results: seq<ScrapedData>, f: set<string>)
    requires f * WebColumnNames != {}
    ensures ConvertToCsv(results, Some(f)) == ConvertToCsv(results, Some(f * WebColumnNames))
  {
    SelectionIgnoresUnknownNames(f);
  }

  /** The columns a selection picks do not depend on the names in it that are not column names. */
  lemma SelectionIgnoresUnknownNames(f: set<string>)
    requires f * WebColumnNames != {}
    ensures WebCsvColumns(Some(f)) == WebCsvColumns(Some(f * WebColumnNames))
  {
    assert forall c :: c in WebColumns ==> WebColumnName(c) in WebColumnNames;
    UnknownNamesIgnored(WebColumns, WebColumnName, f, WebColumnNames);
  }

  function FilterAll(results: seq<ScrapedData>, fields: Option<set<string>>): (rs: seq<ScrapedData>)
    ensures |rs| == |results| && forall i :: 0 <= i < |results| ==> rs[i] == FilterScrapedData(results[i], fields)
  {
    seq(|results|, i requires 0 <= i < |results| => FilterScrapedData(results[i], fields))
  }

  /** A filtered record and the full record give the same cell in every selected column. */
  lemma FilteredRowSame(d: ScrapedData, f: set<string>, cols: seq<WebColumn>)
    requires f != {} && forall c :: c in cols ==> WebColumnName(c) in f
    ensures WebRow(FilterScrapedData(d, Some(f)), cols) == WebRow(d, cols)
  {
    var fd := FilterScrapedData(d, Some(f));
    forall k | 0 <= k < |cols| ensures WebCell(fd, cols[k]) == WebCell(d, cols[k]) {
      assert cols[k] in cols;
    }
    assert Cells(fd, cols) == Cells(d, cols);
  }

  /** Exporting records already cut down to a selection gives the same table as exporting the full records. */
  lemma FilterThenExport(results: seq<ScrapedData>, f: set<string>)
    requires f != {}
    ensures ConvertToCsv(FilterAll(results, Some(f)), Some(f)) == ConvertToCsv(results, Some(f))
  {
    var cols := WebCsvColumns(Some(f));
    var filtered := FilterAll(results, Some(f));
    forall i | 0 <= i < |results| ensures WebRow(filtered[i], cols) == WebRow(results[i], cols) {
      FilteredRowSame(results[i], f, cols);
    }
    assert WebTable(filtered, cols).rows == WebTable(results, cols).rows;
  }
}

=== FILE: webscraping.dfy ===
/**
 * The web path (WebScrapingService): what is read from one fetched page, how
 * one URL is scraped with its failures kept inside the record, how a batch
 * is assembled into a response, and how a record is cut down to the
 * requested fields.
 *
 * Jsoup is replaced by a `Document` record holding what the CSS selections
 * return, and the fetch by an oracle outcome.
 */
module WebScraping {
  import opened Wrappers
  import opened Text
  import opened Records
  import opened Patterns

  // ---------------------------------------------------------------------------
  // The fetched page
  // ---------------------------------------------------------------------------

  /**
   * What the selections of the extractors return on one page.
   * - `title`: text of the first `title` element, if any.
   * - the three descriptions: the `content` attribute of the first matching
   *   `meta` element (empty when the attribute is missing), None without one.
   * - `paragraphs`: text of every `p` element, in document order.
   * - `contentCandidates`: for each content selector in its fixed order
   *   (main, article, .content, .post, .entry, .main-content, .page-content,
   *   .article-content, .post-content, .entry-content, #content, #main,
   *   #article, .container, .wrapper), the text of its first match once
   *   script, style, nav, header, footer and aside are removed.
   * - `body`: text of the body after that removal, if there is a body.
   * - `text`: `document.text()` before the removal.
   * - `hrefs`: the `href` of every `a[href]`, in document order.
   */
  datatype Document = Document(
    title: Option<string>,
    metaDescription: Option<string>,
    ogDescription: Option<string>,
    twitterDescription: Option<string>,
    paragraphs: seq<string>,
    contentCandidates: seq<Option<string>>,
    body: Option<string>,
    text: string,
    hrefs: seq<string>)

  // ---------------------------------------------------------------------------
  // Title, description, content
  // ---------------------------------------------------------------------------

  /** extractTitle: the trimmed title text, or "" without a title element. */
  function ExtractTitle(d: Document): (r: string)
    ensures IsTrimmed(r)
    ensures d.title.None? ==> r == ""
    ensures d.title.Some? ==> Visible(r) == Visible(d.title.value)
  {
    match d.title
    case None => ""
    case Some(t) => TrimKeepsVisible(t); Trim(t)
  }

  /** `t` itself when it has at most `n` characters, otherwise its first `n` followed by "...". */
  function Abbreviate(t: string, n: nat): (r: string)
    ensures |r| <= n + 3
    ensures |t| <= n ==> r == t
    ensures |t| > n ==> |r| == n + 3 && r[..n] == t[..n] && r[n..] == "..."
    ensures IsTrimmed(t) ==> IsTrimmed(r)
  {
    if |t| > n then t[..n] + "..." else t
  }

  /** A description meta tag that exists with a non-empty `content`. */
  predicate MetaWins(content: Option<string>) {
    content.Some? && content.value != ""
  }

  predicate NoMetaWins(d: Document) {
    !MetaWins(d.metaDescription) && !MetaWins(d.ogDescription) && !MetaWins(d.twitterDescription)
  }

  /** Strictly between 50 and 300 characters: long enough to describe, short enough to quote. */
  predicate IsMidLength(t: string) {
    50 < |t| < 300
  }

  /** The first paragraph whose trimmed text is of middle length, trimmed. */
  function FirstMidLength(ps: seq<string>): (r: Option<string>)
    ensures r.Some? ==> IsMidLength(r.value) && IsTrimmed(r.value)
    ensures r.None? <==> forall i :: 0 <= i < |ps| ==> !IsMidLength(Trim(ps[i]))
    decreases |ps|
  {
    if |ps| == 0 then None
    else if IsMidLength(Trim(ps[0])) then Some(Trim(ps[0]))
    else
      var r := FirstMidLength(ps[1..]);
      assert forall i :: 1 <= i < |ps| ==> ps[i] == ps[1..][i - 1];
      r
  }

  /** The middle-length paragraph picked is the earliest one. */
  lemma {:induction false} FirstMidLengthIs(ps: seq<string>, i: nat)
    requires i < |ps| && IsMidLength(Trim(ps[i]))
    requires forall j :: 0 <= j < i ==> !IsMidLength(Trim(ps[j]))
    ensures FirstMidLength(ps) == Some(Trim(ps[i]))
    decreases i
  {
    if i > 0 {
      FirstMidLengthIs(ps[1..], i - 1);
    }
  }

  /**
   * extractDescription: the first meta description (name=description, then
   * og:description, then twitter:description) with non-empty content,
   * trimmed, even when that leaves ""; else the first middle-length
   * paragraph; else the first paragraph cut to 200 characters; else "".
   */
  function ExtractDescription(d: Document): (r: string)
    ensures IsTrimmed(r)
    ensures MetaWins(d.metaDescription) ==> r == Trim(d.metaDescription.value)
    ensures !MetaWins(d.metaDescription) && MetaWins(d.ogDescription) ==> r == Trim(d.ogDescription.value)
    ensures (!MetaWins(d.metaDescription) && !MetaWins(d.ogDescription) && MetaWins(d.twitterDescription))
              ==> r == Trim(d.twitterDescription.value)
    ensures NoMetaWins(d) ==> |r| < 300
    ensures NoMetaWins(d) && |d.paragraphs| == 0 ==> r == ""
    ensures NoMetaWins(d) && FirstMidLength(d.paragraphs).None? && |d.paragraphs| > 0 ==>
              r == Abbreviate(Trim(d.paragraphs[0]), 200)
  {
    if MetaWins(d.metaDescription) then Trim(d.metaDescription.value)
    else if MetaWins(d.ogDescription) then Trim(d.ogDescription.value)
    else if MetaWins(d.twitterDescription) then Trim(d.twitterDescription.value)
    else match FirstMidLength(d.paragraphs)
      case Some(t) => t
      case None => if |d.paragraphs| > 0 then Abbreviate(Trim(d.paragraphs[0]), 200) else ""
  }

  /** Without a winning meta tag, the earliest middle-length paragraph is the description. */
  lemma DescriptionFromParagraph(d: Document, i: nat)
    requires NoMetaWins(d)
    requires i < |d.paragraphs| && IsMidLength(Trim(d.paragraphs[i]))
    requires forall j :: 0 <= j < i ==> !IsMidLength(Trim(d.paragraphs[j]))
    ensures ExtractDescription(d) == Trim(d.paragraphs[i])
  {
    FirstMidLengthIs(d.paragraphs, i);
  }

  const ContentLimit: nat := 2000

  /** A content candidate whose trimmed text is not empty. */
  predicate Filled(c: Option<string>) {
    c.Some? && Trim(c.value) != ""
  }

  /** The first filled candidate, trimmed. */
  function FirstFilled(cands: seq<Option<string>>): (r: Option<string>)
    ensures r.Some? ==> r.value != "" && IsTrimmed(r.value)
    ensures r.None? <==> forall i :: 0 <= i < |cands| ==> !Filled(cands[i])
    decreases |cands|
  {
    if |cands| == 0 then None
    else if Filled(cands[0]) then Some(Trim(cands[0].value))
    else
      var r := FirstFilled(cands[1..]);
      assert forall i :: 1 <= i < |cands| ==> cands[i] == cands[1..][i - 1];
      r
  }

  lemma {:induction false} FirstFilledIs(cands: seq<Option<string>>, i: nat)
    requires i < |cands| && Filled(cands[i])
    requires forall j :: 0 <= j < i ==> !Filled(cands[j])
    ensures FirstFilled(cands) == Some(Trim(cands[i].value))
    decreases i
  {
    if i > 0 {
      FirstFilledIs(cands[1..], i - 1);
    }
  }

  /**
   * extractContent: the first content selector whose match has non-blank
   * text, else the body text, else ""; cut to 2000 characters plus "...".
   */
  function ExtractContent(d: Document): (r: string)
    ensures IsTrimmed(r)
    ensures |r| <= ContentLimit + 3
    ensures FirstFilled(d.contentCandidates).None? && d.body.None? ==> r == ""
    ensures FirstFilled(d.contentCandidates).None? && d.body.Some? ==> r == Abbreviate(Trim(d.body.value), ContentLimit)
  {
    match FirstFilled(d.contentCandidates)
    case Some(t) => Abbreviate(t, ContentLimit)
    case None =>
      match d.body
      case Some(b) => Abbreviate(Trim(b), ContentLimit)
      case None => ""
  }

  /** The earliest filled candidate decides the content; a short one is kept whole. */
  lemma ContentFromCandidate(d: Document, i: nat)
    requires i < |d.contentCandidates| && Filled(d.contentCandidates[i])
    requires forall j :: 0 <= j < i ==> !Filled(d.contentCandidates[j])
    ensures ExtractContent(d) == Abbreviate(Trim(d.contentCandidates[i].value), ContentLimit)
    ensures |Trim(d.contentCandidates[i].value)| <= ContentLimit ==> ExtractContent(d) == Trim(d.contentCandidates[i].value)
  {
    FirstFilledIs(d.contentCandidates, i);
  }

  // ---------------------------------------------------------------------------
  // scrapeUrl
  // ---------------------------------------------------------------------------

  /**
   * How fetching one URL ends: a document (None when the library hands back
   * null), an IOException, or any other exception, each with the message
   * the exception carries (None for a null message).
   */
  datatype FetchOutcome =
    | Fetched(doc: Option<Document>)
    | IoFailure(ioMessage: Option<string>)
    | OtherFailure(otherMessage: Option<string>)

  /** The outcome of a fetch and the milliseconds it took. */
  datatype Fetch = Fetch(outcome: FetchOutcome, elapsed: int)

  /**
   * What the web path gets from outside: the fetch of each URL, the host
   * `java.net.URI` finds in a URL ("" when it throws, None when it has
   * none), the pattern scanners, and the messages the JVM gives the two
   * NullPointerExceptions it raises itself: unboxing a null `maxResults`
   * and lower-casing a null topic (JDK 15 and later describe the null
   * there; older ones leave the message null).
   */
  datatype WebEnv = WebEnv(
    fetch: string -> Fetch,
    host: string -> Option<string>,
    scanners: Scanners,
    nullMaxResultsMessage: Option<string>,
    nullTopicMessage: Option<string>)

  const ConnectionErrorPrefix := "Connection error: "
  const UnexpectedErrorPrefix := "Unexpected error: "
  const NoDocumentMessage := "No document received from URL"

  predicate StartsWith(s: string, prefix: string) {
    |prefix| <= |s| && s[..|prefix|] == prefix
  }

  /** `"prefix" + message`, where a null message is rendered as "null". */
  function FailureMessage(prefix: string, message: Option<string>): (r: string)
    ensures StartsWith(r, prefix)
  {
    var r := prefix + message.GetOr("null");
    assert r[..|prefix|] == prefix;
    r
  }

  /** The record of a URL whose scrape failed: only url, status, time and message are set. */
  function FailedRecord(url: string, elapsed: int, message: string): ScrapedData {
    ScrapedData(Some(url), None, None, None, None, None, None, None, Some(StatusError), elapsed, Some(message))
  }

  /** True when the fetch of `url` produced a document. */
  predicate FetchSucceeds(env: WebEnv, url: string) {
    env.fetch(url).outcome.Fetched? && env.fetch(url).outcome.doc.Some?
  }

  /** scrapeUrl: never throws; every failure becomes an error record for the same URL. */
  function ScrapeUrl(env: WebEnv, url: string): (r: ScrapedData)
    ensures r.url == Some(url)
    ensures r.responseTime == env.fetch(url).elapsed
    ensures r.status == Some(StatusSuccess) || r.status == Some(StatusError)
    ensures r.status == Some(StatusSuccess) <==> FetchSucceeds(env, url)
    ensures r.status == Some(StatusSuccess) ==>
              && r.errorMessage.None?
              && r.title.Some? && r.description.Some? && r.content.Some?
              && r.emails.Some? && r.phoneNumbers.Some? && r.socialLinks.Some?
    ensures r.status == Some(StatusError) ==>
              && r.errorMessage.Some?
              && r.title.None? && r.description.None? && r.content.None? && r.domain.None?
              && r.emails.None? && r.phoneNumbers.None? && r.socialLinks.None?
    ensures r.status == Some(StatusError) ==>
              (StartsWith(r.errorMessage.value, ConnectionErrorPrefix) <==> !env.fetch(url).outcome.OtherFailure?)
    ensures FetchSucceeds(env, url) ==>
              var d := env.fetch(url).outcome.doc.value;
              && r.title == Some(ExtractTitle(d)) && r.description == Some(ExtractDescription(d))
              && r.content == Some(ExtractContent(d)) && r.domain == env.host(url)
              && r.emails == Some(WebEmails(env.scanners, d.text))
              && r.phoneNumbers == Some(WebPhones(env.scanners, d.text))
              && r.socialLinks == Some(WebSocialLinks(env.scanners, d.hrefs, d.text))
    ensures env.fetch(url).outcome == Fetched(None) ==>
              r.errorMessage == Some(ConnectionErrorPrefix + NoDocumentMessage)
    ensures env.fetch(url).outcome.IoFailure? ==>
              r.errorMessage == Some(ConnectionErrorPrefix + env.fetch(url).outcome.ioMessage.GetOr("null"))
    ensures env.fetch(url).outcome.OtherFailure? ==>
              r.errorMessage == Some(UnexpectedErrorPrefix + env.fetch(url).outcome.otherMessage.GetOr("null"))
  {
    var f := env.fetch(url);
    match f.outcome
    case Fetched(Some(d)) =>
      var sc := env.scanners;
      ScrapedData(
        Some(url),
        Some(ExtractTitle(d)),
        Some(ExtractDescription(d)),
        Some(WebEmails(sc, d.text)),
        Some(WebPhones(sc, d.text)),
        Some(WebSocialLinks(sc, d.hrefs, d.text)),
        Some(ExtractContent(d)),
        env.host(url),
        Some(StatusSuccess),
        f.elapsed,
        None)
    case Fetched(None) =>
      FailedRecord(url, f.elapsed, FailureMessage(ConnectionErrorPrefix, Some(NoDocumentMessage)))
    case IoFailure(m) =>
      FailedRecord(url, f.elapsed, FailureMessage(ConnectionErrorPrefix, m))
    case OtherFailure(m) =>
      var msg := FailureMessage(UnexpectedErrorPrefix, m);
      assert msg[..|ConnectionErrorPrefix|] != ConnectionErrorPrefix by {
        assert msg[0] == 'U';
      }
      FailedRecord(url, f.elapsed, msg)
  }

  /**
   * The message of a failed record reads back as the cause: after the
   * "Connection error: " of an I/O failure (a missing document included) or
   * the "Unexpected error: " of any other failure comes the exception's
   * own message, "null" when it has none.
   */
  lemma ScrapeUrlFailureCause(env: WebEnv, url: string)
    requires !FetchSucceeds(env, url)
    ensures var m := ScrapeUrl(env, url).errorMessage;
            var o := env.fetch(url).outcome;
            && m.Some?
            && (o.OtherFailure? <==> StartsWith(m.value, UnexpectedErrorPrefix))
            && (o.OtherFailure? ==> m.value[|UnexpectedErrorPrefix|..] == o.otherMessage.GetOr("null"))
            && (o.IoFailure? ==> m.value[|ConnectionErrorPrefix|..] == o.ioMessage.GetOr("null"))
            && (o.Fetched? ==> m.value[|ConnectionErrorPrefix|..] == NoDocumentMessage)
  {
    var m := ScrapeUrl(env, url).errorMessage.value;
    if !env.fetch(url).outcome.OtherFailure? {
      assert m[0] == 'C';
    }
  }

  /** The e-mails of a scraped page are lower-case and pass the false-positive filter. */
  lemma ScrapedEmailsAreClean(env: WebEnv, url: string)
    ensures ScrapeUrl(env, url).emails.Some? ==>
              forall e :: e in ScrapeUrl(env, url).emails.value ==> IsLowerCase(e) && !IsFalsePositiveEmail(e)
  {
  }

  // ---------------------------------------------------------------------------
  // filterScrapedData
  // ---------------------------------------------------------------------------

  /** The request names of the seven optional fields. */
  const WebFieldNames: set<string> := {"title", "description", "emails", "phoneNumbers", "socialLinks", "content", "domain"}

  /** A null or empty selection means "everything". */
  predicate SelectsAll(fields: Option<set<string>>) {
    fields.None? || fields.value == {}
  }

  function KeepIf<T>(named: bool, v: Option<T>): Option<T> {
    if named then v else None
  }

  /**
   * filterScrapedData: url, status, responseTime and errorMessage always
   * survive; each optional field survives when its name is selected.
   */
  function FilterScrapedData(data: ScrapedData, fields: Option<set<string>>): (r: ScrapedData)
    ensures SelectsAll(fields) ==> r == data
    ensures r.url == data.url && r.status == data.status
    ensures r.responseTime == data.responseTime && r.errorMessage == data.errorMessage
    ensures !SelectsAll(fields) ==>
              && (r.title == data.title || ("title" !in fields.value && r.title.None?))
              && (r.description == data.description || ("description" !in fields.value && r.description.None?))
              && (r.emails == data.emails || ("emails" !in fields.value && r.emails.None?))
              && (r.phoneNumbers == data.phoneNumbers || ("phoneNumbers" !in fields.value && r.phoneNumbers.None?))
              && (r.socialLinks == data.socialLinks || ("socialLinks" !in fields.value && r.socialLinks.None?))
              && (r.content == data.content || ("content" !in fields.value && r.content.None?))
              && (r.domain == data.domain || ("domain" !in fields.value && r.domain.None?))
  {
    if SelectsAll(fields) then data
    else
      var f := fields.value;
      ScrapedData(
        data.url,
        KeepIf("title" in f, data.title),
        KeepIf("description" in f, data.description),
        KeepIf("emails" in f, data.emails),
        KeepIf("phoneNumbers" in f, data.phoneNumbers),
        KeepIf("socialLinks" in f, data.socialLinks),
        KeepIf("content" in f, data.content),
        KeepIf("domain" in f, data.domain),
        data.status,
        data.responseTime,
        data.errorMessage)
  }

  /** A field that is selected is kept exactly; one that is not is dropped. */
  lemma FilterKeepsExactlyTheSelected(data: ScrapedData, f: set<string>)
    requires f != {}
    ensures var r := FilterScrapedData(data, Some(f));
      && (r.title == if "title" in f then data.title else None)
      && (r.description == if "description" in f then data.description else None)
      && (r.emails == if "emails" in f then data.emails else None)
      && (r.phoneNumbers == if "phoneNumbers" in f then data.phoneNumbers else None)
      && (r.socialLinks == if "socialLinks" in f then data.socialLinks else None)
      && (r.content == if "content" in f then data.content else None)
      && (r.domain == if "domain" in f then data.domain else None)
  {
  }

  /** Filtering twice with the same selection is filtering once. */
  lemma FilterIdempotent(data: ScrapedData, fields: Option<set<string>>)
    ensures FilterScrapedData(FilterScrapedData(data, fields), fields) == FilterScrapedData(data, fields)
  {
  }

  /** Selecting all seven names keeps the record as it is. */
  lemma FilterAllNamedIsIdentity(data: ScrapedData, f: set<string>)
    requires WebFieldNames <= f
    ensures FilterScrapedData(data, Some(f)) == data
  {
    assert "title" in f;
  }

  // ---------------------------------------------------------------------------
  // scrapeWebData
  // ---------------------------------------------------------------------------

  const ScrapeFailedPrefix := "Scraping failed: "
  const ScrapeCompletedMessage := "Scraping completed successfully"

  function Min(a: int, b: int): int {
    if a < b then a else b
  }

  /** The response of the outer `catch`: zero counts, no results, no metadata. */
  function ErrorResponse(req: ScrapeRequest, message: Option<string>, elapsed: int): (r: ScrapeResponse)
    ensures r.status == StatusError && StartsWith(r.message, ScrapeFailedPrefix)
  {
    ScrapeResponse(req.searchTopic, 0, 0, 0, [], None, elapsed, StatusError, FailureMessage(ScrapeFailedPrefix, message))
  }

  /** Each URL of the truncated list scraped, then cut down to the selection, in list order. */
  function ScrapeAll(env: WebEnv, urls: seq<string>, fields: Option<set<string>>): (rs: seq<ScrapedData>)
    ensures |rs| == |urls|
    ensures forall i :: 0 <= i < |urls| ==> rs[i].url == Some(urls[i])
    ensures forall i :: 0 <= i < |urls| ==> rs[i].status == ScrapeUrl(env, urls[i]).status
    ensures forall i :: 0 <= i < |urls| ==> rs[i].status in {Some(StatusSuccess), Some(StatusError)}
    ensures forall i :: 0 <= i < |urls| ==> rs[i] == FilterScrapedData(ScrapeUrl(env, urls[i]), fields)
  {
    seq(|urls|, i requires 0 <= i < |urls| => FilterScrapedData(ScrapeUrl(env, urls[i]), fields))
  }

  /**
   * scrapeWebData over the URL list the search produced (the list itself is
   * an input). `elapsed` stands for the processing time. The failures, in
   * the order the code meets them:
   * - A null maxResults: unboxing it for the URL generator throws a
   *   NullPointerException with the JVM's message.
   * - A null topic: the URL generator lower-cases it and throws a
   *   NullPointerException with the JVM's message.
   * - A negative maxResults: `Stream.limit` throws an
   *   IllegalArgumentException whose message is the number.
   * - Any null metadata value: `Map.of` throws a NullPointerException, whose
   *   message is null, after the scraping is done.
   */
  function ScrapeWebData(env: WebEnv, req: ScrapeRequest, urls: seq<string>, elapsed: int): (r: ScrapeResponse)
    ensures r.searchTopic == req.searchTopic && r.processingTime == elapsed
    ensures r.status == StatusCompleted || r.status == StatusError
    ensures r.status == StatusError <==>
              req.maxResults.None? || req.searchTopic.None? || req.maxResults.value < 0
              || req.searchEngine.None? || req.language.None? || req.country.None?
    ensures r.status == StatusError ==>
              && r.totalResults == 0 && r.successfulScrapes == 0 && r.failedScrapes == 0
              && r.results == [] && r.metadata.None?
              && StartsWith(r.message, ScrapeFailedPrefix)
    ensures req.maxResults.None? ==> r.message == ScrapeFailedPrefix + env.nullMaxResultsMessage.GetOr("null")
    ensures req.maxResults.Some? && req.searchTopic.None? ==>
              r.message == ScrapeFailedPrefix + env.nullTopicMessage.GetOr("null")
    ensures req.maxResults.Some? && req.searchTopic.Some? && req.maxResults.value < 0 ==>
              r.message == ScrapeFailedPrefix + IntToDecimal(req.maxResults.value)
    ensures r.status == StatusCompleted ==>
              && r.message == ScrapeCompletedMessage
              && r.totalResults == |urls|
              && |r.results| == Min(req.maxResults.value, |urls|)
              && (forall i :: 0 <= i < |r.results| ==> r.results[i].url == Some(urls[i]))
              && (forall i :: 0 <= i < |r.results| ==>
                    r.results[i] == FilterScrapedData(ScrapeUrl(env, urls[i]), req.fieldsToExtract))
              && r.successfulScrapes == |FetchedUrls(env, urls[..|r.results|])|
              && r.successfulScrapes + r.failedScrapes == |r.results| <= r.totalResults
              && r.metadata == Some(Metadata(req.searchEngine.value, req.language.value, req.country.value))
  {
    if req.maxResults.None? then ErrorResponse(req, env.nullMaxResultsMessage, elapsed)
    else if req.searchTopic.None? then ErrorResponse(req, env.nullTopicMessage, elapsed)
    else if req.maxResults.value < 0 then ErrorResponse(req, Some(IntToDecimal(req.maxResults.value)), elapsed)
    else
      var max := req.maxResults.value;
      var results := ScrapeAll(env, urls[..Min(max, |urls|)], req.fieldsToExtract);
      if req.searchEngine.None? || req.language.None? || req.country.None? then
        ErrorResponse(req, None, elapsed)
      else
        var ss := StatusesOf(results, DataStatus);
        CountsPartition(ss);
        SuccessCountIsFetchCount(env, urls[..Min(max, |urls|)], req.fieldsToExtract);
        ScrapeResponse(
          req.searchTopic,
          |urls|,
          CountStatus(ss, StatusSuccess),
          CountStatus(ss, StatusError),
          results,
          Some(Metadata(req.searchEngine.value, req.language.value, req.country.value)),
          elapsed,
          StatusCompleted,
          ScrapeCompletedMessage)
  }

  /** A completed batch reports as successful exactly the URLs whose fetch produced a document. */
  lemma {:induction false} SuccessCountIsFetchCount(env: WebEnv, urls: seq<string>, fields: Option<set<string>>)
    ensures CountStatus(StatusesOf(ScrapeAll(env, urls, fields), DataStatus), StatusSuccess) == |FetchedUrls(env, urls)|
    decreases |urls|
  {
    if |urls| > 0 {
      SuccessCountIsFetchCount(env, urls[1..], fields);
      assert StatusesOf(ScrapeAll(env, urls, fields), DataStatus)[1..] == StatusesOf(ScrapeAll(env, urls[1..], fields), DataStatus);
    }
  }

  /** The URLs of the list whose fetch produced a document, in order. */
  function FetchedUrls(env: WebEnv, urls: seq<string>): (r: seq<string>)
    ensures forall u :: u in r <==> u in urls && FetchSucceeds(env, u)
    decreases |urls|
  {
    if |urls| == 0 then []
    else (if FetchSucceeds(env, urls[0]) then [urls[0]] else []) + FetchedUrls(env, urls[1..])
  }
}

=== FILE: wrappers.dfy ===
/** Java references that may be null are modelled with Option: None stands for null. */
module Wrappers {

  datatype Option<+T> = None | Some(value: T) {

    /** The wrapped value, or `default` when this is None (Java's `x != null ? x : default`). */
    function GetOr(default: T): T {
      match this
      case Some(v) => v
      case None => default
    }
  }
}
